=== FILE: README.md ===
# kitsu_ingest shot ledger, modelled in Dafny

kitsu_ingest takes an editorial breakdown sheet (one row per shot code such as
`SHOT_0030_A006C012_241206VG`) and a conformed edit. It sorts the sheet by shot
code, derives the canonical shot id (`SHOT_0030`), and writes the CSV the Kitsu
tracker imports. It cuts the edit into one `.mp4` clip per shot with a running
frame cursor. Then it imports the shots, checks the tracker's shots against
the local clips and the local CSV, asks for confirmation when they disagree,
and publishes every clip as a preview on the matching task, counting the
matched, unmatched and failed clips.

The model covers that pipeline in every revision the repository carries:
`utils/validation.py`, `kitsu_ingest/processors/*` and `kitsu/publisher.py`
(the most complete copy), and the monoliths `misc/old_core.py`, `core.py` and
`kitsu_ingest.py`, which differ in the checks they run. Where the revisions
share code (sorting, shot extraction, the partition loop, the flag rules), one
definition stands for all of them: `sort_dataframe` and `extract_shots` are
line for line the same in `utils/validation.py`, `misc/old_core.py:25-64` and
`core.py:25-63`. The partition loop is the same in
`kitsu_ingest/processors/video_processor.py`, `misc/old_core.py:284-322`,
`core.py:154-192` and `kitsu_ingest.py:108-146`. The flag rules of
`core.py:294-304` repeat those of `misc/old_core.py:419-429`. The revisions
that differ get their own definition and a lemma relating it to the others.

Modules, leaves first:

- `Wrappers`: Option and Result.
- `Text`: the Python string primitives the code uses. These are split and
  join, strip with Python's whitespace set, lower-casing, string order, the
  numeric coercions of `pd.to_numeric`, `int()` and `float()`, and
  `os.path.splitext`, `basename` and `join`.
- `Seqs`: small sequence facts.
- `ShotCode`: canonical ids and the sort key.
- `Sorting`: the stable sort.
- `Sheet`: tables, `sort_dataframe` and the naming step.
- `Shots`: `extract_shots`.
- `Partition`: `VideoProcessor.process`.
- `CsvExport`: `CsvProcessor.process`.
- `Ledger`: `build_data_dicts`.
- `Reconcile`: the gate, the presence check and the metadata check.
- `Publish`: the map from shot names to tracker tasks, the publish loop and its tally.
- `Push`: the push workflow of each revision and `fetch_csv_from_folder`.
- `Cli`: the flag rules and the constructor's steps.

A missing or empty sheet cell stands for pandas' NaN. The tracker, ffmpeg, the
file system and the terminal are parameters:
- an entity lookup;
- a publish function returning the step that raised;
- an export predicate per window;
- an existence predicate and a listing;
- `respond(n)`, the `n`-th answer typed at a prompt.

Behaviour worth noting:
- A shot code whose second segment does not parse sorts after the parseable
  ones of its prefix (pandas' default `na_position='last'`), not before them
  (`Sorting.UnparseableLast`).
- `misc/old_core.py` and `core.py` import the CSV into the tracker before any
  check, so answering "no" at the prompt does not undo the import
  (`Push.OldCoreImportsFirst`).
- A sheet without a SHOT column, or one where no code contains '_', raises
  KeyError in `sort_dataframe`. There is no dedicated missing-column error.
- `pd.to_numeric` accepts a leading sign. "SHOT_-5" sorts before "SHOT_5"
  (`ShotCode.SignedNumberKey`), and a FRAME DURATION of "-5" survives
  `extract_shots` as a negative length (`Shots.NegativeDurationKept`) that
  makes later clip windows overlap earlier ones (`Partition.NegativeLengthOverlaps`).
- `misc/old_core.py` given both `--push_only` and `--csv` fetches the CSV and
  then raises AttributeError, because the push-only branch never sets
  `df_obj` (`Cli.OldCoreInit`).
- The checked CSV export raises ValueError for a missing rename source. A
  missing FPS column surfaces only at the projection, as a KeyError.

## Model

| member | source | states |
|---|---|---|
| Text.Split | utils/validation.py:33 | `str.split('_')` always yields at least one piece |
| Text.SplitPiecesFree | utils/validation.py:33 | no piece of a split contains the separator |
| Text.JoinSplit | kitsu_ingest/processors/csv_processor.py:26-28 | joining the pieces of a split with the same separator restores the string |
| Text.SplitJoin | kitsu_ingest/processors/csv_processor.py:26-28 | splitting a join of separator-free pieces restores the pieces |
| Text.ParseNat | utils/validation.py:93-95 | the unsigned digit core of `int()` accepts exactly the non-empty decimal-digit strings |
| Text.ParseShowNat | utils/validation.py:37 | every natural number has a spelling that coerces back to it |
| Text.LeadingZeroIgnored | utils/validation.py:37 | leading zeros do not change the coerced value ("0030" is 30) |
| Text.ParseDecimal | utils/validation.py:16-17 | the unsigned decimal part of `pd.to_numeric` and `float()` agrees with the integer reading on digit strings, is never negative, and rejects the empty string |
| Text.ToNumeric | utils/validation.py:16-17 | `pd.to_numeric(..., errors='coerce')` gives a number exactly when what follows an optional sign is a decimal; the value is negative only when spelt with '-', and an unsigned spelling reads as the unsigned decimal |
| Text.ToNumericSigned | utils/validation.py:37 | a leading '-' negates the value that follows and a leading '+' changes nothing |
| Text.ParseIntPadded | utils/validation.py:93-96 | `int()` and `float()` of a digit string with surrounding whitespace give its value |
| Text.StrLtIrreflexive | utils/validation.py:40 | Python string `<` is irreflexive |
| Text.StrLtAsymmetric | utils/validation.py:40 | Python string `<` is asymmetric |
| Text.StrLtTransitive | utils/validation.py:40 | Python string `<` is transitive |
| Text.StrLtTotal | utils/validation.py:40 | any two distinct strings are ordered one way or the other |
| Text.StripEnds | utils/validation.py:170 | what `strip()` keeps neither starts nor ends with whitespace |
| Text.StripDecomposes | utils/validation.py:170 | every answer is its stripped word with only whitespace around it |
| Text.StripPadded | utils/validation.py:170 | `strip()` removes exactly the whitespace around a word |
| Text.StripAllSpace | utils/validation.py:170-171 | an answer of only whitespace strips to the empty string |
| Text.AsciiLower | utils/validation.py:170 | `lower()` keeps the length and lower-cases each ASCII capital |
| Text.SplitExtRoot | kitsu/publisher.py:64 | `splitext(f)[0]` is a prefix of the file name |
| Text.RootOfExtended | kitsu/publisher.py:64 | `splitext` removes an appended extension, except after a name of only dots |
| Text.Basename | kitsu_ingest/processors/csv_processor.py:48 | `basename` is the slash-free tail of the path |
| Text.PathJoin | kitsu/publisher.py:72 | `os.path.join(dir, f)` ends with `f` |
| Text.BasenameOfJoin | kitsu_ingest/processors/video_processor.py:30 | joining a folder and a slash-free name and taking the basename gives the name back |
| ShotCode.CanonicalId | kitsu_ingest/processors/csv_processor.py:26-28 | the first two `_` segments of the code, joined again; see the CanonicalId lemmas below |
| ShotCode.CanonicalIdIsPrefix | kitsu_ingest/processors/csv_processor.py:26-28 | the canonical id is a prefix of its shot code |
| ShotCode.CanonicalIdSegments | kitsu_ingest/processors/csv_processor.py:26-28 | the canonical id's segments are the first (at most two) segments of the code |
| ShotCode.CanonicalIdIdempotent | kitsu_ingest/processors/csv_processor.py:26-28 | deriving the canonical id again changes nothing |
| ShotCode.CanonicalIdOfShortCode | kitsu_ingest/processors/csv_processor.py:26-28 | a code with at most two segments is its own canonical id |
| ShotCode.CanonicalIdOfLongCode | kitsu_ingest/processors/csv_processor.py:26-28 | a code of three or more segments keeps exactly the first two |
| ShotCode.CanonicalIdDropsTrailingSegments | misc/old_core.py:51 | "SHOT_0030_A006C012_241206VG" becomes "SHOT_0030" |
| ShotCode.CanonicalIdKeepsTwoSegments | kitsu_ingest/processors/csv_processor.py:26-28 | "SQ02_0005" stays "SQ02_0005" |
| ShotCode.KeyOf | utils/validation.py:33-37 | the (prefix, coerced number) sort key of a code; see KeyOfJoined, SignedNumberKey and KeyOfCanonicalId |
| ShotCode.KeyLeReflexive | utils/validation.py:36-40 | the (prefix, number) order is reflexive |
| ShotCode.KeyLeTotal | utils/validation.py:36-40 | any two sort keys are comparable |
| ShotCode.KeyLeTransitive | utils/validation.py:36-40 | the order is transitive, NaN numbers placed last |
| ShotCode.KeyLeAntisymmetric | utils/validation.py:36-40 | keys ordered both ways are equal |
| ShotCode.KeyOfJoined | utils/validation.py:33-37 | the sort key of `prefix_number` is the prefix and the coerced number |
| ShotCode.SignedNumberKey | utils/validation.py:36-40 | "P_-n" is keyed by minus the value of "n" and sorts no later than "P_n" |
| ShotCode.KeyOfCanonicalId | misc/old_core.py:209-214 | a code and its canonical id have the same sort key |
| Sorting.SortBy | utils/validation.py:40 | the stable two-key sort; see SortPermutes, SortSorted, SortStable and SortCharacterized |
| Sorting.SortPermutes | utils/validation.py:40 | `sort_values` returns a permutation of the rows |
| Sorting.SortSorted | utils/validation.py:40 | rows come out ordered by prefix, then number |
| Sorting.SortStable | utils/validation.py:40 | rows with equal keys keep their input order |
| Sorting.SortedClassesDetermine | utils/validation.py:40 | two sorted arrangements with the same per-key order are equal |
| Sorting.SortCharacterized | utils/validation.py:40 | the sort is the only sorted, class-order-keeping arrangement of its input |
| Sorting.SortIgnoresCrossClassOrder | utils/validation.py:40 | inputs that differ only across keys sort to the same output |
| Sorting.UnparseableLast | utils/validation.py:37-40 | within a prefix, a code whose number is NaN follows every code whose number parsed |
| Sheet.MissingExactly | utils/validation.py:9 | the missing list names exactly the required columns that are absent |
| Sheet.MissingEmpty | utils/validation.py:9-10 | nothing is missing exactly when every required column is present |
| Sheet.SortedRow | utils/validation.py:30-43 | a sorted row has its SHOT cell stringified (NaN becoming "nan"), loses the helper columns and keeps every other cell |
| Sheet.SortedRows | utils/validation.py:30-43 | every row is rewritten that way, in place |
| Sheet.Without | utils/validation.py:43 | `drop(columns=...)` keeps exactly the other columns, and changes nothing when none is present |
| Sheet.SortDataframe | utils/validation.py:29-45 | KeyError exactly when SHOT is absent or no code contains '_' |
| Sheet.SortDataframePermutes | utils/validation.py:36-45 | the result's columns are the sheet's minus `sort_prefix` and `sort_number`, its rows are a permutation of the rewritten rows, and no row keeps a helper cell |
| Sheet.HelpersGone | utils/validation.py:43 | a permutation of rewritten rows carries no helper cell |
| Sheet.SortDataframeSorted | utils/validation.py:36-40 | sorted rows are in (prefix, number) order |
| Sheet.SortDataframeStable | utils/validation.py:40 | rows with equal keys keep their sheet order |
| Sheet.SortDataframeEmptySheet | utils/validation.py:33-37 | a sheet with no rows has no split column 1 and raises |
| Sheet.WithCanonicalNames | kitsu_ingest/processors/csv_processor.py:26-28 | every row gets `final_shot_name` set to the canonical id of its code |
| Sheet.PrepareSheet | misc/old_core.py:209-214 | sort, then derive the names; see PrepareSheetNamesSorted, PrepareSheetColumns and PrepareSheetKeepsRows |
| Sheet.PrepareSheetNamesSorted | misc/old_core.py:209-214 | names are derived after sorting, so the rows are in order of their names and each name is its code's canonical id |
| Sheet.PrepareSheetColumns | misc/old_core.py:209-214 | the prepared sheet has the sheet's columns minus the helpers, plus `final_shot_name` |
| Sheet.PrepareSheetKeepsRows | core.py:94-99 | sorting and naming fail only when sorting does, and keep every row |
| Shots.SurvivorsAppend | utils/validation.py:16-19 | `dropna` works row by row and keeps the survivors in sheet order |
| Shots.SurvivorsOne | utils/validation.py:16-19 | a row survives exactly when its name is not NaN and its length and fps both coerce, and then carries the coerced numbers |
| Shots.NegativeDurationKept | utils/validation.py:16-19 | on a named row, a duration spelt "-d" with a valid frame rate survives as the negative length -d |
| Shots.SurvivorsNonNegative | utils/validation.py:16-19 | when no length or fps cell is spelt with '-', surviving lengths and frame rates are not negative |
| Shots.UpsertNames | utils/validation.py:21-24 | a dict assignment keeps an existing key's slot and appends a new key |
| Shots.BuildDictOrder | utils/validation.py:21-24 | the dict lists each name once, in order of first occurrence |
| Shots.BuildDictLastWins | utils/validation.py:21-24 | each entry holds the values of the last row with its name |
| Shots.DedupDistinct | utils/validation.py:21-24 | the first-occurrence order lists each name once and only names that occur |
| Shots.BuildDictDistinct | utils/validation.py:21-24 | the dict has one entry per distinct surviving name |
| Shots.BuildDictFrom | utils/validation.py:21-24 | every entry is one of the surviving rows |
| Shots.BuildDictRepeatedName | utils/validation.py:21-24 | rows A, B, A' give entries A', B |
| Shots.ExtractShots | utils/validation.py:7-26 | the column check, coercion, `dropna` and the dict; see ExtractShotsErrors, SurvivorsOne, BuildDictOrder and BuildDictLastWins |
| Shots.ExtractShotsErrors | utils/validation.py:8-11 | ValueError exactly when a required column is absent, naming exactly the absent ones |
| Shots.ExtractShotsNonNegative | utils/validation.py:16-19 | for a sheet without '-' spellings, extracted lengths and frame rates are not negative |
| Shots.ExtractShotsRevisionsAgree | kitsu_ingest.py:14-28 | without the column check the same sheets pass and give the same dict; only the exception type differs |
| Partition.Partition | kitsu_ingest/processors/video_processor.py:15-22 | one window per shot, in order; see PartitionAt, PartitionContiguous and PartitionOrdered |
| Partition.Ranges | kitsu_ingest/processors/video_processor.py:20-22 | one window per shot |
| Partition.RangesAt | kitsu_ingest/processors/video_processor.py:15-22 | window `i` starts at the cursor plus the lengths before it and lasts the shot's length |
| Partition.PartitionAt | kitsu_ingest/processors/video_processor.py:15-22 | window `i` is named after shot `i`, starts at the prefix sum, and the first starts at 0 |
| Partition.PartitionContiguous | kitsu_ingest/processors/video_processor.py:21-22 | each window starts where the previous ended, and the last ends at the total length |
| Partition.PartitionStep | kitsu_ingest/processors/video_processor.py:53 | the cursor moves to the end of the window just cut |
| Partition.RangesIgnoreFps | kitsu_ingest/processors/video_processor.py:20-22 | the frame rate has no effect on the windows |
| Partition.PartitionOrdered | kitsu_ingest/processors/video_processor.py:20-22 | with non-negative lengths the windows are in order and do not overlap |
| Partition.ExtractedWindowsOrdered | misc/old_core.py:284-294 | for a sheet without '-' spellings, the windows cut from the extracted dict never overlap |
| Partition.NegativeLengthOverlaps | kitsu_ingest/processors/video_processor.py:15-22 | lengths 10, -5, 1 give a third window that starts inside the first |
| Partition.PartitionOfThree | core.py:160-192 | lengths 10, 20, 15 give windows 0-10, 10-30, 30-45 |
| Partition.OutputPathBasename | kitsu_ingest/processors/video_processor.py:30 | a clip's file name is the shot name plus ".mp4" |
| Partition.OutputPathStem | kitsu_ingest/processors/video_processor.py:30 | a clip's stem is its shot name again |
| Partition.ExportedBound | kitsu_ingest/processors/video_processor.py:48 | only successful exports are listed, at most one per shot |
| Partition.ExportedAll | kitsu_ingest/processors/video_processor.py:47-48 | when every export succeeds, every shot's path is listed in order |
| Partition.CutShot | kitsu_ingest/processors/video_processor.py:20-22 | one iteration cuts the partition's window for that shot and moves the cursor to its end |
| Partition.ProcessVideo | kitsu_ingest/processors/video_processor.py:13-56 | the loop asks for exactly the partition's windows, whatever the exports do, and returns the successful paths |
| CsvExport.ProcessCsv | kitsu_ingest/processors/csv_processor.py:23-46 | the checked export; see ProcessCsvShape, ProcessCsvErrors, ProcessCsvNames and ProcessCsvSorted |
| CsvExport.ProcessCsvShape | kitsu_ingest/processors/csv_processor.py:43-46 | the header is Sequence, Name, Frame In, Frame Out, Nb Frames, Description, FPS and every row carries the sequence |
| CsvExport.ProcessCsvErrors | kitsu_ingest/processors/csv_processor.py:39-46 | ValueError names exactly the absent rename sources; otherwise a missing FPS raises KeyError |
| CsvExport.ProcessCsvSortFirst | kitsu_ingest/processors/csv_processor.py:24-28 | a sheet that cannot be sorted fails with the sort's error before any column check |
| CsvExport.ProcessCsvNames | kitsu_ingest/processors/csv_processor.py:25-46 | no row is dropped: the names are the canonical ids of the (stringified) codes, as a multiset |
| CsvExport.SortedRowsIds | kitsu_ingest/processors/csv_processor.py:24-28 | rewriting the rows before naming them gives the canonical ids of the original codes |
| CsvExport.HelpersNotExported | kitsu_ingest/processors/csv_processor.py:43-46 | neither helper column is among the exported columns |
| CsvExport.ProcessCsvSorted | kitsu_ingest/processors/csv_processor.py:25-46 | the written rows are in shot order of their names |
| CsvExport.ProcessCsvEarliest | kitsu_ingest.py:78-92 | the export without the rename check; see ProcessCsvRevisionsAgree and ProcessCsvEarliestAcceptsTargetName |
| CsvExport.ProcessCsvRevisionsAgree | kitsu_ingest.py:78-92 | where the checked export accepts a sheet with sequence "SQ01", the earliest one writes the same table |
| CsvExport.ProcessCsvEarliestAcceptsTargetName | kitsu_ingest.py:89-92 | with no check, a sheet carrying "Description" in place of "Clip Name" is exported |
| CsvExport.ProcessCsvRejectsTargetName | core.py:139-141 | the checked export rejects that sheet, naming only "Clip Name" |
| CsvExport.ProcessedCsvName | kitsu_ingest/processors/csv_processor.py:48-49 | the output file name; see ProcessedCsvNameShape and ProcessedCsvStem |
| CsvExport.ProcessedCsvNameShape | kitsu_ingest/processors/csv_processor.py:48-50 | the output name ends in ".csv" and sits directly in the output folder |
| CsvExport.ProcessedCsvStem | kitsu_ingest/processors/csv_processor.py:48-49 | the output stem is the input stem, "_kitsu_" and the timestamp |
| Ledger.CollectOk | utils/validation.py:91-100 | a dict comprehension succeeds exactly when every entry does |
| Ledger.CollectFirstError | utils/validation.py:91-100 | a failing comprehension raises the first failing entry's error |
| Ledger.CollectErrorFrom | utils/validation.py:79-88 | a failure is the failure of some entry |
| Ledger.CollectKeys | utils/validation.py:79-88 | the keys are exactly the entries' names |
| Ledger.CollectLastWins | utils/validation.py:91-100 | the value under a name is that of its last entry |
| Ledger.Trunc | utils/validation.py:93-95 | `int()` of a float truncates toward zero: the sign is kept, and the result is no farther from zero than the float and less than one away from it |
| Ledger.RemoteEntryOf | utils/validation.py:80-86 | one tracker shot's entry; see RemoteDefaults and RemoteEntryRaisesOnlyOnCasts |
| Ledger.RemoteLedger | utils/validation.py:79-88 | the tracker ledger; see RemoteLedgerErrors and RemoteLedgerContents |
| Ledger.RemoteDefaults | utils/validation.py:81-85 | missing fields default to frames 0, nb_frames 0 (uncast), fps 0.0 and "" |
| Ledger.RemoteEntryRaisesOnlyOnCasts | utils/validation.py:80-86 | a tracker shot raises only in the three casts; nb_frames and description are kept as given |
| Ledger.RemoteLedgerErrors | utils/validation.py:79-88 | the remote ledger fails only on a value `int()`/`float()` rejects |
| Ledger.RemoteLedgerContents | utils/validation.py:79-88 | one entry per shot name, from the last shot of that name |
| Ledger.IntField | utils/validation.py:93-95 | `int(row[c])` fails only for an absent column or a non-numeric cell |
| Ledger.FloatField | utils/validation.py:96 | `float(row[c])` fails only for an absent column or a non-numeric cell |
| Ledger.LocalRow | utils/validation.py:92-97 | one CSV row's entry; see LocalRowKey and LocalRowErrors |
| Ledger.LocalLedger | utils/validation.py:90-100 | the CSV ledger; see LocalLedgerOfNoRows, LocalLedgerStrict, LocalLedgerErrors and LocalLedgerContents |
| Ledger.LocalRowKey | utils/validation.py:92 | a CSV row is keyed by its Name cell |
| Ledger.LocalLedgerOfNoRows | utils/validation.py:90-100 | a CSV with no rows gives an empty ledger |
| Ledger.LocalLedgerNeedsColumns | utils/validation.py:92-97 | no defaults: an absent "Frame In" raises KeyError |
| Ledger.LocalLedgerStrict | utils/validation.py:93 | one row with a non-numeric frame makes the whole ledger raise |
| Ledger.LocalRowErrors | utils/validation.py:92-97 | converting a row fails only with KeyError or a rejected value |
| Ledger.LocalFieldsErrors | utils/validation.py:93-97 | converting a row's fields fails only with KeyError or a rejected value |
| Ledger.LocalLedgerErrors | utils/validation.py:91-100 | the local ledger fails only on an absent column or a rejected value |
| Ledger.LocalLedgerContents | utils/validation.py:91-100 | one entry per name, from the last row of that name |
| Reconcile.AskUser | utils/validation.py:169-173 | the y/N prompt; see AskUserAcceptsPadded, AskUserOnlyYes and AskUserDefaultAborts |
| Reconcile.AskUserAcceptsPadded | utils/validation.py:169-173 | "y" or "yes", in any ASCII case and with any whitespace around it, continues |
| Reconcile.AskUserOnlyYes | utils/validation.py:170-171 | an answer that continues is "y" or "yes" between whitespace |
| Reconcile.AskUserDefaultAborts | utils/validation.py:170-173 | an empty or blank answer aborts |
| Reconcile.CheckPresence | utils/validation.py:105-123 | matching holds exactly the tracker names that have a clip; matching and missing partition the tracker names, matching and extra partition the clip stems, and the prompt is asked exactly when the two sets differ |
| Reconcile.ClipsOfShotsMatch | utils/validation.py:106-107 | clips written for a list of shots have exactly those names as stems |
| Reconcile.FieldDiffs | utils/validation.py:137-145 | the comparison raises only the TypeError of a NaN description |
| Reconcile.FieldDiffsClean | utils/validation.py:137-148 | it raises exactly for a NaN description against a str or None; otherwise nothing is flagged exactly when every field agrees |
| Reconcile.FieldDiffsComplete | utils/validation.py:137-145 | when the comparison succeeds, each field's flag, with both values, is present exactly when that field disagrees (floats by at least 1e-3), and flags appear in field order |
| Reconcile.FieldDiffsFlagged | utils/validation.py:140-145 | each flagged field disagrees: floats by at least 1e-3, others by `!=` |
| Reconcile.FpsTolerance | utils/validation.py:140-142 | fps 0.0009 away is not flagged, 0.001 away is, NaN never is |
| Reconcile.Report | utils/validation.py:126-152 | the mismatch report; see SafetyCheckMetadata, ReportClean and ReportMissing |
| Reconcile.SafetyCheckMetadata | utils/validation.py:126-152 | the two loops build exactly the per-name report: missing on either side, or the differing fields |
| Reconcile.CsvPass | utils/validation.py:129-148 | after the CSV pass every shared name compared cleanly, and the names recorded are exactly the CSV names that are missing in the tracker or differ, each with its expected entry; a comparison that raises yields the report's error |
| Reconcile.TrackerPass | utils/validation.py:150-152 | the tracker pass adds exactly the tracker names the CSV lacks, as missing in the CSV, and keeps what the CSV pass found |
| Reconcile.ReportClean | utils/validation.py:147-166 | the report is empty (no prompt) exactly when both ledgers hold the same names and every shot agrees |
| Reconcile.ReportMissing | utils/validation.py:130-152 | a name on one side only is reported missing on the other; a name on neither is absent |
| Publish.TaskMap | utils/validation.py:66-75 | the shot-to-task map; see TaskMapKeys and TaskMapLastWins |
| Publish.TaskMapKeys | utils/validation.py:66-75 | a shot has a task exactly when some task with a truthy entity id resolves to it |
| Publish.TaskMapLastWins | misc/old_core.py:103-112 | a shot keeps the last tracker task resolving to it |
| Publish.WithExtension | kitsu/publisher.py:46 | filtering never adds files |
| Publish.WithExtensionKeeps | kitsu/publisher.py:46 | the filter keeps exactly the listed names with the extension |
| Publish.Outcome | kitsu/publisher.py:63-96 | what happens to one clip; see Outcomes, PublishOne and PublishFound |
| Publish.Outcomes | kitsu/publisher.py:63-96 | one outcome per clip, each decided by that clip alone |
| Publish.Tally | kitsu/publisher.py:61-96 | the three counters; see TallyCounts and TallyAppend |
| Publish.TallyCounts | kitsu/publisher.py:61-96 | every clip increments one counter: matched counts publishes, unmatched missing tasks or files |
| Publish.TallyAppend | kitsu/publisher.py:61-96 | tallying two batches and adding is tallying both |
| Publish.CallsCount | kitsu/publisher.py:65-92 | unmatched clips make no tracker call; there is one call per matched or failed clip |
| Publish.PublishLoop | kitsu/publisher.py:61-98 | the loop visits every clip, a failure never stops it, and it returns the tally and the calls |
| Publish.PublishOne | kitsu/publisher.py:64-96 | one clip bumps exactly the counter of its outcome, and the tracker is called with its path only when its task and its file were both found |
| Publish.PublishFound | kitsu/publisher.py:80-96 | a found clip is sent to the tracker once; a clean answer counts it as matched and a raised one as failed |
| Publish.SubtractionTally | misc/old_core.py:357-395 | matched as the clip count minus unmatched and failed; see SubtractionTallyAgrees |
| Publish.SubtractionTallyAgrees | misc/old_core.py:357-395 | counting matched as len minus unmatched minus failed gives the same counters |
| Publish.OutcomesWithoutDiskCheck | core.py:239-266 | one outcome per clip, no existence test |
| Publish.DiskCheckMatters | core.py:239-266 | core.py differs from the publisher only on a listed clip gone from disk, which it still sends |
| Publish.EarliestCalls | kitsu_ingest.py:192-224 | the earliest loop's tracker calls; see EarliestCallsAgree |
| Publish.EarliestCallsAgree | kitsu_ingest.py:192-224 | filtering `.mp4` inside the loop calls the tracker for the same clips, in order, as core.py |
| Push.PublishPreviews | kitsu/publisher.py:46-98 | the publisher's push; see PublishNeedsCsv, PublishChecksFirst, PublishCounts and CompletedRun |
| Push.Gates | kitsu/publisher.py:56-57 | the two checks and their prompts; see GatesProceed and GatesQuiet |
| Push.CheckedPublish | kitsu/publisher.py:53-98 | ledgers, gates, then the loop; see PublishChecksFirst and PublishWithoutPrompt |
| Push.PublishNeedsCsv | kitsu/publisher.py:50-59 | FileNotFoundError exactly when the folder lists no CSV, before anything is published |
| Push.PublishChecksFirst | kitsu/publisher.py:50-63 | a completed publish built both ledgers, ran both checks and got "yes" at every prompt asked |
| Push.GatesProceed | kitsu/publisher.py:56-57 | the gates proceed only when each prompt asked got "yes" |
| Push.PublishWithoutPrompt | kitsu/publisher.py:53-57 | matching clips and agreeing ledgers publish without asking |
| Push.GatesQuiet | kitsu/publisher.py:56-57 | with nothing missing, nothing extra and no field differing, neither check asks and the push proceeds |
| Push.PublishCounts | kitsu/publisher.py:61-98 | a completed publish counts every mp4 once and calls the tracker once per matched or failed clip |
| Push.CompletedRun | kitsu/publisher.py:46-98 | a completed publish reports the tally and the calls of the loop over the listed mp4 files, with tracker tasks keyed by shot name |
| Push.OldCorePush | misc/old_core.py:327-395 | the old push; see OldCoreImportsFirst and OldCoreAgrees |
| Push.OldCoreImportsFirst | misc/old_core.py:327-352 | the import runs before both checks, and a missing project does nothing |
| Push.OldCoreAgrees | misc/old_core.py:333-395 | after the import, the old push ends as the publisher does on the same CSV |
| Push.CorePush | core.py:216-270 | core.py's push; see CoreCountsAsPublisher |
| Push.CoreCountsAsPublisher | core.py:216-270 | with every clip on disk, core.py counts as the publisher's loop |
| Push.EarliestPush | kitsu_ingest.py:168-224 | the earliest push; see EarliestAgreesWithCore |
| Push.EarliestAgreesWithCore | kitsu_ingest.py:168-224 | the earliest push imports and calls the tracker as core.py does |
| Push.CsvCandidatesFirst | utils/validation.py:50-60 | the first candidate is the newest CSV file of the folder |
| Push.CsvCandidatesNone | utils/validation.py:57-58 | a folder without CSV files yields no candidate |
| Push.CsvCandidatesHas | utils/validation.py:50-57 | a folder with a CSV file yields a candidate |
| Push.FetchCsvFromFolder | utils/validation.py:48-63 | the newest CSV of a folder, or FileNotFoundError; see FetchCsvFromFolderNewest |
| Push.FetchCsvFromFolderNewest | utils/validation.py:48-63 | the lookup succeeds exactly when there is a CSV file, and returns the newest one's path |
| Push.FetchCsvFromFolderJoinedTwice | misc/old_core.py:68-83 | the lookup with the path joined twice; see JoinedTwiceMisses and JoinedTwiceHarmlessWhenAbsolute |
| Push.JoinedTwiceMisses | misc/old_core.py:68-83 | for a relative folder the path returned names a sub-folder of the folder, not the CSV found |
| Push.JoinedTwiceHarmlessWhenAbsolute | core.py:66-81 | for an absolute folder the second join is harmless |
| Cli.CheckFlags | misc/old_core.py:419-429 | a command line is accepted exactly when the four rules hold, then runs in exactly one mode; each error names its broken rule |
| Cli.EarliestAccepts | kitsu_ingest.py:237-245 | the earliest revision requires --csv and --push, and whatever it accepts with a breakdown the later rules accept |
| Cli.Tail | misc/old_core.py:216-223 | export exactly with a breakdown, split exactly with a breakdown and a video, push last exactly with a project |
| Cli.OldCoreInit | misc/old_core.py:203-223 | the constructor raises exactly when it gets neither or both of breakdown and folder; with both it fetches first; every accepted folder push fetches and pushes |
| Cli.CoreInit | core.py:94-118 | the constructor reads the breakdown first and raises at once without one |
| Cli.CorePushOnlyNeverPushes | core.py:94-109 | every folder push core.py accepts raises before its first step |
| Cli.CoreAgreesWithOldCore | core.py:94-118 | outside folder pushes core.py and misc/old_core.py take the same steps |
| Cli.EarliestInit | kitsu_ingest.py:51-76 | the earliest constructor takes the later steps minus the output-folder step |

## Left out

- Reading and writing CSV files (`pd.read_csv`, `to_csv`) and pandas dtype inference. A sheet is a table of text cells, and an empty cell stands for NaN.
- ffmpeg trimming and encoding. An export is an abstract success predicate per window.
- Every call to the tracker: login, project and sequence lookup, `import_shots_with_csv`, `add_comment`, `add_preview` and `set_main_preview`. Publishing is an abstract function returning the step that raised. The entity lookup is a function parameter.
- Credentials and `.env` loading (`kitsu_ingest/kitsu/auth.py`), and the re-exports of `kitsu/__init__.py`.
- `KitsuPublisher.connect` and `import_shots_from_csv`. These are tracker calls only.
- `build_output_dir` and `_create_output_dir`. Timestamps and directory creation are I/O; the timestamp is a parameter of `CsvExport.ProcessedCsvName`.
- Logging, printed reports and `close()`.
- argparse itself. Only the flag rules that `main` applies after parsing are modelled.
- `input()` and `exit(0)`. The answer is a parameter and the exit is `Abort`. An end of input at the prompt (EOFError) is not modelled.
- Push.FetchCsvFromFolder: the ordering of files by modification time is file-system state. The listing is given already newest first.
- Text.ToNumeric: `pd.to_numeric` and `float()` also accept exponents, "inf", "nan" and other spellings. Only an optional sign before plain decimal digits with an optional fraction is modelled.
- Text.ParseNat: `int()` also accepts underscores between digits and non-ASCII decimal digits. Only ASCII digits, with an optional sign and whitespace around them (`Text.ParseInt`), are modelled.
- Shots.SurvivorsNonNegative, Shots.ExtractShotsNonNegative, Partition.ExtractedWindowsOrdered: these hold only for sheets whose FRAME DURATION and FPS cells are not spelt with '-'. `pd.to_numeric` keeps "-24", and then the bounds fail (`Shots.NegativeDurationKept`, `Partition.NegativeLengthOverlaps`).
- Cli.OldCoreInit: `fetch_csv_from_folder` raising FileNotFoundError in the constructor is modelled in `Push.FetchCsvFromFolder`. The constructor's step list records only that the fetch is asked for.
- Ledger.FloatOf: IEEE rounding is not modelled. Frame rates are exact reals.
- Reconcile.FieldDiffs: the tolerance is exactly 1/1000, not the double nearest 1e-3.
- Text.AsciiLower: `lower()` outside ASCII is not modelled. Only U+212A and U+0130 lower to ASCII letters, and neither can produce "y" or "yes".
- Reconcile.SafetyCheckMetadata: the report is a map. The insertion order of the Python dict (CSV names first, then tracker-only names) and the printed summary are not modelled.
- Ledger.RemoteLedger: the ledgers are maps, so the iteration order of the Python dicts is not modelled. The checks that use them do not depend on it.
- Ledger.LocalRow: a NaN Name cell is a float key in pandas. The model keys it by the empty string.
- Ledger.RemoteEntryOf: a tracker shot whose `data` is null raises AttributeError in Python. The model has no null `data`.
- CsvExport.ProcessCsv: a sheet that already has a column named like a rename target (say both "Clip Name" and "Description") gets duplicate columns from pandas' rename. The checked export reads the renamed source.
- Partition.ProcessVideo: the cutting loop of every revision catches only `ffmpeg.Error`. Any other exception from the export (a missing ffmpeg binary raising FileNotFoundError, say) ends the loop and propagates, and so does a failing `os.makedirs` inside the loops of `misc/old_core.py:302`, `core.py:172` and `kitsu_ingest.py:126`. An export here only succeeds or fails, so the promise that every window is asked for holds only when no such exception occurs.
- Partition.ProcessVideo: the monolithic revisions keep no list of exported files. The list returned is the one `VideoProcessor` keeps; the windows asked for are the same in every revision.
- Publish.Outcome: the truthiness test on a task (`if not task`) is modelled as presence in the map, since a task record is a non-empty dict.

## Findings

| source | as written | input that shows it | evidently intended | confidence | as-written member | corrected member |
|---|---|---|---|---|---|---|
| core.py:94-99 | the constructor reads `csv_path` before it looks at `push_only`, and `main` rejects `--csv` together with `--push_only` | `--push_only out -p PROJ`: `pd.read_csv(None)` raises before the folder is read | read the breakdown only outside folder-push mode, as misc/old_core.py:203-215 does | high; not executed | Cli.CorePushOnlyNeverPushes | Cli.OldCoreInit |
| misc/old_core.py:80 | returns `os.path.join(path, csv_files[0])`, although `csv_files[0]` already starts with `path` | folder "out" holding "a.csv" gives "out/out/a.csv" | return `csv_files[0]`, as utils/validation.py:60 does | high; not executed | Push.JoinedTwiceMisses | Push.FetchCsvFromFolderNewest |
| core.py:78 | the same second join | folder "out" holding "a.csv" gives "out/out/a.csv" | return `csv_files[0]` | high; not executed | Push.FetchCsvFromFolderJoinedTwice | Push.FetchCsvFromFolder |

=== FILE: cli.dfy ===
/** The command line of each revision: which flag combinations `main`
    accepts, and the steps the ingest object then takes in its constructor
    (read and sort the breakdown, pick the output folder, export, split the
    video, push). Each step is recorded rather than performed; what a step
    computes is modelled in its own module. */
module Cli {
  import opened Wrappers

  /** The parsed arguments; an option that was not given is None. */
  datatype Args = Args(csv: Option<string>, video: Option<string>, push: Option<string>, pushOnly: Option<string>, sequence: string)

  /** Python truthiness of an option value: absent and empty both read as
      not given. */
  predicate Given(o: Option<string>) {
    o.Some? && o.value != ""
  }

  // ---------------------------------------------------------------------
  // Flag rules

  /** Why `main` stops with a usage error. */
  datatype FlagError = PushOnlyWithInputs | PushOnlyWithoutProject | VideoWithoutCsv | NothingToDo

  /** The four rules, each on its own: a folder push takes no breakdown or
      video and needs a project, a video needs a breakdown, and something
      must be given. */
  predicate Accepted(a: Args) {
    && (Given(a.pushOnly) ==> !Given(a.csv) && !Given(a.video) && Given(a.push))
    && (Given(a.video) ==> Given(a.csv))
    && (Given(a.csv) || Given(a.video) || Given(a.pushOnly))
  }

  /** The checks of `main` in the two later revisions, in their order; the
      first that fails ends the program. An accepted command line runs in
      exactly one mode: from a breakdown, or from a processed folder. */
  function CheckFlags(a: Args): (r: Option<FlagError>)
    ensures r.None? <==> Accepted(a)
    ensures r.None? ==> (Given(a.pushOnly) <==> !Given(a.csv))
    ensures r == Some(PushOnlyWithInputs) <==> Given(a.pushOnly) && (Given(a.csv) || Given(a.video))
    ensures r == Some(PushOnlyWithoutProject) ==> Given(a.pushOnly) && !Given(a.push)
    ensures r == Some(VideoWithoutCsv) ==> Given(a.video) && !Given(a.csv) && !Given(a.pushOnly)
    ensures r == Some(NothingToDo) <==> !Given(a.csv) && !Given(a.video) && !Given(a.pushOnly)
  {
    if Given(a.pushOnly) && (Given(a.csv) || Given(a.video)) then Some(PushOnlyWithInputs)
    else if Given(a.pushOnly) && !Given(a.push) then Some(PushOnlyWithoutProject)
    else if Given(a.video) && !Given(a.csv) then Some(VideoWithoutCsv)
    else if !(Given(a.csv) || Given(a.video) || Given(a.pushOnly)) then Some(NothingToDo)
    else None
  }

  /** The earliest revision only marks the breakdown and the project as
      required, and has no folder-push option; an empty value still counts
      as given there. Whatever it accepts with a non-empty breakdown, the
      later rules accept too. */
  function EarliestAccepts(a: Args): (ok: bool)
    ensures ok ==> a.pushOnly.None?
    ensures ok && Given(a.csv) ==> Accepted(a)
    ensures !ok ==> a.csv.None? || a.push.None? || a.pushOnly.Some?
  {
    a.csv.Some? && a.push.Some? && a.pushOnly.None?
  }

  // ---------------------------------------------------------------------
  // The constructor

  /** One step of the constructor. */
  datatype Action =
    | ReadSheet(path: string)
    | FetchCsv(folder: string)
    | BuildOutputDir
    | ProcessCsv
    | ProcessVideo
    | PushToTracker(project: string)

  /** The steps taken, and whether the constructor raised after them. */
  datatype Run = Run(actions: seq<Action>, raised: bool)

  /** The steps that follow the choice of output folder, shared by the
      later revisions: export when there is a breakdown, split the video
      when there are both, push when there is a project. */
  function Tail(a: Args): (t: seq<Action>)
    ensures ProcessCsv in t <==> Given(a.csv)
    ensures ProcessVideo in t <==> Given(a.csv) && Given(a.video)
    ensures (exists p :: PushToTracker(p) in t) <==> Given(a.push)
    ensures |t| > 0 && Given(a.push) ==> t[|t| - 1] == PushToTracker(a.push.value)
    ensures forall i :: 0 <= i < |t| ==> !t[i].ReadSheet? && !t[i].FetchCsv? && !t[i].BuildOutputDir?
  {
    (if Given(a.csv) then [ProcessCsv] else [])
    + (if Given(a.video) && Given(a.csv) then [ProcessVideo] else [])
    + (if Given(a.push) then [PushToTracker(a.push.value)] else [])
  }

  /** The constructor of misc/old_core.py: a folder push takes the newest
      CSV of that folder and reads no breakdown; otherwise the breakdown is
      read, which raises when none was given. A folder push that is also
      given a breakdown then exports a sheet it never read, which raises
      (AttributeError on the missing `df_obj`): the constructor raises unless
      exactly one of the two is given. On every accepted command line it
      runs to the end, and a folder push does exactly two things. */
  function OldCoreInit(a: Args): (run: Run)
    ensures run.raised <==> (Given(a.pushOnly) <==> Given(a.csv))
    ensures Accepted(a) ==> !run.raised
    ensures Given(a.pushOnly) && Given(a.csv) ==> run.actions == [FetchCsv(a.pushOnly.value)]
    ensures Accepted(a) && Given(a.pushOnly) ==> run.actions == [FetchCsv(a.pushOnly.value), PushToTracker(a.push.value)]
    ensures Given(a.csv) && !Given(a.pushOnly) ==> |run.actions| >= 2 && run.actions[..2] == [ReadSheet(a.csv.value), BuildOutputDir]
  {
    if Given(a.pushOnly) then
      if Given(a.csv) then Run([FetchCsv(a.pushOnly.value)], true)
      else Run([FetchCsv(a.pushOnly.value)] + Tail(a), false)
    else if !Given(a.csv) then Run([], true)
    else Run([ReadSheet(a.csv.value), BuildOutputDir] + Tail(a), false)
  }

  /** The constructor of core.py as written: the breakdown is read before
      the mode is chosen, so a run without one raises at once. */
  function CoreInit(a: Args): (run: Run)
    ensures run.raised <==> !Given(a.csv)
    ensures run.raised ==> run.actions == []
    ensures !run.raised ==> |run.actions| > 0 && run.actions[0] == ReadSheet(a.csv.value)
  {
    if !Given(a.csv) then Run([], true)
    else
      var folder := if Given(a.pushOnly) then [FetchCsv(a.pushOnly.value)] else [BuildOutputDir];
      Run([ReadSheet(a.csv.value)] + folder + Tail(a), false)
  }

  /** Every folder push that the flag rules of core.py accept raises before
      its first step, so that mode can never push. */
  lemma CorePushOnlyNeverPushes(a: Args)
    requires CheckFlags(a).None? && Given(a.pushOnly)
    ensures CoreInit(a) == Run([], true)
    ensures OldCoreInit(a) == Run([FetchCsv(a.pushOnly.value), PushToTracker(a.push.value)], false)
  {
  }

  /** Outside folder pushes the two later constructors agree. */
  lemma CoreAgreesWithOldCore(a: Args)
    requires !Given(a.pushOnly)
    ensures CoreInit(a) == OldCoreInit(a)
  {
  }

  /** The constructor of kitsu_ingest.py: always reads the breakdown, keeps
      no output folder of its own, then exports, splits and pushes. On a
      command line both revisions accept, it takes the later steps without
      the output-folder step. */
  function EarliestInit(a: Args): (run: Run)
    ensures run.raised <==> !Given(a.csv)
    ensures !run.raised ==> run.actions == [ReadSheet(a.csv.value)] + Tail(a)
    ensures !run.raised && !Given(a.pushOnly) ==> OldCoreInit(a).actions == [run.actions[0], BuildOutputDir] + run.actions[1..]
  {
    if !Given(a.csv) then Run([], true)
    else Run([ReadSheet(a.csv.value), ProcessCsv]
             + (if Given(a.video) then [ProcessVideo] else [])
             + (if Given(a.push) then [PushToTracker(a.push.value)] else []), false)
  }
}

=== FILE: csv_export.dfy ===
/** `CsvProcessor.process` (and `process_csv` of the monolithic revisions):
    the prepared breakdown sheet is renamed and projected onto the columns
    the tracker's shot import expects, with every shot placed in one
    sequence, and written next to the clips as `{stem}_kitsu_{timestamp}.csv`. */
module CsvExport {
  import opened Wrappers
  import opened Text
  import opened ShotCode
  import opened Sorting
  import opened Seqs
  import opened Sheet
  import opened Shots

  const FrameInColumn := "FRAME IN"
  const FrameOutColumn := "FRAME OUT"
  const ClipNameColumn := "Clip Name"

  /** The keys of `rename_mapping`, in order. */
  const RenameSources := [NameColumn, FrameInColumn, FrameOutColumn, DurationColumn, ClipNameColumn]

  const SequenceOut := "Sequence"
  const NameOut := "Name"
  const FrameInOut := "Frame In"
  const FrameOutOut := "Frame Out"
  const NbFramesOut := "Nb Frames"
  const DescriptionOut := "Description"

  /** The values of `rename_mapping`, in order. */
  const RenameTargets := [NameOut, FrameInOut, FrameOutOut, NbFramesOut, DescriptionOut]

  /** `['Sequence'] + list(rename_mapping.values()) + ['FPS']`. */
  const OutputColumns := [SequenceOut] + RenameTargets + [FpsColumn]

  /** The sequence the earliest revision assigns to every shot. */
  const DefaultSequence := "SQ01"

  /** One row of the written file, field by field in `OutputColumns` order. */
  datatype OutRow = OutRow(sequence: string, name: string, frameIn: string, frameOut: string,
                           nbFrames: string, description: string, fps: string)

  /** The written file: a header and its rows. */
  datatype OutTable = OutTable(columns: seq<string>, rows: seq<OutRow>)

  /** The exported row of a prepared sheet row. */
  function Export(sequence: string): Row -> OutRow {
    r => OutRow(sequence, Cell(r, NameColumn), Cell(r, FrameInColumn), Cell(r, FrameOutColumn),
                Cell(r, DurationColumn), Cell(r, ClipNameColumn), Cell(r, FpsColumn))
  }

  /** `process()` after reading: prepare (sort, name), check the rename
      sources, rename, set the sequence and project. FPS is not among the
      checked columns, so its absence surfaces only at the projection, as
      a KeyError. */
  function ProcessCsv(t: Table, sequence: string): Result<OutTable, Error> {
    var prepared :- PrepareSheet(t);
    var missing := Missing(RenameSources, prepared.columns);
    if |missing| > 0 then Err(MissingColumns(missing))
    else if FpsColumn !in prepared.columns then Err(KeyNotFound([FpsColumn]))
    else Ok(OutTable(OutputColumns, Map(prepared.rows, Export(sequence))))
  }

  /** None of the exported columns is a helper column of the sort. */
  lemma HelpersNotExported()
    ensures forall c :: c in RenameSources || c == FpsColumn ==> c !in HelperColumns
  {
  }

  /** The header is the seven output columns in order, and every row carries
      the requested sequence. */
  lemma ProcessCsvShape(t: Table, sequence: string)
    requires ProcessCsv(t, sequence).Ok?
    ensures var out := ProcessCsv(t, sequence).value;
      && out.columns == OutputColumns
      && forall i :: 0 <= i < |out.rows| ==> out.rows[i].sequence == sequence
  {
  }

  /** The sheet is rejected for a missing rename source (listed exactly),
      then for a missing FPS; the canonical-name column is never reported,
      since preparing the sheet adds it. */
  lemma ProcessCsvErrors(t: Table, sequence: string, c: string)
    requires PrepareSheet(t).Ok?
    ensures ProcessCsv(t, sequence).Err? <==>
      (exists s :: s in RenameSources && s != NameColumn && s !in t.columns) || FpsColumn !in t.columns
    ensures ProcessCsv(t, sequence).Err? && ProcessCsv(t, sequence).error.MissingColumns? ==>
      (c in ProcessCsv(t, sequence).error.names <==> c in RenameSources && c !in t.columns && c != NameColumn)
    ensures ProcessCsv(t, sequence).Err? && ProcessCsv(t, sequence).error.KeyNotFound? ==>
      ProcessCsv(t, sequence).error.names == [FpsColumn] && forall s :: s in RenameSources ==> s in t.columns || s == NameColumn
  {
    var cols := PrepareSheet(t).value.columns;
    PrepareSheetColumns(t);
    HelpersNotExported();
    MissingEmpty(RenameSources, cols);
    MissingExactly(RenameSources, cols, c);
    assert FpsColumn != NameColumn;
  }

  /** A sheet whose SHOT column is missing, or none of whose codes has an
      underscore, fails before any column is checked, exactly as sorting does. */
  lemma ProcessCsvSortFirst(t: Table, sequence: string)
    requires SortDataframe(t).Err?
    ensures ProcessCsv(t, sequence) == Err(SortDataframe(t).error)
  {
  }

  /** The canonical id of a row's code, NaN read as "nan". */
  function CodeId(r: Row): string {
    CanonicalId(ShotText(r))
  }

  /** The canonical id of a row whose code is already text. */
  function IdOfText(r: Row): string {
    CanonicalId(Cell(r, ShotColumn))
  }

  lemma SortedRowsIds(rows: seq<Row>)
    ensures Map(SortedRows(rows), IdOfText) == Map(rows, CodeId)
  {
    var sorted := SortedRows(rows);
    forall i | 0 <= i < |rows| ensures IdOfText(sorted[i]) == CodeId(rows[i]) {
      assert sorted[i] == SortedRow(rows[i]);
    }
  }

  /** No row is dropped or duplicated: the names are exactly the canonical ids
      of the sheet's codes (as text). */
  lemma ProcessCsvNames(t: Table, sequence: string)
    requires ProcessCsv(t, sequence).Ok?
    ensures var out := ProcessCsv(t, sequence).value;
      && |out.rows| == |t.rows|
      && multiset(Map(out.rows, (r: OutRow) => r.name)) == multiset(Map(t.rows, CodeId))
  {
    var sorted := SortDataframe(t).value;
    var out := ProcessCsv(t, sequence).value;
    PrepareSheetKeepsRows(t);
    assert Map(out.rows, (r: OutRow) => r.name) == Map(sorted.rows, IdOfText);
    assert multiset(Map(sorted.rows, IdOfText)) == multiset(Map(SortedRows(t.rows), IdOfText)) by {
      SortDataframePermutes(t);
      MapPermutes(sorted.rows, SortedRows(t.rows), IdOfText);
    }
    SortedRowsIds(t.rows);
  }

  /** The rows come out in shot order of their names. */
  lemma ProcessCsvSorted(t: Table, sequence: string)
    requires ProcessCsv(t, sequence).Ok?
    ensures var out := ProcessCsv(t, sequence).value;
      forall i, j :: 0 <= i < j < |out.rows| ==>
        KeyLe(KeyOf(out.rows[i].name), KeyOf(out.rows[j].name))
  {
    var prepared := PrepareSheet(t).value;
    var out := ProcessCsv(t, sequence).value;
    PrepareSheetNamesSorted(t);
    forall i, j | 0 <= i < j < |out.rows|
      ensures KeyLe(KeyOf(out.rows[i].name), KeyOf(out.rows[j].name))
    {
      assert out.rows[i].name == Cell(prepared.rows[i], NameColumn);
      assert out.rows[j].name == Cell(prepared.rows[j], NameColumn);
    }
  }

  // ---------------------------------------------------------------------
  // The earliest revision (kitsu_ingest.py)

  /** After `df.rename(columns=rename_mapping)` a target column exists when
      its source did, or when the sheet already had a column of that name. */
  predicate HasTarget(columns: seq<string>, i: nat)
    requires i < 5
  {
    RenameSources[i] in columns || RenameTargets[i] in columns
  }

  /** The cell a target column holds after the rename. */
  function TargetCell(columns: seq<string>, r: Row, i: nat): string
    requires i < 5
  {
    if RenameSources[i] in columns then Cell(r, RenameSources[i]) else Cell(r, RenameTargets[i])
  }

  /** The projected columns that are absent after the rename, in order. */
  function AbsentTargets(columns: seq<string>): seq<string> {
    (if HasTarget(columns, 0) then [] else [RenameTargets[0]])
    + (if HasTarget(columns, 1) then [] else [RenameTargets[1]])
    + (if HasTarget(columns, 2) then [] else [RenameTargets[2]])
    + (if HasTarget(columns, 3) then [] else [RenameTargets[3]])
    + (if HasTarget(columns, 4) then [] else [RenameTargets[4]])
    + (if FpsColumn in columns then [] else [FpsColumn])
  }

  function ExportEarliest(columns: seq<string>): Row -> OutRow {
    r => OutRow(DefaultSequence, TargetCell(columns, r, 0), TargetCell(columns, r, 1), TargetCell(columns, r, 2),
                TargetCell(columns, r, 3), TargetCell(columns, r, 4), Cell(r, FpsColumn))
  }

  /** `process_csv` in kitsu_ingest.py: no check before renaming, a fixed
      sequence "SQ01", and a KeyError from the projection naming every
      projected column that is absent. */
  function ProcessCsvEarliest(t: Table): Result<OutTable, Error> {
    var prepared :- PrepareSheet(t);
    var absent := AbsentTargets(prepared.columns);
    if |absent| > 0 then Err(KeyNotFound(absent))
    else Ok(OutTable(OutputColumns, Map(prepared.rows, ExportEarliest(prepared.columns))))
  }

  /** Wherever the checked revision accepts a sheet with sequence "SQ01", the
      earliest one writes the same table. */
  lemma ProcessCsvRevisionsAgree(t: Table)
    requires ProcessCsv(t, DefaultSequence).Ok?
    ensures ProcessCsvEarliest(t) == ProcessCsv(t, DefaultSequence)
  {
    var prepared := PrepareSheet(t).value;
    MissingEmpty(RenameSources, prepared.columns);
    assert forall i :: 0 <= i < 5 ==> RenameSources[i] in RenameSources;
    assert AbsentTargets(prepared.columns) == [];
    assert Map(prepared.rows, ExportEarliest(prepared.columns)) == Map(prepared.rows, Export(DefaultSequence));
  }

  /** The earliest revision accepts a sheet that carries a target column
      ("Description") in place of its source ("Clip Name")... */
  lemma ProcessCsvEarliestAcceptsTargetName(t: Table)
    requires PrepareSheet(t).Ok?
    requires NameColumn in t.columns && FrameInColumn in t.columns && FrameOutColumn in t.columns
    requires DurationColumn in t.columns && DescriptionOut in t.columns && FpsColumn in t.columns
    ensures ProcessCsvEarliest(t).Ok?
  {
    var cols := PrepareSheet(t).value.columns;
    SourcesKept(t);
    assert DescriptionOut in cols;
    assert AbsentTargets(cols) == [];
  }

  /** The columns the export reads survive the preparation. */
  lemma SourcesKept(t: Table)
    requires PrepareSheet(t).Ok?
    ensures forall c :: c in t.columns && (c in RenameSources || c == FpsColumn || c == DescriptionOut) ==>
      c in PrepareSheet(t).value.columns
  {
    PrepareSheetColumns(t);
    HelpersNotExported();
    assert DescriptionOut !in HelperColumns;
  }

  /** ...which the checked revision rejects, naming only "Clip Name". */
  lemma ProcessCsvRejectsTargetName(t: Table, sequence: string)
    requires PrepareSheet(t).Ok?
    requires forall s :: s in RenameSources && s != ClipNameColumn ==> s in t.columns
    requires ClipNameColumn !in t.columns
    ensures ProcessCsv(t, sequence).Err? && ProcessCsv(t, sequence).error.MissingColumns?
    ensures forall c :: c in ProcessCsv(t, sequence).error.names <==> c == ClipNameColumn
  {
    var cols := PrepareSheet(t).value.columns;
    PrepareSheetColumns(t);
    HelpersNotExported();
    assert ClipNameColumn in RenameSources && ClipNameColumn !in cols;
    MissingExactly(RenameSources, cols, ClipNameColumn);
    assert |Missing(RenameSources, cols)| > 0;
    forall c ensures c in Missing(RenameSources, cols) <==> c == ClipNameColumn {
      MissingExactly(RenameSources, cols, c);
    }
  }

  // ---------------------------------------------------------------------
  // The output file name

  /** `f"{splitext(basename(csv_path))[0]}_kitsu_{timestamp}.csv"`. */
  function ProcessedCsvName(csvPath: string, timestamp: string): string {
    SplitExtRoot(Basename(csvPath)) + "_kitsu_" + timestamp + ".csv"
  }

  /** The written file is what the publish step looks for: its name ends in
      ".csv", and joined to the output directory it sits directly in it. */
  lemma ProcessedCsvNameShape(dir: string, csvPath: string, timestamp: string)
    requires '/' !in timestamp
    ensures EndsWith(ProcessedCsvName(csvPath, timestamp), ".csv")
    ensures Basename(PathJoin(dir, ProcessedCsvName(csvPath, timestamp))) == ProcessedCsvName(csvPath, timestamp)
  {
    var name := ProcessedCsvName(csvPath, timestamp);
    assert '/' !in name;
    BasenameOfJoin(dir, name);
  }

  /** Its stem is the input file's stem followed by the suffix. */
  lemma ProcessedCsvStem(csvPath: string, timestamp: string)
    ensures SplitExtRoot(ProcessedCsvName(csvPath, timestamp))
      == SplitExtRoot(Basename(csvPath)) + "_kitsu_" + timestamp
  {
    var root := SplitExtRoot(Basename(csvPath));
    var stem := root + "_kitsu_" + timestamp;
    assert stem[|root|] == '_';
    RootOfExtended(stem, ".csv");
  }
}

=== FILE: ledger.dfy ===
/** `build_data_dicts`: the two ledgers the safety checks compare, keyed by
    shot name. The remote one is read from the tracker's shots with a default
    for every missing field; the local one is read from the processed CSV
    with strict casts and no defaults. Both are dict comprehensions: the first
    failing cast raises, and a later entry for the same name replaces an
    earlier one. */
module Ledger {
  import opened Wrappers
  import opened Text
  import opened Sheet
  import opened Shots
  import opened CsvExport

  // ---------------------------------------------------------------------
  // Dict comprehensions whose values may raise

  /** `{key(x): value(x) for x in items}` where computing an entry may raise:
      items are evaluated in order and the first failure propagates. */
  function Collect<T, V>(items: seq<T>, entry: T -> Result<(string, V), Error>): Result<map<string, V>, Error> {
    if |items| == 0 then Ok(map[])
    else
      var m :- Collect(items[..|items| - 1], entry);
      var kv :- entry(items[|items| - 1]);
      Ok(m[kv.0 := kv.1])
  }

  /** The comprehension succeeds exactly when every entry does. */
  lemma {:induction false} CollectOk<T, V>(items: seq<T>, entry: T -> Result<(string, V), Error>)
    ensures Collect(items, entry).Ok? <==> forall i :: 0 <= i < |items| ==> entry(items[i]).Ok?
  {
    if |items| > 0 {
      var init := items[..|items| - 1];
      CollectOk(init, entry);
      assert forall i :: 0 <= i < |init| ==> init[i] == items[i];
    }
  }

  /** When it fails, it fails with the error of the first failing entry. */
  lemma {:induction false} CollectFirstError<T, V>(items: seq<T>, entry: T -> Result<(string, V), Error>, k: nat)
    requires k < |items| && entry(items[k]).Err?
    requires forall i :: 0 <= i < k ==> entry(items[i]).Ok?
    ensures Collect(items, entry) == Err(entry(items[k]).error)
  {
    var init := items[..|items| - 1];
    if k < |items| - 1 {
      assert init[k] == items[k];
      CollectFirstError(init, entry, k);
    } else {
      CollectOk(init, entry);
    }
  }

  /** A failure is the failure of some entry. */
  lemma {:induction false} CollectErrorFrom<T, V>(items: seq<T>, entry: T -> Result<(string, V), Error>)
    requires Collect(items, entry).Err?
    ensures exists i :: 0 <= i < |items| && entry(items[i]) == Err(Collect(items, entry).error)
  {
    var init := items[..|items| - 1];
    if Collect(init, entry).Err? {
      CollectErrorFrom(init, entry);
      var i :| 0 <= i < |init| && entry(init[i]) == Err(Collect(init, entry).error);
      assert items[i] == init[i];
    }
  }

  /** The keys are exactly the entries' names. */
  lemma {:induction false} CollectKeys<T, V>(items: seq<T>, entry: T -> Result<(string, V), Error>, name: string)
    requires Collect(items, entry).Ok?
    ensures name in Collect(items, entry).value <==>
      exists i :: 0 <= i < |items| && entry(items[i]).Ok? && entry(items[i]).value.0 == name
  {
    if |items| > 0 {
      var init := items[..|items| - 1];
      CollectKeys(init, entry, name);
      if name in Collect(items, entry).value && name !in Collect(init, entry).value {
        assert entry(items[|items| - 1]).value.0 == name;
      }
      if exists i :: 0 <= i < |init| && entry(init[i]).Ok? && entry(init[i]).value.0 == name {
        var i :| 0 <= i < |init| && entry(init[i]).Ok? && entry(init[i]).value.0 == name;
        assert init[i] == items[i];
      }
      if exists i :: 0 <= i < |items| && entry(items[i]).Ok? && entry(items[i]).value.0 == name {
        var i :| 0 <= i < |items| && entry(items[i]).Ok? && entry(items[i]).value.0 == name;
        if i < |init| {
          assert init[i] == items[i];
        }
      }
    }
  }

  /** The value under a name is that of the last entry with that name. */
  lemma {:induction false} CollectLastWins<T, V>(items: seq<T>, entry: T -> Result<(string, V), Error>, i: nat)
    requires Collect(items, entry).Ok?
    requires i < |items|
    requires forall j :: 0 <= j < |items| ==> entry(items[j]).Ok?
    requires forall j :: i < j < |items| ==> entry(items[j]).value.0 != entry(items[i]).value.0
    ensures entry(items[i]).value.0 in Collect(items, entry).value
    ensures Collect(items, entry).value[entry(items[i]).value.0] == entry(items[i]).value.1
  {
    var init := items[..|items| - 1];
    if i < |items| - 1 {
      assert init[i] == items[i];
      assert forall j :: 0 <= j < |init| ==> init[j] == items[j];
      CollectLastWins(init, entry, i);
    }
  }

  // ---------------------------------------------------------------------
  // Python casts

  /** A JSON value from the tracker: int, float, str or null. */
  datatype Value = IntV(i: int) | RealV(r: real) | StrV(s: string) | NoneV

  /** `int(x)` for a float: truncation toward zero. The fraction is
      dropped and the sign kept: the result is never farther from zero than
      `x`, and less than one away from it. */
  function Trunc(x: real): (n: int)
    ensures x >= 0.0 ==> 0.0 <= n as real <= x < n as real + 1.0
    ensures x < 0.0 ==> n as real - 1.0 < x <= n as real <= 0.0
  {
    if x >= 0.0 then x.Floor else -((-x).Floor)
  }

  /** `int(v)`: ValueError for a str that is not an integer, TypeError for
      None. */
  function IntOf(v: Value): Result<int, Error> {
    match v
    case IntV(i) => Ok(i)
    case RealV(r) => Ok(Trunc(r))
    case StrV(s) => if ParseInt(s).Some? then Ok(ParseInt(s).value) else Err(InvalidValue(s))
    case NoneV => Err(InvalidValue("None"))
  }

  /** `float(v)`. */
  function FloatOf(v: Value): Result<real, Error> {
    match v
    case IntV(i) => Ok(i as real)
    case RealV(r) => Ok(r)
    case StrV(s) => if ParseReal(s).Some? then Ok(ParseReal(s).value) else Err(InvalidValue(s))
    case NoneV => Err(InvalidValue("None"))
  }

  /** `d.get(key, default)`. */
  function Get(d: map<string, Value>, key: string, default: Value): Value {
    if key in d then d[key] else default
  }

  // ---------------------------------------------------------------------
  // The remote ledger

  /** A shot as the tracker returns it: its name, its free-form `data`
      fields and its top-level fields. */
  datatype RemoteShot = RemoteShot(name: string, data: map<string, Value>, fields: map<string, Value>)

  /** `nb_frames` and `description` are kept as the tracker gave them. */
  datatype RemoteEntry = RemoteEntry(frameIn: int, frameOut: int, nbFrames: Value, fps: real, description: Value)

  /** The keys of a ledger entry, which are also the tracker's field names. */
  const FrameInKey := "frame_in"
  const FrameOutKey := "frame_out"
  const NbFramesKey := "nb_frames"
  const FpsKey := "fps"
  const DescriptionKey := "description"

  /** One entry of `kitsu_data`, with its fields computed in order. */
  function RemoteEntryOf(shot: RemoteShot): Result<(string, RemoteEntry), Error> {
    var frameIn :- IntOf(Get(shot.data, FrameInKey, IntV(0)));
    var frameOut :- IntOf(Get(shot.data, FrameOutKey, IntV(0)));
    var nbFrames := Get(shot.fields, NbFramesKey, IntV(0));
    var fps :- FloatOf(Get(shot.data, FpsKey, RealV(0.0)));
    Ok((shot.name, RemoteEntry(frameIn, frameOut, nbFrames, fps, Get(shot.fields, DescriptionKey, StrV("")))))
  }

  function RemoteLedger(shots: seq<RemoteShot>): Result<map<string, RemoteEntry>, Error> {
    Collect(shots, RemoteEntryOf)
  }

  /** A shot with no fields at all gets every default: frames 0, nb_frames 0
      (as given, not cast), fps 0.0 and an empty description. */
  lemma RemoteDefaults(name: string)
    ensures RemoteEntryOf(RemoteShot(name, map[], map[])) == Ok((name, RemoteEntry(0, 0, IntV(0), 0.0, StrV(""))))
  {
  }

  /** Only the three casts can raise; `nb_frames` and `description` are
      taken as they are, whatever they hold. */
  lemma RemoteEntryRaisesOnlyOnCasts(shot: RemoteShot)
    ensures RemoteEntryOf(shot).Ok? <==>
      && IntOf(Get(shot.data, FrameInKey, IntV(0))).Ok?
      && IntOf(Get(shot.data, FrameOutKey, IntV(0))).Ok?
      && FloatOf(Get(shot.data, FpsKey, RealV(0.0))).Ok?
    ensures RemoteEntryOf(shot).Ok? ==>
      && RemoteEntryOf(shot).value.0 == shot.name
      && RemoteEntryOf(shot).value.1.nbFrames == Get(shot.fields, NbFramesKey, IntV(0))
      && RemoteEntryOf(shot).value.1.description == Get(shot.fields, DescriptionKey, StrV(""))
  {
  }

  /** Building the remote ledger can only fail on a value the casts reject. */
  lemma RemoteLedgerErrors(shots: seq<RemoteShot>)
    requires RemoteLedger(shots).Err?
    ensures RemoteLedger(shots).error.InvalidValue?
  {
    CollectErrorFrom(shots, RemoteEntryOf);
  }

  /** The remote ledger holds one entry per shot name, from the last shot
      of that name. */
  lemma RemoteLedgerContents(shots: seq<RemoteShot>, i: nat)
    requires RemoteLedger(shots).Ok?
    requires i < |shots|
    requires forall j :: i < j < |shots| ==> shots[j].name != shots[i].name
    ensures shots[i].name in RemoteLedger(shots).value && RemoteEntryOf(shots[i]).Ok?
    ensures RemoteLedger(shots).value[shots[i].name] == RemoteEntryOf(shots[i]).value.1
  {
    CollectOk(shots, RemoteEntryOf);
    forall j | 0 <= j < |shots|
      ensures RemoteEntryOf(shots[j]).value.0 == shots[j].name
    {
      RemoteEntryRaisesOnlyOnCasts(shots[j]);
    }
    CollectLastWins(shots, RemoteEntryOf, i);
  }

  // ---------------------------------------------------------------------
  // The local ledger

  /** An empty cell is NaN: `float()` accepts it for the fps, and the
      description is kept as the NaN itself. `None` stands for NaN. */
  datatype LocalEntry = LocalEntry(frameIn: int, frameOut: int, nbFrames: int, fps: Option<real>, description: Option<string>)

  /** `row[c]`: KeyError when the file has no such column. */
  function Lookup(columns: seq<string>, r: Row, c: string): Result<string, Error> {
    if c in columns then Ok(Cell(r, c)) else Err(KeyNotFound([c]))
  }

  /** `int(cell)` on a numeric column: a decimal value is truncated, and an
      empty cell (NaN) raises. */
  function CellInt(text: string): Result<int, Error> {
    if ParseReal(text).Some? then Ok(Trunc(ParseReal(text).value)) else Err(InvalidValue(text))
  }

  /** `float(cell)`: an empty cell is NaN and passes. */
  function CellFloat(text: string): Result<Option<real>, Error> {
    if text == "" then Ok(None)
    else if ParseReal(text).Some? then Ok(Some(ParseReal(text).value))
    else Err(InvalidValue(text))
  }

  /** One entry of `local_data`: the name first, then the fields. */
  function LocalRow(columns: seq<string>, r: Row): Result<(string, LocalEntry), Error> {
    var name :- Lookup(columns, r, NameOut);
    var entry :- LocalFields(columns, r);
    Ok((name, entry))
  }

  /** The fields of one entry, each looked up and cast in order. */
  function LocalFields(columns: seq<string>, r: Row): Result<LocalEntry, Error> {
    var frameIn :- IntField(columns, r, FrameInOut);
    var frameOut :- IntField(columns, r, FrameOutOut);
    var nbFrames :- IntField(columns, r, NbFramesOut);
    var fps :- FloatField(columns, r, FpsColumn);
    var description :- Lookup(columns, r, DescriptionOut);
    Ok(LocalEntry(frameIn, frameOut, nbFrames, fps, if description == "" then None else Some(description)))
  }

  /** `int(row[c])`. */
  function IntField(columns: seq<string>, r: Row, c: string): (v: Result<int, Error>)
    ensures v.Err? ==> v.error.KeyNotFound? || v.error.InvalidValue?
  {
    var text :- Lookup(columns, r, c);
    CellInt(text)
  }

  /** `float(row[c])`. */
  function FloatField(columns: seq<string>, r: Row, c: string): (v: Result<Option<real>, Error>)
    ensures v.Err? ==> v.error.KeyNotFound? || v.error.InvalidValue?
  {
    var text :- Lookup(columns, r, c);
    CellFloat(text)
  }

  function LocalEntryOf(columns: seq<string>): Row -> Result<(string, LocalEntry), Error> {
    r => LocalRow(columns, r)
  }

  /** A converted row is keyed by its Name cell. */
  lemma LocalRowKey(columns: seq<string>, r: Row)
    ensures LocalRow(columns, r).Ok? ==> LocalRow(columns, r).value.0 == Cell(r, NameOut)
  {
  }

  function LocalLedger(t: Table): Result<map<string, LocalEntry>, Error> {
    Collect(t.rows, LocalEntryOf(t.columns))
  }

  /** A file with no rows gives an empty ledger, whatever its columns. */
  lemma LocalLedgerOfNoRows(columns: seq<string>)
    ensures LocalLedger(Table(columns, [])) == Ok(map[])
  {
  }

  /** There are no defaults: with at least one row, a missing column raises
      KeyError naming the first missing one. */
  lemma LocalLedgerNeedsColumns(t: Table)
    requires |t.rows| > 0
    requires NameOut in t.columns && FrameInOut !in t.columns
    ensures LocalLedger(t) == Err(KeyNotFound([FrameInOut]))
  {
    CollectFirstError(t.rows, LocalEntryOf(t.columns), 0);
  }

  /** A row whose frame cell is empty or not a number makes the whole ledger
      raise, even when every other row is clean. */
  lemma LocalLedgerStrict(t: Table, k: nat)
    requires k < |t.rows|
    requires forall i :: 0 <= i < k ==> LocalRow(t.columns, t.rows[i]).Ok?
    requires NameOut in t.columns && FrameInOut in t.columns
    requires ParseReal(Cell(t.rows[k], FrameInOut)).None?
    ensures LocalLedger(t) == Err(InvalidValue(Cell(t.rows[k], FrameInOut)))
  {
    CollectFirstError(t.rows, LocalEntryOf(t.columns), k);
  }

  /** Building the local ledger can only fail on an absent column or a value
      the casts reject. */
  lemma LocalLedgerErrors(t: Table)
    requires LocalLedger(t).Err?
    ensures LocalLedger(t).error.KeyNotFound? || LocalLedger(t).error.InvalidValue?
  {
    CollectErrorFrom(t.rows, LocalEntryOf(t.columns));
    forall r | LocalRow(t.columns, r).Err?
      ensures LocalRow(t.columns, r).error.KeyNotFound? || LocalRow(t.columns, r).error.InvalidValue?
    {
      LocalRowErrors(t.columns, r);
    }
  }

  lemma LocalRowErrors(columns: seq<string>, r: Row)
    requires LocalRow(columns, r).Err?
    ensures LocalRow(columns, r).error.KeyNotFound? || LocalRow(columns, r).error.InvalidValue?
  {
    if Lookup(columns, r, NameOut).Ok? {
      LocalFieldsErrors(columns, r);
    }
  }

  lemma LocalFieldsErrors(columns: seq<string>, r: Row)
    requires LocalFields(columns, r).Err?
    ensures LocalFields(columns, r).error.KeyNotFound? || LocalFields(columns, r).error.InvalidValue?
  {
    var frameIn, frameOut := IntField(columns, r, FrameInOut), IntField(columns, r, FrameOutOut);
    var nbFrames, fps := IntField(columns, r, NbFramesOut), FloatField(columns, r, FpsColumn);
    if frameIn.Err? {
      assert LocalFields(columns, r).error == frameIn.error;
    } else if frameOut.Err? {
      assert LocalFields(columns, r).error == frameOut.error;
    } else if nbFrames.Err? {
      assert LocalFields(columns, r).error == nbFrames.error;
    } else if fps.Err? {
      assert LocalFields(columns, r).error == fps.error;
    } else {
      assert LocalFields(columns, r).error == KeyNotFound([DescriptionOut]);
    }
  }

  /** The local ledger holds one entry per name, from the last row of that
      name. */
  lemma LocalLedgerContents(t: Table, i: nat)
    requires LocalLedger(t).Ok?
    requires i < |t.rows|
    requires forall j :: i < j < |t.rows| ==> Cell(t.rows[j], NameOut) != Cell(t.rows[i], NameOut)
    ensures Cell(t.rows[i], NameOut) in LocalLedger(t).value && LocalRow(t.columns, t.rows[i]).Ok?
    ensures LocalLedger(t).value[Cell(t.rows[i], NameOut)] == LocalRow(t.columns, t.rows[i]).value.1
  {
    var entry := LocalEntryOf(t.columns);
    CollectOk(t.rows, entry);
    forall j | 0 <= j < |t.rows|
      ensures entry(t.rows[j]).value.0 == Cell(t.rows[j], NameOut)
    {
      LocalRowKey(t.columns, t.rows[j]);
    }
    CollectLastWins(t.rows, entry, i);
  }
}

=== FILE: partition.dfy ===
/** `process_video`: the cut of the conformed edit into one clip per shot.
    A cursor starts at frame 0; each shot of the dictionary, in order, is
    trimmed to `[cursor, cursor + length)` and the cursor moves to the end of
    that window whether or not its export succeeded. ffmpeg itself is an
    abstract predicate on (window, output path). */
module Partition {
  import opened Text
  import opened Sheet
  import opened Shots

  /** The trim window handed to ffmpeg for one shot. */
  datatype FrameRange = FrameRange(name: string, start: real, end: real)

  /** The windows of `shots` when the cursor stands at `cursor`. */
  function Ranges(shots: seq<Shot>, cursor: real): (rs: seq<FrameRange>)
    ensures |rs| == |shots|
  {
    if |shots| == 0 then []
    else
      var end := cursor + shots[0].length;
      [FrameRange(shots[0].name, cursor, end)] + Ranges(shots[1..], end)
  }

  /** The windows of the whole dictionary: the cursor starts at 0. */
  function Partition(shots: seq<Shot>): (rs: seq<FrameRange>)
    ensures |rs| == |shots|
  {
    Ranges(shots, 0.0)
  }

  /** The sum of the lengths, added up from the first shot. */
  function Total(shots: seq<Shot>): real {
    if |shots| == 0 then 0.0 else Total(shots[..|shots| - 1]) + shots[|shots| - 1].length
  }

  lemma {:induction false} TotalCons(x: Shot, s: seq<Shot>)
    ensures Total([x] + s) == x.length + Total(s)
    decreases |s|
  {
    if |s| > 0 {
      var init := s[..|s| - 1];
      TotalCons(x, init);
      assert ([x] + s)[..|s|] == [x] + init;
    }
  }

  /** Window `i` starts at the sum of the lengths before shot `i` (counted
      from `cursor`) and is exactly as long as the shot. */
  lemma {:induction false} RangesAt(shots: seq<Shot>, cursor: real, i: nat)
    requires i < |shots|
    ensures Ranges(shots, cursor)[i]
      == FrameRange(shots[i].name, cursor + Total(shots[..i]), cursor + Total(shots[..i]) + shots[i].length)
  {
    if i > 0 {
      var tail := shots[1..];
      RangesAt(tail, cursor + shots[0].length, i - 1);
      assert tail[i - 1] == shots[i];
      assert shots[..i] == [shots[0]] + tail[..i - 1];
      TotalCons(shots[0], tail[..i - 1]);
    }
  }

  /** The windows in terms of prefix sums: shot `i` gets
      `[Total(shots[..i]), Total(shots[..i]) + length)`, named after the shot.
      In particular the first window starts at frame 0. */
  lemma PartitionAt(shots: seq<Shot>, i: nat)
    requires i < |shots|
    ensures Partition(shots)[i].name == shots[i].name
    ensures Partition(shots)[i].start == Total(shots[..i])
    ensures Partition(shots)[i].end == Partition(shots)[i].start + shots[i].length
    ensures i == 0 ==> Partition(shots)[i].start == 0.0
  {
    RangesAt(shots, 0.0, i);
  }

  /** Each window begins where the previous one ended, and the last one ends
      at the total length of the dictionary. */
  lemma PartitionContiguous(shots: seq<Shot>)
    ensures forall i :: 0 <= i < |shots| - 1 ==> Partition(shots)[i].end == Partition(shots)[i + 1].start
    ensures |shots| > 0 ==> Partition(shots)[|shots| - 1].end == Total(shots)
  {
    forall i | 0 <= i < |shots| - 1
      ensures Partition(shots)[i].end == Partition(shots)[i + 1].start
    {
      PartitionStep(shots, i);
    }
    if |shots| > 0 {
      PartitionAt(shots, |shots| - 1);
      TotalPrefix(shots, |shots| - 1);
      assert shots[..|shots|] == shots;
    }
  }

  lemma TotalPrefix(shots: seq<Shot>, i: nat)
    requires i < |shots|
    ensures Total(shots[..i + 1]) == Total(shots[..i]) + shots[i].length
  {
    assert shots[..i + 1][..i] == shots[..i];
  }

  lemma PartitionStep(shots: seq<Shot>, i: nat)
    requires i + 1 < |shots|
    ensures Partition(shots)[i].end == Partition(shots)[i + 1].start
  {
    PartitionAt(shots, i);
    PartitionAt(shots, i + 1);
    TotalPrefix(shots, i);
  }

  /** The frame rate is unpacked but never used: dictionaries with the same
      names and lengths are cut the same way. */
  lemma {:induction false} RangesIgnoreFps(a: seq<Shot>, b: seq<Shot>, cursor: real)
    requires |a| == |b|
    requires forall i :: 0 <= i < |a| ==> a[i].name == b[i].name && a[i].length == b[i].length
    ensures Ranges(a, cursor) == Ranges(b, cursor)
  {
    if |a| > 0 {
      RangesIgnoreFps(a[1..], b[1..], cursor + a[0].length);
    }
  }

  /** With non-negative lengths the windows are in order and do not overlap. */
  lemma PartitionOrdered(shots: seq<Shot>)
    requires forall i :: 0 <= i < |shots| ==> shots[i].length >= 0.0
    ensures forall i, j :: 0 <= i < j < |shots| ==> Partition(shots)[i].end <= Partition(shots)[j].start
  {
    forall i, j | 0 <= i < j < |shots|
      ensures Partition(shots)[i].end <= Partition(shots)[j].start
    {
      PartitionAt(shots, i);
      PartitionAt(shots, j);
      TotalMonotone(shots[..j], i + 1);
      assert shots[..j][..i + 1] == shots[..i + 1];
      assert shots[..i + 1][..i] == shots[..i];
    }
  }

  /** The windows cut from an extracted dictionary are in order and do not
      overlap, as long as no FRAME DURATION or FPS cell is spelt with a minus
      sign. */
  lemma ExtractedWindowsOrdered(t: Table)
    requires ExtractShots(t).Ok? && UnsignedCells(t.rows)
    ensures var shots := ExtractShots(t).value;
      forall i, j :: 0 <= i < j < |shots| ==> Partition(shots)[i].end <= Partition(shots)[j].start
  {
    var shots := ExtractShots(t).value;
    ExtractShotsNonNegative(t);
    assert forall i :: 0 <= i < |shots| ==> shots[i] in shots;
    PartitionOrdered(shots);
  }

  /** A negative length (which the lenient reading keeps) pulls the later
      windows back: after shots of 10, -5 and 1 frames the third window starts
      at 5, inside the first. */
  lemma NegativeLengthOverlaps(a: string, b: string, c: string, fps: real)
    ensures var w := Partition([Shot(a, 10.0, fps), Shot(b, -5.0, fps), Shot(c, 1.0, fps)]);
      |w| == 3 && w[0].end > w[2].start
  {
    var s := [Shot(a, 10.0, fps), Shot(b, -5.0, fps), Shot(c, 1.0, fps)];
    assert s[1..] == [Shot(b, -5.0, fps), Shot(c, 1.0, fps)];
    assert s[1..][1..] == [Shot(c, 1.0, fps)];
    assert Ranges([Shot(c, 1.0, fps)], 5.0) == [FrameRange(c, 5.0, 6.0)];
    assert Ranges(s[1..], 10.0) == [FrameRange(b, 10.0, 5.0), FrameRange(c, 5.0, 6.0)];
  }

  /** Three shots of 10, 20 and 15 frames are cut at 0-10, 10-30 and 30-45. */
  lemma PartitionOfThree(a: string, b: string, c: string, fps: real)
    ensures Partition([Shot(a, 10.0, fps), Shot(b, 20.0, fps), Shot(c, 15.0, fps)])
      == [FrameRange(a, 0.0, 10.0), FrameRange(b, 10.0, 30.0), FrameRange(c, 30.0, 45.0)]
  {
    var s := [Shot(a, 10.0, fps), Shot(b, 20.0, fps), Shot(c, 15.0, fps)];
    assert s[1..] == [Shot(b, 20.0, fps), Shot(c, 15.0, fps)];
    assert s[1..][1..] == [Shot(c, 15.0, fps)];
    assert Ranges([Shot(c, 15.0, fps)], 30.0) == [FrameRange(c, 30.0, 45.0)];
    assert Ranges(s[1..], 10.0) == [FrameRange(b, 10.0, 30.0), FrameRange(c, 30.0, 45.0)];
  }

  lemma {:induction false} TotalMonotone(s: seq<Shot>, k: nat)
    requires k <= |s|
    requires forall i :: 0 <= i < |s| ==> s[i].length >= 0.0
    ensures Total(s[..k]) <= Total(s)
    decreases |s|
  {
    if k < |s| {
      var init := s[..|s| - 1];
      TotalMonotone(init, k);
      assert init[..k] == s[..k];
    } else {
      assert s[..k] == s;
    }
  }

  // ---------------------------------------------------------------------
  // Output files

  /** `os.path.join(output_dir, f"{shot_name}.mp4")`. */
  function OutputPath(dir: string, name: string): string {
    PathJoin(dir, name + ".mp4")
  }

  /** The file name of a clip is the shot name with ".mp4" appended. */
  lemma OutputPathBasename(dir: string, name: string)
    requires '/' !in name
    ensures Basename(OutputPath(dir, name)) == name + ".mp4"
  {
    var file := name + ".mp4";
    assert '/' !in file;
    BasenameOfJoin(dir, file);
  }

  /** A clip's file stem is the shot name again, which is how the publish
      step finds the shot for a file (unless the name holds a '/' or is made
      only of dots). */
  lemma OutputPathStem(dir: string, name: string)
    requires '/' !in name && !AllDots(name)
    ensures SplitExtRoot(Basename(OutputPath(dir, name))) == name
  {
    var ext := ".mp4";
    assert Basename(OutputPath(dir, name)) == name + ext by {
      OutputPathBasename(dir, name);
    }
    assert SplitExtRoot(name + ext) == name by {
      assert ext[0] == '.' && ext[1..] == ['m', 'p', '4'];
      RootOfExtended(name, ext);
    }
  }

  /** The paths of the windows whose export succeeded, in shot order. */
  function Exported(rs: seq<FrameRange>, dir: string, write: (FrameRange, string) -> bool): seq<string> {
    if |rs| == 0 then []
    else
      var init, r := rs[..|rs| - 1], rs[|rs| - 1];
      Exported(init, dir, write) + (if write(r, OutputPath(dir, r.name)) then [OutputPath(dir, r.name)] else [])
  }

  /** Only successful exports are listed, at most one per shot, each the
      output path of some window whose export succeeded. */
  lemma {:induction false} ExportedBound(rs: seq<FrameRange>, dir: string, write: (FrameRange, string) -> bool)
    ensures |Exported(rs, dir, write)| <= |rs|
    ensures forall p :: p in Exported(rs, dir, write) ==>
      exists i :: 0 <= i < |rs| && p == OutputPath(dir, rs[i].name) && write(rs[i], p)
  {
    if |rs| > 0 {
      var init := rs[..|rs| - 1];
      ExportedBound(init, dir, write);
      forall p | p in Exported(rs, dir, write)
        ensures exists i :: 0 <= i < |rs| && p == OutputPath(dir, rs[i].name) && write(rs[i], p)
      {
        if p in Exported(init, dir, write) {
          var i :| 0 <= i < |init| && p == OutputPath(dir, init[i].name) && write(init[i], p);
          assert rs[i] == init[i];
        }
      }
    }
  }

  lemma ExportedPrefix(rs: seq<FrameRange>, dir: string, write: (FrameRange, string) -> bool, i: nat)
    requires i < |rs|
    ensures var p := OutputPath(dir, rs[i].name);
      Exported(rs[..i + 1], dir, write) == Exported(rs[..i], dir, write) + (if write(rs[i], p) then [p] else [])
  {
    assert rs[..i + 1][..i] == rs[..i];
  }

  /** When every export succeeds, one file is listed per shot. */
  lemma {:induction false} ExportedAll(rs: seq<FrameRange>, dir: string, write: (FrameRange, string) -> bool)
    requires forall i :: 0 <= i < |rs| ==> write(rs[i], OutputPath(dir, rs[i].name))
    ensures Exported(rs, dir, write) == seq(|rs|, i requires 0 <= i < |rs| => OutputPath(dir, rs[i].name))
  {
    if |rs| > 0 {
      ExportedAll(rs[..|rs| - 1], dir, write);
    }
  }

  /** `VideoProcessor.process`: walks the dictionary with the frame cursor,
      asks `write` to encode each window, and lists the files written. The
      windows asked for do not depend on `write`: a failed write never
      shifts a later shot. */
  method ProcessVideo(shots: seq<Shot>, dir: string, write: (FrameRange, string) -> bool)
    returns (attempted: seq<FrameRange>, processed: seq<string>)
    ensures attempted == Partition(shots)
    ensures processed == Exported(Partition(shots), dir, write)
  {
    ghost var parts := Partition(shots);
    var lastFrame := 0.0;
    attempted, processed := [], [];
    var idx := 0;
    while idx < |shots|
      invariant idx <= |shots| == |parts|
      invariant lastFrame == Total(shots[..idx])
      invariant attempted == parts[..idx]
      invariant processed == Exported(parts[..idx], dir, write)
    {
      var window, next := CutShot(shots, idx, lastFrame);
      var outputPath := OutputPath(dir, window.name);
      ExportedPrefix(parts, dir, write, idx);
      SnocSlice(parts, idx);
      if write(window, outputPath) {
        processed := processed + [outputPath];
      }
      attempted := attempted + [window];
      lastFrame := next;
      idx := idx + 1;
    }
    assert parts[..idx] == parts;
  }

  /** One step of the walk: the window of shot `idx` when the cursor stands
      after the shots before it, and the cursor after that window. */
  method CutShot(shots: seq<Shot>, idx: nat, lastFrame: real) returns (window: FrameRange, next: real)
    requires idx < |shots| && lastFrame == Total(shots[..idx])
    ensures window == Partition(shots)[idx]
    ensures next == Total(shots[..idx + 1]) == window.end
  {
    var shot := shots[idx];
    var startFrame := lastFrame;
    var endFrame := lastFrame + shot.length;
    window := FrameRange(shot.name, startFrame, endFrame);
    next := endFrame;
    PartitionAt(shots, idx);
    TotalPrefix(shots, idx);
  }

  lemma SnocSlice<T>(s: seq<T>, i: nat)
    requires i < |s|
    ensures s[..i + 1] == s[..i] + [s[i]]
  {
  }
}

=== FILE: publish.dfy ===
/** The publish loop: each `.mp4` clip in the output folder is matched to a
    tracker task by its file stem, and a preview is published for it. The
    tracker (task lookup, entity lookup, comment, preview upload) and the file
    system are parameters. */
module Publish {
  import opened Wrappers
  import opened Text
  import opened Seqs

  // ---------------------------------------------------------------------
  // fetch_shot_name_from_tasks

  /** A tracker task; `entityId` is `task.get("entity_id")`. */
  datatype Task = Task(id: string, entityId: Option<string>)

  /** The shot name a task is filed under: none when its entity id is falsy
      (absent or empty) or the entity does not resolve. */
  function Resolve(t: Task, entityName: string -> Option<string>): Option<string> {
    if t.entityId.None? || t.entityId.value == "" then None else entityName(t.entityId.value)
  }

  /** `fetch_shot_name_from_tasks`: shot name to task, a later task for the
      same shot replacing an earlier one. */
  function TaskMap(tasks: seq<Task>, entityName: string -> Option<string>): map<string, Task> {
    if |tasks| == 0 then map[]
    else
      var m := TaskMap(tasks[..|tasks| - 1], entityName);
      var t := tasks[|tasks| - 1];
      match Resolve(t, entityName)
      case None => m
      case Some(name) => m[name := t]
  }

  /** A shot has a task exactly when some task resolves to it. */
  lemma {:induction false} TaskMapKeys(tasks: seq<Task>, entityName: string -> Option<string>, name: string)
    ensures name in TaskMap(tasks, entityName) <==>
      exists i :: 0 <= i < |tasks| && Resolve(tasks[i], entityName) == Some(name)
  {
    if |tasks| > 0 {
      var init := tasks[..|tasks| - 1];
      TaskMapKeys(init, entityName, name);
      if exists i :: 0 <= i < |init| && Resolve(init[i], entityName) == Some(name) {
        var i :| 0 <= i < |init| && Resolve(init[i], entityName) == Some(name);
        assert tasks[i] == init[i];
      }
      if exists i :: 0 <= i < |tasks| && Resolve(tasks[i], entityName) == Some(name) {
        var i :| 0 <= i < |tasks| && Resolve(tasks[i], entityName) == Some(name);
        if i < |init| {
          assert init[i] == tasks[i];
        }
      }
    }
  }

  /** A shot keeps the tracker task that resolves to it last. */
  lemma {:induction false} TaskMapLastWins(tasks: seq<Task>, entityName: string -> Option<string>, i: nat)
    requires i < |tasks| && Resolve(tasks[i], entityName).Some?
    requires forall j :: i < j < |tasks| ==> Resolve(tasks[j], entityName) != Resolve(tasks[i], entityName)
    ensures Resolve(tasks[i], entityName).value in TaskMap(tasks, entityName)
    ensures TaskMap(tasks, entityName)[Resolve(tasks[i], entityName).value] == tasks[i]
  {
    var init := tasks[..|tasks| - 1];
    if i < |tasks| - 1 {
      assert init[i] == tasks[i];
      assert forall j :: i < j < |init| ==> init[j] == tasks[j];
      TaskMapLastWins(init, entityName, i);
    }
  }

  // ---------------------------------------------------------------------
  // Clip files

  /** `[f for f in files if f.endswith(ext)]`. */
  function WithExtension(files: seq<string>, ext: string): (r: seq<string>)
    ensures |r| <= |files|
  {
    if |files| == 0 then []
    else WithExtension(files[..|files| - 1], ext) + if EndsWith(files[|files| - 1], ext) then [files[|files| - 1]] else []
  }

  /** The filter keeps exactly the listed names with the extension. */
  lemma {:induction false} WithExtensionKeeps(files: seq<string>, ext: string, f: string)
    ensures f in WithExtension(files, ext) <==> f in files && EndsWith(f, ext)
  {
    if |files| > 0 {
      var init := files[..|files| - 1];
      WithExtensionKeeps(init, ext, f);
      assert files == init + [files[|files| - 1]];
    }
  }

  const Mp4Extension := ".mp4"

  // ---------------------------------------------------------------------
  // One clip

  /** The three tracker calls of a publish, in order. */
  datatype Step = AddComment | AddPreview | SetMainPreview

  /** What happened to one clip. */
  datatype FileOutcome = NoTask | NotOnDisk | Failed(step: Step) | Published

  /** The tracker's publish calls for (task, video path): the step that
      raised, or none when all three went through. */
  type Remote = (Task, string) -> Option<Step>

  /** One iteration of the loop in `publish_previews`: no task, then no
      file, counts as unmatched without calling the tracker; otherwise the
      three calls run and any exception counts as failed. */
  function Outcome(dir: string, file: string, tasks: map<string, Task>, onDisk: string -> bool, remote: Remote): FileOutcome {
    var shot := SplitExtRoot(file);
    if shot !in tasks then NoTask
    else
      var path := PathJoin(dir, file);
      if !onDisk(path) then NotOnDisk
      else Attempt(remote(tasks[shot], path))
  }

  /** What the tracker's answer makes of a clip it was sent. */
  function Attempt(answer: Option<Step>): FileOutcome {
    match answer
    case None => Published
    case Some(step) => Failed(step)
  }

  function Outcomes(dir: string, files: seq<string>, tasks: map<string, Task>, onDisk: string -> bool, remote: Remote): (r: seq<FileOutcome>)
    ensures |r| == |files|
    ensures forall i :: 0 <= i < |files| ==> r[i] == Outcome(dir, files[i], tasks, onDisk, remote)
  {
    seq(|files|, i requires 0 <= i < |files| => Outcome(dir, files[i], tasks, onDisk, remote))
  }

  /** A clip reaches the tracker only when its task and its file were both
      found. */
  predicate Attempted(o: FileOutcome) {
    o.Failed? || o.Published?
  }

  // ---------------------------------------------------------------------
  // The tally

  datatype Stats = Stats(matched: nat, unmatched: nat, failed: nat)

  function Add(a: Stats, b: Stats): Stats {
    Stats(a.matched + b.matched, a.unmatched + b.unmatched, a.failed + b.failed)
  }

  /** The counter one outcome increments. */
  function Bump(s: Stats, o: FileOutcome): Stats {
    match o
    case NoTask => s.(unmatched := s.unmatched + 1)
    case NotOnDisk => s.(unmatched := s.unmatched + 1)
    case Failed(_) => s.(failed := s.failed + 1)
    case Published => s.(matched := s.matched + 1)
  }

  /** `stats` after the loop, starting from all zeros. */
  function Tally(outcomes: seq<FileOutcome>): Stats {
    if |outcomes| == 0 then Stats(0, 0, 0)
    else Bump(Tally(outcomes[..|outcomes| - 1]), outcomes[|outcomes| - 1])
  }

  /** Every clip increments exactly one counter: matched counts the
      published ones, unmatched the ones without a task or a file, failed the
      rest. */
  lemma {:induction false} TallyCounts(outcomes: seq<FileOutcome>)
    ensures Tally(outcomes).matched + Tally(outcomes).unmatched + Tally(outcomes).failed == |outcomes|
    ensures Tally(outcomes).matched == multiset(outcomes)[Published]
    ensures Tally(outcomes).unmatched == multiset(outcomes)[NoTask] + multiset(outcomes)[NotOnDisk]
  {
    if |outcomes| > 0 {
      var init := outcomes[..|outcomes| - 1];
      TallyCounts(init);
      assert outcomes == init + [outcomes[|outcomes| - 1]];
    }
  }

  /** Tallying two batches and adding the counters is tallying both at once. */
  lemma {:induction false} TallyAppend(a: seq<FileOutcome>, b: seq<FileOutcome>)
    ensures Tally(a + b) == Add(Tally(a), Tally(b))
    decreases |b|
  {
    if |b| == 0 {
      assert a + b == a;
    } else {
      var init, last := b[..|b| - 1], b[|b| - 1];
      TallyAppend(a, init);
      DropLastAppend(a, b);
      BumpAdd(Tally(a), Tally(init), last);
    }
  }

  lemma BumpAdd(x: Stats, y: Stats, o: FileOutcome)
    ensures Bump(Add(x, y), o) == Add(x, Bump(y, o))
  {
  }

  /** The video paths the tracker is called with, in clip order. */
  function Calls(dir: string, files: seq<string>, outcomes: seq<FileOutcome>): seq<string>
    requires |outcomes| == |files|
  {
    if |files| == 0 then []
    else
      var n := |files| - 1;
      Calls(dir, files[..n], outcomes[..n]) + if Attempted(outcomes[n]) then [PathJoin(dir, files[n])] else []
  }

  /** Unmatched clips make no tracker call: there is one call per matched or
      failed clip. */
  lemma {:induction false} CallsCount(dir: string, files: seq<string>, outcomes: seq<FileOutcome>)
    requires |outcomes| == |files|
    ensures |Calls(dir, files, outcomes)| == Tally(outcomes).matched + Tally(outcomes).failed
  {
    if |files| > 0 {
      var n := |files| - 1;
      CallsCount(dir, files[..n], outcomes[..n]);
    }
  }

  /** The loop of `publish_previews` over the listed clips. Every clip is
      visited: a failure is counted and the loop goes on. */
  method PublishLoop(dir: string, mp4Files: seq<string>, tasks: map<string, Task>, onDisk: string -> bool, remote: Remote)
    returns (stats: Stats, calls: seq<string>)
    ensures stats == Tally(Outcomes(dir, mp4Files, tasks, onDisk, remote))
    ensures calls == Calls(dir, mp4Files, Outcomes(dir, mp4Files, tasks, onDisk, remote))
  {
    ghost var outcomes := Outcomes(dir, mp4Files, tasks, onDisk, remote);
    stats, calls := Stats(0, 0, 0), [];
    var i := 0;
    while i < |mp4Files|
      invariant i <= |mp4Files|
      invariant stats == Tally(outcomes[..i])
      invariant calls == Calls(dir, mp4Files[..i], outcomes[..i])
    {
      LoopStep(dir, mp4Files, outcomes, i);
      stats, calls := PublishOne(dir, mp4Files[i], tasks, onDisk, remote, stats, calls);
      i := i + 1;
    }
    assert mp4Files[..i] == mp4Files;
    assert outcomes[..i] == outcomes;
  }

  /** One iteration of the loop: no task, then no file, counts as unmatched
      without a call; otherwise the tracker is called, and the clip counts as
      matched when all three steps went through and as failed otherwise. */
  method PublishOne(dir: string, fileName: string, tasks: map<string, Task>, onDisk: string -> bool, remote: Remote,
                    stats: Stats, calls: seq<string>)
    returns (stats': Stats, calls': seq<string>)
    ensures stats' == Bump(stats, Outcome(dir, fileName, tasks, onDisk, remote))
    ensures calls' == calls + if Attempted(Outcome(dir, fileName, tasks, onDisk, remote)) then [PathJoin(dir, fileName)] else []
  {
    ghost var o := Outcome(dir, fileName, tasks, onDisk, remote);
    var shotName := SplitExtRoot(fileName);
    if shotName !in tasks {
      assert o == NoTask;
      stats', calls' := stats.(unmatched := stats.unmatched + 1), calls;
      assert stats' == Bump(stats, o);
    } else {
      var task := tasks[shotName];
      var videoPath := PathJoin(dir, fileName);
      if !onDisk(videoPath) {
        assert o == NotOnDisk;
        stats', calls' := stats.(unmatched := stats.unmatched + 1), calls;
        assert stats' == Bump(stats, o);
      } else {
        stats', calls' := PublishFound(task, videoPath, remote, stats, calls);
        assert o == Attempt(remote(task, videoPath));
      }
    }
  }

  /** The tracker step for a clip whose task and file were both found. */
  method PublishFound(task: Task, videoPath: string, remote: Remote, stats: Stats, calls: seq<string>)
    returns (stats': Stats, calls': seq<string>)
    ensures stats' == Bump(stats, Attempt(remote(task, videoPath)))
    ensures calls' == calls + [videoPath]
  {
    calls' := calls + [videoPath];
    match remote(task, videoPath)
    case None =>
      stats' := stats.(matched := stats.matched + 1);
    case Some(step) =>
      stats' := stats.(failed := stats.failed + 1);
  }

  /** One more clip adds its outcome to the tally and its call, if any, to
      the calls. */
  lemma LoopStep(dir: string, files: seq<string>, outcomes: seq<FileOutcome>, i: nat)
    requires |outcomes| == |files| && i < |files|
    ensures Tally(outcomes[..i + 1]) == Bump(Tally(outcomes[..i]), outcomes[i])
    ensures Calls(dir, files[..i + 1], outcomes[..i + 1])
      == Calls(dir, files[..i], outcomes[..i]) + if Attempted(outcomes[i]) then [PathJoin(dir, files[i])] else []
  {
    assert files[..i + 1][..i] == files[..i];
    assert outcomes[..i + 1][..i] == outcomes[..i];
  }

  // ---------------------------------------------------------------------
  // The older tallies

  /** misc/old_core.py and core.py count only unmatched and failed clips
      and report matched as the rest. */
  function SubtractionTally(outcomes: seq<FileOutcome>): Stats {
    var counts := Tally(outcomes);
    var unmatched, failed := counts.unmatched, counts.failed;
    Stats(if |outcomes| >= unmatched + failed then |outcomes| - unmatched - failed else 0, unmatched, failed)
  }

  /** The subtraction gives the same count as incrementing on success. */
  lemma SubtractionTallyAgrees(outcomes: seq<FileOutcome>)
    ensures SubtractionTally(outcomes) == Tally(outcomes)
  {
    TallyCounts(outcomes);
  }

  /** core.py's loop: no check that the file exists. */
  function OutcomeWithoutDiskCheck(dir: string, file: string, tasks: map<string, Task>, remote: Remote): FileOutcome {
    var shot := SplitExtRoot(file);
    if shot !in tasks then NoTask
    else Attempt(remote(tasks[shot], PathJoin(dir, file)))
  }

  function OutcomesWithoutDiskCheck(dir: string, files: seq<string>, tasks: map<string, Task>, remote: Remote): (r: seq<FileOutcome>)
    ensures |r| == |files|
    ensures forall i :: 0 <= i < |files| ==> r[i] == OutcomeWithoutDiskCheck(dir, files[i], tasks, remote)
  {
    seq(|files|, i requires 0 <= i < |files| => OutcomeWithoutDiskCheck(dir, files[i], tasks, remote))
  }

  /** The two loops disagree only on a listed clip that has vanished from
      disk: core.py calls the tracker for it, publisher.py counts it as
      unmatched. */
  lemma DiskCheckMatters(dir: string, file: string, tasks: map<string, Task>, onDisk: string -> bool, remote: Remote)
    ensures onDisk(PathJoin(dir, file)) ==>
      OutcomeWithoutDiskCheck(dir, file, tasks, remote) == Outcome(dir, file, tasks, onDisk, remote)
    ensures !onDisk(PathJoin(dir, file)) && SplitExtRoot(file) in tasks ==>
      Outcome(dir, file, tasks, onDisk, remote) == NotOnDisk
      && Attempted(OutcomeWithoutDiskCheck(dir, file, tasks, remote))
  {
  }

  /** kitsu_ingest.py filters inside the loop, over the whole listing, and
      keeps no tally; the tracker is called for the same clips, in the same
      order, as by core.py's loop over the pre-filtered list. */
  function EarliestCalls(dir: string, listing: seq<string>, tasks: map<string, Task>, remote: Remote): seq<string> {
    if |listing| == 0 then []
    else
      var n := |listing| - 1;
      var f := listing[n];
      EarliestCalls(dir, listing[..n], tasks, remote)
        + if EndsWith(f, Mp4Extension) && SplitExtRoot(f) in tasks then [PathJoin(dir, f)] else []
  }

  function CallsWithoutDiskCheck(dir: string, files: seq<string>, tasks: map<string, Task>, remote: Remote): seq<string> {
    if |files| == 0 then []
    else
      var n := |files| - 1;
      CallsWithoutDiskCheck(dir, files[..n], tasks, remote)
        + if Attempted(OutcomeWithoutDiskCheck(dir, files[n], tasks, remote)) then [PathJoin(dir, files[n])] else []
  }

  lemma {:induction false} EarliestCallsAgree(dir: string, listing: seq<string>, tasks: map<string, Task>, remote: Remote)
    ensures EarliestCalls(dir, listing, tasks, remote)
      == CallsWithoutDiskCheck(dir, WithExtension(listing, Mp4Extension), tasks, remote)
  {
    if |listing| > 0 {
      var n := |listing| - 1;
      var f := listing[n];
      var before := WithExtension(listing[..n], Mp4Extension);
      EarliestCallsAgree(dir, listing[..n], tasks, remote);
      if EndsWith(f, Mp4Extension) {
        var files := before + [f];
        assert files[..|files| - 1] == before;
        assert files[|files| - 1] == f;
        assert Attempted(OutcomeWithoutDiskCheck(dir, f, tasks, remote)) <==> SplitExtRoot(f) in tasks;
      } else {
        assert WithExtension(listing, Mp4Extension) == before + [];
        assert WithExtension(listing, Mp4Extension) == before;
        assert EarliestCalls(dir, listing, tasks, remote) == EarliestCalls(dir, listing[..n], tasks, remote) + [];
      }
    }
  }
}

=== FILE: push.dfy ===
/** The push workflow around the publish loop, in each revision: finding the
    processed CSV, building the ledgers, the two safety checks with their
    prompts, and the loop. The tracker and the output folder are parameters;
    the `n`-th answer typed at a prompt is `respond(n)`. */
module Push {
  import opened Wrappers
  import opened Text
  import opened Sheet
  import opened Ledger
  import opened Reconcile
  import opened Publish

  /** What the tracker holds: the shots of the sequence, its tasks in the
      project, the entity lookup, and the publish calls. */
  datatype Tracker = Tracker(shots: seq<RemoteShot>, tasks: seq<Task>, entityName: string -> Option<string>, remote: Remote)

  /** The output folder: its listing, which paths exist, and what each CSV
      path reads as. */
  datatype Folder = Folder(listing: seq<string>, onDisk: string -> bool, read: string -> Table)

  /** How a push ends when nothing raises. */
  datatype RunOutcome = NoProject | Aborted | Completed(stats: Stats, calls: seq<string>)

  const CsvExtension := ".csv"

  // ---------------------------------------------------------------------
  // The safety checks and the loop

  /** The presence check, then the metadata check, each asking only when it
      found something; the second prompt reads the next answer. */
  function Gates(kitsu: map<string, RemoteEntry>, local: map<string, LocalEntry>, mp4Files: seq<string>, respond: nat -> string): Result<Decision, Error> {
    var presence := CheckPresence(kitsu.Keys, mp4Files);
    var asked := presence.missingFiles != {} || presence.extraFiles != {};
    if asked && AskUser(respond(0)) == Abort then Ok(Abort)
    else
      var report :- Report(kitsu, local);
      if report != map[] && AskUser(respond(if asked then 1 else 0)) == Abort then Ok(Abort)
      else Ok(Proceed)
  }

  /** Build both ledgers, run both checks, then the loop; `tally` is how the
      revision reports its counters. */
  function CheckedPublish(table: Table, dir: string, mp4Files: seq<string>, tracker: Tracker, onDisk: string -> bool,
                          respond: nat -> string, tally: seq<FileOutcome> -> Stats): Result<RunOutcome, Error> {
    var kitsu :- RemoteLedger(tracker.shots);
    var local :- LocalLedger(table);
    var decision :- Gates(kitsu, local, mp4Files, respond);
    if decision == Abort then Ok(Aborted)
    else
      var outcomes := Outcomes(dir, mp4Files, TaskMap(tracker.tasks, tracker.entityName), onDisk, tracker.remote);
      Ok(Completed(tally(outcomes), Calls(dir, mp4Files, outcomes)))
  }

  /** `KitsuPublisher.publish_previews(output_dir)`: the first CSV of the
      listing is the processed sheet; without one, FileNotFoundError. */
  function PublishPreviews(dir: string, folder: Folder, tracker: Tracker, respond: nat -> string): Result<RunOutcome, Error> {
    var mp4Files := WithExtension(folder.listing, Mp4Extension);
    var csvFiles := WithExtension(folder.listing, CsvExtension);
    if |csvFiles| == 0 then Err(NoCsvFound)
    else CheckedPublish(folder.read(PathJoin(dir, csvFiles[0])), dir, mp4Files, tracker, folder.onDisk, respond, Tally)
  }

  /** FileNotFoundError is raised exactly when the folder lists no CSV, and
      then before any ledger is built or any preview published. */
  lemma PublishNeedsCsv(dir: string, folder: Folder, tracker: Tracker, respond: nat -> string)
    ensures PublishPreviews(dir, folder, tracker, respond) == Err(NoCsvFound) <==>
      forall f :: f in folder.listing ==> !EndsWith(f, CsvExtension)
  {
    var csvFiles := WithExtension(folder.listing, CsvExtension);
    if |csvFiles| > 0 {
      WithExtensionKeeps(folder.listing, CsvExtension, csvFiles[0]);
      var table := folder.read(PathJoin(dir, csvFiles[0]));
      if RemoteLedger(tracker.shots).Err? {
        RemoteLedgerErrors(tracker.shots);
      } else if LocalLedger(table).Err? {
        LocalLedgerErrors(table);
      }
    } else {
      forall f | f in folder.listing
        ensures !EndsWith(f, CsvExtension)
      {
        WithExtensionKeeps(folder.listing, CsvExtension, f);
      }
    }
  }

  /** Previews are published only after both checks: a completed run had
      both ledgers built, the report computed, and a "yes" for each prompt
      that was asked. */
  lemma PublishChecksFirst(dir: string, folder: Folder, tracker: Tracker, respond: nat -> string)
    requires PublishPreviews(dir, folder, tracker, respond).Ok?
    requires PublishPreviews(dir, folder, tracker, respond).value.Completed?
    ensures RemoteLedger(tracker.shots).Ok?
    ensures var csvFiles := WithExtension(folder.listing, CsvExtension);
      |csvFiles| > 0 && LocalLedger(folder.read(PathJoin(dir, csvFiles[0]))).Ok?
    ensures var csvFiles := WithExtension(folder.listing, CsvExtension);
      var kitsu, local := RemoteLedger(tracker.shots).value, LocalLedger(folder.read(PathJoin(dir, csvFiles[0]))).value;
      var mp4Files := WithExtension(folder.listing, Mp4Extension);
      var asked := kitsu.Keys != Stems(mp4Files);
      && (asked ==> AskUser(respond(0)) == Proceed)
      && Report(kitsu, local).Ok?
      && (Report(kitsu, local).value != map[] ==> AskUser(respond(if asked then 1 else 0)) == Proceed)
  {
    var csvFiles := WithExtension(folder.listing, CsvExtension);
    var kitsu, local := RemoteLedger(tracker.shots).value, LocalLedger(folder.read(PathJoin(dir, csvFiles[0]))).value;
    GatesProceed(kitsu, local, WithExtension(folder.listing, Mp4Extension), respond);
  }

  /** The gates let the loop run only when each prompt that was asked got a
      "yes". */
  lemma GatesProceed(kitsu: map<string, RemoteEntry>, local: map<string, LocalEntry>, mp4Files: seq<string>, respond: nat -> string)
    requires Gates(kitsu, local, mp4Files, respond) == Ok(Proceed)
    ensures var asked := kitsu.Keys != Stems(mp4Files);
      && (asked ==> AskUser(respond(0)) == Proceed)
      && Report(kitsu, local).Ok?
      && (Report(kitsu, local).value != map[] ==> AskUser(respond(if asked then 1 else 0)) == Proceed)
  {
  }

  /** When the clips match the tracker's shots and every field agrees, no
      question is asked and the loop runs whatever would have been
      answered. */
  lemma PublishWithoutPrompt(dir: string, folder: Folder, tracker: Tracker, respond: nat -> string)
    requires |WithExtension(folder.listing, CsvExtension)| > 0
    requires var table := folder.read(PathJoin(dir, WithExtension(folder.listing, CsvExtension)[0]));
      && RemoteLedger(tracker.shots).Ok? && LocalLedger(table).Ok?
      && RemoteLedger(tracker.shots).value.Keys == Stems(WithExtension(folder.listing, Mp4Extension))
      && Report(RemoteLedger(tracker.shots).value, LocalLedger(table).value) == Ok(map[])
    ensures PublishPreviews(dir, folder, tracker, respond).Ok?
    ensures PublishPreviews(dir, folder, tracker, respond).value.Completed?
  {
    var csvFiles := WithExtension(folder.listing, CsvExtension);
    var table := folder.read(PathJoin(dir, csvFiles[0]));
    var kitsu, local := RemoteLedger(tracker.shots).value, LocalLedger(table).value;
    var mp4Files := WithExtension(folder.listing, Mp4Extension);
    GatesQuiet(kitsu, local, mp4Files, respond);
  }

  /** With nothing missing, nothing extra and no field differing, the gates
      proceed without reading an answer. */
  lemma GatesQuiet(kitsu: map<string, RemoteEntry>, local: map<string, LocalEntry>, mp4Files: seq<string>, respond: nat -> string)
    requires kitsu.Keys == Stems(mp4Files) && Report(kitsu, local) == Ok(map[])
    ensures Gates(kitsu, local, mp4Files, respond) == Ok(Proceed)
  {
  }

  /** A completed run counts every clip once and calls the tracker once per
      clip it matched or failed on. */
  lemma PublishCounts(dir: string, folder: Folder, tracker: Tracker, respond: nat -> string)
    requires PublishPreviews(dir, folder, tracker, respond).Ok?
    requires PublishPreviews(dir, folder, tracker, respond).value.Completed?
    ensures var run := PublishPreviews(dir, folder, tracker, respond).value;
      && run.stats.matched + run.stats.unmatched + run.stats.failed == |WithExtension(folder.listing, Mp4Extension)|
      && |run.calls| == run.stats.matched + run.stats.failed
  {
    var mp4Files := WithExtension(folder.listing, Mp4Extension);
    var outcomes := Outcomes(dir, mp4Files, TaskMap(tracker.tasks, tracker.entityName), folder.onDisk, tracker.remote);
    CompletedRun(dir, folder, tracker, respond);
    TallyCounts(outcomes);
    CallsCount(dir, mp4Files, outcomes);
  }

  /** A completed run reports the tally and the calls of the loop over the
      listed clips. */
  lemma CompletedRun(dir: string, folder: Folder, tracker: Tracker, respond: nat -> string)
    requires PublishPreviews(dir, folder, tracker, respond).Ok?
    requires PublishPreviews(dir, folder, tracker, respond).value.Completed?
    ensures var mp4Files := WithExtension(folder.listing, Mp4Extension);
      var outcomes := Outcomes(dir, mp4Files, TaskMap(tracker.tasks, tracker.entityName), folder.onDisk, tracker.remote);
      PublishPreviews(dir, folder, tracker, respond).value == Completed(Tally(outcomes), Calls(dir, mp4Files, outcomes))
  {
  }

  // ---------------------------------------------------------------------
  // The monolithic revisions

  /** A push in the older revisions: the CSV paths handed to the tracker's
      import, and how it ended. */
  datatype Run = Run(imported: seq<string>, outcome: Result<RunOutcome, Error>)

  /** `push_to_kitsu` in misc/old_core.py: the import runs first, then the
      same ledgers, checks and loop, with matched counted by subtraction. */
  function OldCorePush(projectFound: bool, csvPath: string, dir: string, folder: Folder, tracker: Tracker, respond: nat -> string): Run {
    if !projectFound then Run([], Ok(NoProject))
    else
      var mp4Files := WithExtension(folder.listing, Mp4Extension);
      Run([csvPath], CheckedPublish(folder.read(csvPath), dir, mp4Files, tracker, folder.onDisk, respond, SubtractionTally))
  }

  /** The import precedes the checks, so a run that the user aborts, or that
      raises while building the ledgers, has already imported the CSV. */
  lemma OldCoreImportsFirst(csvPath: string, dir: string, folder: Folder, tracker: Tracker, respond: nat -> string)
    ensures OldCorePush(true, csvPath, dir, folder, tracker, respond).imported == [csvPath]
    ensures OldCorePush(false, csvPath, dir, folder, tracker, respond) == Run([], Ok(NoProject))
  {
  }

  /** Apart from the import, the old revision ends exactly as the publisher
      does when it reads the same CSV. */
  lemma OldCoreAgrees(csvPath: string, dir: string, folder: Folder, tracker: Tracker, respond: nat -> string)
    requires |WithExtension(folder.listing, CsvExtension)| > 0
    requires csvPath == PathJoin(dir, WithExtension(folder.listing, CsvExtension)[0])
    ensures OldCorePush(true, csvPath, dir, folder, tracker, respond).outcome == PublishPreviews(dir, folder, tracker, respond)
  {
    var mp4Files := WithExtension(folder.listing, Mp4Extension);
    var outcomes := Outcomes(dir, mp4Files, TaskMap(tracker.tasks, tracker.entityName), folder.onDisk, tracker.remote);
    SubtractionTallyAgrees(outcomes);
  }

  /** `push_to_kitsu` in core.py: the import, then the loop with no ledgers,
      no checks and no test that a listed clip exists. */
  function CorePush(projectFound: bool, csvPath: string, dir: string, listing: seq<string>, tracker: Tracker): Run {
    if !projectFound then Run([], Ok(NoProject))
    else
      var mp4Files := WithExtension(listing, Mp4Extension);
      var tasks := TaskMap(tracker.tasks, tracker.entityName);
      var outcomes := OutcomesWithoutDiskCheck(dir, mp4Files, tasks, tracker.remote);
      Run([csvPath], Ok(Completed(SubtractionTally(outcomes), CallsWithoutDiskCheck(dir, mp4Files, tasks, tracker.remote))))
  }

  /** With every listed clip still on disk, core.py counts the same as the
      publisher's loop. */
  lemma CoreCountsAsPublisher(csvPath: string, dir: string, listing: seq<string>, tracker: Tracker, onDisk: string -> bool)
    requires forall f :: f in WithExtension(listing, Mp4Extension) ==> onDisk(PathJoin(dir, f))
    ensures var mp4Files := WithExtension(listing, Mp4Extension);
      var tasks := TaskMap(tracker.tasks, tracker.entityName);
      CorePush(true, csvPath, dir, listing, tracker).outcome
        == Ok(Completed(Tally(Outcomes(dir, mp4Files, tasks, onDisk, tracker.remote)),
                        CallsWithoutDiskCheck(dir, mp4Files, tasks, tracker.remote)))
  {
    var mp4Files := WithExtension(listing, Mp4Extension);
    var tasks := TaskMap(tracker.tasks, tracker.entityName);
    var loose := OutcomesWithoutDiskCheck(dir, mp4Files, tasks, tracker.remote);
    forall i | 0 <= i < |mp4Files|
      ensures loose[i] == Outcome(dir, mp4Files[i], tasks, onDisk, tracker.remote)
    {
      DiskCheckMatters(dir, mp4Files[i], tasks, onDisk, tracker.remote);
    }
    assert loose == Outcomes(dir, mp4Files, tasks, onDisk, tracker.remote);
    SubtractionTallyAgrees(loose);
  }

  /** `push_to_kitsu` in kitsu_ingest.py: the import, then the calls, with
      no tally. */
  function EarliestPush(projectFound: bool, csvPath: string, dir: string, listing: seq<string>, tracker: Tracker): (seq<string>, seq<string>) {
    if !projectFound then ([], [])
    else ([csvPath], EarliestCalls(dir, listing, TaskMap(tracker.tasks, tracker.entityName), tracker.remote))
  }

  /** The earliest revision imports and calls the tracker exactly as core.py
      does. */
  lemma EarliestAgreesWithCore(projectFound: bool, csvPath: string, dir: string, listing: seq<string>, tracker: Tracker)
    ensures var run := CorePush(projectFound, csvPath, dir, listing, tracker);
      && EarliestPush(projectFound, csvPath, dir, listing, tracker).0 == run.imported
      && (projectFound ==> EarliestPush(projectFound, csvPath, dir, listing, tracker).1 == run.outcome.value.calls)
  {
    EarliestCallsAgree(dir, listing, TaskMap(tracker.tasks, tracker.entityName), tracker.remote);
  }

  // ---------------------------------------------------------------------
  // fetch_csv_from_folder

  /** The paths of the CSV files of a folder, newest first: the listing is
      given already ordered by modification time. */
  function CsvCandidates(path: string, byMtime: seq<string>, isFile: string -> bool): seq<string> {
    if |byMtime| == 0 then []
    else
      var f := byMtime[0];
      (if IsCsvFile(path, f, isFile) then [PathJoin(path, f)] else []) + CsvCandidates(path, byMtime[1..], isFile)
  }

  /** The filter of the listing: a regular file whose name ends in ".csv",
      in any ASCII case. */
  predicate IsCsvFile(path: string, f: string, isFile: string -> bool) {
    EndsWith(AsciiLower(f), CsvExtension) && isFile(PathJoin(path, f))
  }

  /** The first candidate is the newest CSV file of the listing; `i` is
      its position. */
  lemma {:induction false} CsvCandidatesFirst(path: string, byMtime: seq<string>, isFile: string -> bool) returns (i: nat)
    requires |CsvCandidates(path, byMtime, isFile)| > 0
    ensures i < |byMtime| && IsCsvFile(path, byMtime[i], isFile)
    ensures CsvCandidates(path, byMtime, isFile)[0] == PathJoin(path, byMtime[i])
    ensures forall j :: 0 <= j < i ==> !IsCsvFile(path, byMtime[j], isFile)
  {
    var rest := byMtime[1..];
    if IsCsvFile(path, byMtime[0], isFile) {
      assert CsvCandidates(path, byMtime, isFile) == [PathJoin(path, byMtime[0])] + CsvCandidates(path, rest, isFile);
      i := 0;
    } else {
      assert CsvCandidates(path, byMtime, isFile) == [] + CsvCandidates(path, rest, isFile);
      var k := CsvCandidatesFirst(path, rest, isFile);
      i := k + 1;
      assert byMtime[i] == rest[k];
      forall j | 0 <= j < i
        ensures !IsCsvFile(path, byMtime[j], isFile)
      {
        if j > 0 {
          assert byMtime[j] == rest[j - 1];
        }
      }
    }
  }

  /** Without a CSV file there is no candidate. */
  lemma {:induction false} CsvCandidatesNone(path: string, byMtime: seq<string>, isFile: string -> bool)
    requires forall i :: 0 <= i < |byMtime| ==> !IsCsvFile(path, byMtime[i], isFile)
    ensures CsvCandidates(path, byMtime, isFile) == []
  {
    if |byMtime| > 0 {
      CsvCandidatesNone(path, byMtime[1..], isFile);
    }
  }

  /** `fetch_csv_from_folder` in utils/validation.py: the newest CSV file of
      the folder, as a path into it. */
  function FetchCsvFromFolder(path: string, isDir: bool, byMtime: seq<string>, isFile: string -> bool): Result<string, Error> {
    if !isDir then Err(NoSuchDirectory(path))
    else
      var candidates := CsvCandidates(path, byMtime, isFile);
      if |candidates| == 0 then Err(NoCsvFound) else Ok(candidates[0])
  }

  /** The result is the path of the newest CSV file, and the lookup fails
      only for a missing folder or a folder without one. */
  lemma FetchCsvFromFolderNewest(path: string, byMtime: seq<string>, isFile: string -> bool)
    ensures FetchCsvFromFolder(path, true, byMtime, isFile).Ok? <==>
      exists i :: 0 <= i < |byMtime| && IsCsvFile(path, byMtime[i], isFile)
    ensures FetchCsvFromFolder(path, true, byMtime, isFile).Ok? ==>
      exists i :: (0 <= i < |byMtime| && IsCsvFile(path, byMtime[i], isFile)
        && FetchCsvFromFolder(path, true, byMtime, isFile).value == PathJoin(path, byMtime[i])
        && forall j :: 0 <= j < i ==> !IsCsvFile(path, byMtime[j], isFile))
  {
    if |CsvCandidates(path, byMtime, isFile)| > 0 {
      var i := CsvCandidatesFirst(path, byMtime, isFile);
    } else if exists i :: 0 <= i < |byMtime| && IsCsvFile(path, byMtime[i], isFile) {
      var i :| 0 <= i < |byMtime| && IsCsvFile(path, byMtime[i], isFile);
      CsvCandidatesHas(path, byMtime, isFile, i);
    }
  }

  lemma {:induction false} CsvCandidatesHas(path: string, byMtime: seq<string>, isFile: string -> bool, i: nat)
    requires i < |byMtime| && IsCsvFile(path, byMtime[i], isFile)
    ensures |CsvCandidates(path, byMtime, isFile)| > 0
  {
    if i > 0 && !IsCsvFile(path, byMtime[0], isFile) {
      assert byMtime[1..][i - 1] == byMtime[i];
      CsvCandidatesHas(path, byMtime[1..], isFile, i - 1);
    }
  }

  /** `fetch_csv_from_folder` in misc/old_core.py and core.py: the candidate,
      already a path into the folder, is joined onto the folder again. */
  function FetchCsvFromFolderJoinedTwice(path: string, isDir: bool, byMtime: seq<string>, isFile: string -> bool): Result<string, Error> {
    if !isDir then Err(NoSuchDirectory(path))
    else
      var candidates := CsvCandidates(path, byMtime, isFile);
      if |candidates| == 0 then Err(NoCsvFound) else Ok(PathJoin(path, candidates[0]))
  }

  /** For a relative folder the second join names a file inside a
      sub-folder of the same name, which is not the CSV that was found: with
      folder "out" and file "a.csv" the result is "out/out/a.csv". */
  lemma JoinedTwiceMisses(path: string, byMtime: seq<string>, isFile: string -> bool)
    requires |path| > 0 && path[0] != '/' && path[|path| - 1] != '/'
    requires forall f :: f in byMtime ==> '/' !in f
    requires FetchCsvFromFolder(path, true, byMtime, isFile).Ok?
    ensures FetchCsvFromFolderJoinedTwice(path, true, byMtime, isFile).Ok?
    ensures FetchCsvFromFolderJoinedTwice(path, true, byMtime, isFile).value
      == path + "/" + FetchCsvFromFolder(path, true, byMtime, isFile).value
    ensures FetchCsvFromFolderJoinedTwice(path, true, byMtime, isFile) != FetchCsvFromFolder(path, true, byMtime, isFile)
  {
    FetchCsvFromFolderNewest(path, byMtime, isFile);
    var i :| 0 <= i < |byMtime| && IsCsvFile(path, byMtime[i], isFile)
      && FetchCsvFromFolder(path, true, byMtime, isFile).value == PathJoin(path, byMtime[i]);
    var found := FetchCsvFromFolder(path, true, byMtime, isFile).value;
    assert byMtime[i] in byMtime;
    assert !(|byMtime[i]| > 0 && byMtime[i][0] == '/') by {
      if |byMtime[i]| > 0 {
        assert byMtime[i][0] in byMtime[i];
      }
    }
    assert found == path + "/" + byMtime[i];
    assert found[0] == path[0];
  }

  /** For an absolute folder both versions find the same path, since joining
      an absolute path keeps it. */
  lemma JoinedTwiceHarmlessWhenAbsolute(path: string, isDir: bool, byMtime: seq<string>, isFile: string -> bool)
    requires |path| > 0 && path[0] == '/'
    requires forall f :: f in byMtime ==> '/' !in f
    ensures FetchCsvFromFolderJoinedTwice(path, isDir, byMtime, isFile) == FetchCsvFromFolder(path, isDir, byMtime, isFile)
  {
    if isDir && |CsvCandidates(path, byMtime, isFile)| > 0 {
      var i := CsvCandidatesFirst(path, byMtime, isFile);
      assert byMtime[i] in byMtime;
    }
  }
}

=== FILE: reconcile.dfy ===
/** The safety checks run before publishing: the yes/no gate, the check that
    every tracker shot has a clip and every clip a shot, and the field-by-field
    comparison of the two ledgers. */
module Reconcile {
  import opened Wrappers
  import opened Text
  import opened Sheet
  import opened Partition
  import opened Ledger

  // ---------------------------------------------------------------------
  // ask_user_input

  datatype Decision = Proceed | Abort

  /** `input("continue? (y/N): ").strip().lower()`: only "y" and "yes"
      continue; anything else, the empty answer included, exits. */
  function AskUser(response: string): Decision {
    var answer := AsciiLower(Strip(response));
    if answer == "y" || answer == "yes" then Proceed else Abort
  }

  /** "y" or "yes" in any letter case, with any whitespace around it,
      continues. */
  lemma AskUserAcceptsPadded(lead: string, word: string, trail: string)
    requires AllSpace(lead) && AllSpace(trail)
    requires AsciiLower(word) == "y" || AsciiLower(word) == "yes"
    ensures AskUser(lead + word + trail) == Proceed
  {
    assert LowerChar(word[0]) == 'y';
    assert LowerChar(word[|word| - 1]) in {'y', 's'};
    StripPadded(lead, word, trail);
  }

  /** Conversely, an answer that continues is such a word between
      whitespace. */
  lemma AskUserOnlyYes(response: string)
    requires AskUser(response) == Proceed
    ensures var i, word := SkipSpace(response, 0), Strip(response);
      && response == response[..i] + word + response[i + |word|..]
      && AllSpace(response[..i]) && AllSpace(response[i + |word|..])
      && (AsciiLower(word) == "y" || AsciiLower(word) == "yes")
  {
    StripDecomposes(response);
  }

  /** Pressing enter, or typing only whitespace, takes the default: abort. */
  lemma AskUserDefaultAborts(response: string)
    requires AllSpace(response)
    ensures AskUser(response) == Abort
  {
    StripAllSpace(response);
  }

  // ---------------------------------------------------------------------
  // safety_check_kitsu_vs_local_mp4

  /** The shot names the clips stand for: each file name without its
      extension. */
  function Stems(files: seq<string>): set<string> {
    set f | f in files :: SplitExtRoot(f)
  }

  datatype Presence = Presence(matching: set<string>, missingFiles: set<string>, extraFiles: set<string>)

  /** The three sets the check logs. It asks the user whenever a shot has no
      clip or a clip has no shot, that is, whenever the two name sets
      differ. */
  function CheckPresence(names: set<string>, files: seq<string>): (p: Presence)
    ensures forall n :: n in p.matching <==> n in names && n in Stems(files)
    ensures p.matching + p.missingFiles == names && p.matching !! p.missingFiles
    ensures p.matching + p.extraFiles == Stems(files) && p.matching !! p.extraFiles
    ensures (p.missingFiles != {} || p.extraFiles != {}) <==> names != Stems(files)
  {
    var stems := Stems(files);
    Presence(names * stems, names - stems, stems - names)
  }

  /** Clips written by the video step for a list of shot names carry exactly
      those names, so when the tracker holds the same names the check passes
      without asking. */
  lemma ClipsOfShotsMatch(dir: string, names: seq<string>)
    requires forall i :: 0 <= i < |names| ==> '/' !in names[i] && !AllDots(names[i])
    ensures var files := seq(|names|, i requires 0 <= i < |names| => Basename(OutputPath(dir, names[i])));
      Stems(files) == set n | n in names
  {
    var files := seq(|names|, i requires 0 <= i < |names| => Basename(OutputPath(dir, names[i])));
    forall i | 0 <= i < |names|
      ensures SplitExtRoot(files[i]) == names[i]
    {
      OutputPathStem(dir, names[i]);
    }
    forall n | n in names
      ensures n in Stems(files)
    {
      var i :| 0 <= i < |names| && names[i] == n;
      assert files[i] in files;
    }
  }

  // ---------------------------------------------------------------------
  // safety_check_matching_metadata

  /** One flagged field with both sides' values. */
  datatype Diff = Diff(field: string, csv: Value, kitsu: Value)

  /** A report entry: a shot only the CSV has, one only the tracker has, or
      the fields where both have it but disagree. */
  datatype Mismatch = MissingInKitsu | MissingInCsv | Differs(diffs: seq<Diff>)

  /** `1e-3`. */
  const Tolerance: real := 0.001

  function Abs(x: real): real {
    if x < 0.0 then -x else x
  }

  /** Python `n == v` for an int from the CSV and a value from the tracker:
      numbers compare by value, and an int never equals a str or None. */
  predicate IntEquals(n: int, v: Value) {
    match v
    case IntV(i) => n == i
    case RealV(r) => n as real == r
    case _ => false
  }

  /** Python `s == v` for a str: only an equal str matches. */
  predicate StrEquals(s: string, v: Value) {
    v.StrV? && v.s == s
  }

  /** The fields that differ, in the order of the entry. A float from the
      CSV is compared within the tolerance, and a NaN never differs from a
      number; a NaN description, which `float` arithmetic meets with the
      tracker's str, raises TypeError. Every other field compares with
      `!=`. */
  function FieldDiffs(l: LocalEntry, k: RemoteEntry): (r: Result<seq<Diff>, Error>)
    ensures r.Err? ==> r.error == Incomparable(DescriptionKey)
  {
    if l.description.None? && !(k.description.IntV? || k.description.RealV?) then Err(Incomparable(DescriptionKey))
    else Ok(NumberFlags(l, k) + DescriptionFlag(l.description, k.description))
  }

  /** The flags of frame_in, frame_out, nb_frames and fps, in that order. */
  function NumberFlags(l: LocalEntry, k: RemoteEntry): seq<Diff> {
    FlagIf(l.frameIn != k.frameIn, Diff(FrameInKey, IntV(l.frameIn), IntV(k.frameIn)))
    + FlagIf(l.frameOut != k.frameOut, Diff(FrameOutKey, IntV(l.frameOut), IntV(k.frameOut)))
    + FlagIf(!IntEquals(l.nbFrames, k.nbFrames), Diff(NbFramesKey, IntV(l.nbFrames), k.nbFrames))
    + FpsFlag(l.fps, k.fps)
  }

  /** The flag `d` when `differs` holds. */
  function FlagIf(differs: bool, d: Diff): (r: seq<Diff>)
    ensures r == [d] || r == []
    ensures d in r <==> differs
  {
    if differs then [d] else []
  }

  /** The description flag: a str is compared with `!=`; a NaN one is never
      flagged (it is either an error or equal to nothing). */
  function DescriptionFlag(d: Option<string>, kitsu: Value): seq<Diff> {
    match d
    case None => []
    case Some(x) => FlagIf(!StrEquals(x, kitsu), Diff(DescriptionKey, StrV(x), kitsu))
  }

  /** The fps flag: a NaN rate is never flagged, a number is flagged when it
      is a thousandth of a frame or more away. */
  function FpsFlag(fps: Option<real>, kitsu: real): seq<Diff> {
    match fps
    case None => []
    case Some(v) => FlagIf(Abs(v - kitsu) >= Tolerance, Diff(FpsKey, RealV(v), RealV(kitsu)))
  }

  /** The two sides agree, field by field, in Python's terms. */
  predicate Agree(l: LocalEntry, k: RemoteEntry) {
    && l.frameIn == k.frameIn
    && l.frameOut == k.frameOut
    && IntEquals(l.nbFrames, k.nbFrames)
    && (l.fps.Some? ==> Abs(l.fps.value - k.fps) < Tolerance)
    && (l.description.Some? ==> StrEquals(l.description.value, k.description))
  }

  /** The comparison raises exactly for a NaN description against a str or
      None, and otherwise flags nothing exactly when the two sides agree. */
  lemma FieldDiffsClean(l: LocalEntry, k: RemoteEntry)
    ensures FieldDiffs(l, k).Err? <==> l.description.None? && (k.description.StrV? || k.description.NoneV?)
    ensures FieldDiffs(l, k).Ok? ==> (FieldDiffs(l, k).value == [] <==> Agree(l, k))
  {
  }

  /** Every flag names a field where the two sides disagree. */
  lemma FieldDiffsFlagged(l: LocalEntry, k: RemoteEntry, d: Diff)
    requires FieldDiffs(l, k).Ok? && d in FieldDiffs(l, k).value
    ensures d.field == FrameInKey ==> l.frameIn != k.frameIn
    ensures d.field == FrameOutKey ==> l.frameOut != k.frameOut
    ensures d.field == NbFramesKey ==> !IntEquals(l.nbFrames, k.nbFrames)
    ensures d.field == FpsKey ==> l.fps.Some? && Abs(l.fps.value - k.fps) >= Tolerance
    ensures d.field == DescriptionKey ==> l.description.Some? && !StrEquals(l.description.value, k.description)
  {
    KeysDistinct();
  }

  /** Where a field stands in an entry: frame_in, frame_out, nb_frames, fps,
      description. */
  function Rank(field: string): nat {
    if field == FrameInKey then 0
    else if field == FrameOutKey then 1
    else if field == NbFramesKey then 2
    else if field == FpsKey then 3
    else 4
  }

  /** Flags listed in the order of the entry's fields, each field at most
      once. */
  predicate Ranked(r: seq<Diff>) {
    forall i, j :: 0 <= i < j < |r| ==> Rank(r[i].field) < Rank(r[j].field)
  }

  lemma RankedJoin(a: seq<Diff>, b: seq<Diff>, n: nat)
    requires Ranked(a) && |b| <= 1
    requires forall x :: x in a ==> Rank(x.field) < n
    requires forall y :: y in b ==> Rank(y.field) == n
    ensures Ranked(a + b)
    ensures forall x :: x in a + b ==> Rank(x.field) <= n
  {
    var c := a + b;
    forall i, j | 0 <= i < j < |c| ensures Rank(c[i].field) < Rank(c[j].field) {
      assert c[i] in a by {
        assert c[i] == a[i];
      }
      if j < |a| {
        assert c[i] == a[i] && c[j] == a[j];
      } else {
        assert c[j] in b by {
          assert c[j] == b[j - |a|];
        }
      }
    }
  }

  /** Every disagreement is flagged, with both values as the two sides hold
      them, and the flags come in the order of the entry's fields, each field
      at most once. */
  lemma FieldDiffsComplete(l: LocalEntry, k: RemoteEntry)
    requires FieldDiffs(l, k).Ok?
    ensures var r := FieldDiffs(l, k).value;
      && (Diff(FrameInKey, IntV(l.frameIn), IntV(k.frameIn)) in r <==> l.frameIn != k.frameIn)
      && (Diff(FrameOutKey, IntV(l.frameOut), IntV(k.frameOut)) in r <==> l.frameOut != k.frameOut)
      && (Diff(NbFramesKey, IntV(l.nbFrames), k.nbFrames) in r <==> !IntEquals(l.nbFrames, k.nbFrames))
      && (l.fps.Some? ==>
            (Diff(FpsKey, RealV(l.fps.value), RealV(k.fps)) in r <==> Abs(l.fps.value - k.fps) >= Tolerance))
      && (l.description.Some? ==>
            (Diff(DescriptionKey, StrV(l.description.value), k.description) in r
             <==> !StrEquals(l.description.value, k.description)))
    ensures Ranked(FieldDiffs(l, k).value)
  {
    var numbers, description := NumberFlags(l, k), DescriptionFlag(l.description, k.description);
    assert forall x :: x in description ==> x.field == DescriptionKey;
    NumberFlagsMembers(l, k);
    assert Ranked(numbers + description) by {
      NumberFlagsRanked(l, k);
      KeysDistinct();
      assert Rank(DescriptionKey) == 4;
      RankedJoin(numbers, description, 4);
    }
  }

  lemma NumberFlagsMembers(l: LocalEntry, k: RemoteEntry)
    ensures var r := NumberFlags(l, k);
      && (Diff(FrameInKey, IntV(l.frameIn), IntV(k.frameIn)) in r <==> l.frameIn != k.frameIn)
      && (Diff(FrameOutKey, IntV(l.frameOut), IntV(k.frameOut)) in r <==> l.frameOut != k.frameOut)
      && (Diff(NbFramesKey, IntV(l.nbFrames), k.nbFrames) in r <==> !IntEquals(l.nbFrames, k.nbFrames))
      && (l.fps.Some? ==>
            (Diff(FpsKey, RealV(l.fps.value), RealV(k.fps)) in r <==> Abs(l.fps.value - k.fps) >= Tolerance))
    ensures forall x :: x in NumberFlags(l, k) ==> x.field != DescriptionKey
  {
    KeysDistinct();
  }

  lemma NumberFlagsRanked(l: LocalEntry, k: RemoteEntry)
    ensures Ranked(NumberFlags(l, k))
    ensures forall x :: x in NumberFlags(l, k) ==> Rank(x.field) < 4
  {
    KeysDistinct();
    var fi := FlagIf(l.frameIn != k.frameIn, Diff(FrameInKey, IntV(l.frameIn), IntV(k.frameIn)));
    var fo := FlagIf(l.frameOut != k.frameOut, Diff(FrameOutKey, IntV(l.frameOut), IntV(k.frameOut)));
    var nb := FlagIf(!IntEquals(l.nbFrames, k.nbFrames), Diff(NbFramesKey, IntV(l.nbFrames), k.nbFrames));
    assert Rank(FrameOutKey) == 1 && Rank(NbFramesKey) == 2 && Rank(FpsKey) == 3;
    RankedJoin([], fi, 0);
    RankedJoin(fi, fo, 1);
    RankedJoin(fi + fo, nb, 2);
    RankedJoin(fi + fo + nb, FpsFlag(l.fps, k.fps), 3);
  }

  /** The five field names are pairwise different. */
  lemma KeysDistinct()
    ensures FrameInKey != FrameOutKey && FrameInKey != NbFramesKey && FrameInKey != FpsKey && FrameInKey != DescriptionKey
    ensures FrameOutKey != NbFramesKey && FrameOutKey != FpsKey && FrameOutKey != DescriptionKey
    ensures NbFramesKey != FpsKey && NbFramesKey != DescriptionKey
    ensures FpsKey != DescriptionKey
  {
  }

  /** A frame rate read back within a thousandth of a frame is not flagged,
      and an NaN one never is. */
  lemma FpsTolerance(l: LocalEntry, k: RemoteEntry)
    requires l.frameIn == k.frameIn && l.frameOut == k.frameOut && IntEquals(l.nbFrames, k.nbFrames)
    requires l.description.Some? && StrEquals(l.description.value, k.description)
    ensures l.fps == Some(k.fps + 0.0009) ==> FieldDiffs(l, k) == Ok([])
    ensures l.fps == Some(k.fps + 0.001) ==> FieldDiffs(l, k) == Ok([Diff(FpsKey, RealV(k.fps + 0.001), RealV(k.fps))])
    ensures l.fps == None ==> FieldDiffs(l, k) == Ok([])
  {
    FieldDiffsClean(l, k);
    if l.fps == Some(k.fps + 0.001) {
      var d := FieldDiffs(l, k).value;
      assert Abs(l.fps.value - k.fps) == 0.001;
      var flag := Diff(FpsKey, RealV(k.fps + 0.001), RealV(k.fps));
      assert d == [] + [] + [] + [flag] + [];
      assert d == [flag];
    }
  }

  /** A shot is reported when only one side has it, or when both do and some
      field differs. */
  predicate Flagged(kitsu: map<string, RemoteEntry>, local: map<string, LocalEntry>, name: string) {
    || (name in local && name !in kitsu)
    || (name in kitsu && name !in local)
    || (name in local && name in kitsu && FieldDiffs(local[name], kitsu[name]).Ok?
        && FieldDiffs(local[name], kitsu[name]).value != [])
  }

  function Expected(kitsu: map<string, RemoteEntry>, local: map<string, LocalEntry>, name: string): Mismatch
    requires Flagged(kitsu, local, name)
  {
    if name !in kitsu then MissingInKitsu
    else if name !in local then MissingInCsv
    else Differs(FieldDiffs(local[name], kitsu[name]).value)
  }

  /** The report the check builds, stated per shot name. */
  function Report(kitsu: map<string, RemoteEntry>, local: map<string, LocalEntry>): Result<map<string, Mismatch>, Error> {
    if exists name :: name in local && name in kitsu && FieldDiffs(local[name], kitsu[name]).Err? then
      Err(Incomparable(DescriptionKey))
    else
      Ok(map name | name in local.Keys + kitsu.Keys && Flagged(kitsu, local, name) :: Expected(kitsu, local, name))
  }

  /** `safety_check_matching_metadata`: one pass over the CSV ledger, then
      one over the tracker ledger for the names the CSV lacks. */
  method SafetyCheckMetadata(kitsu: map<string, RemoteEntry>, local: map<string, LocalEntry>)
    returns (res: Result<map<string, Mismatch>, Error>)
    ensures res == Report(kitsu, local)
  {
    var fromCsv :- CsvPass(kitsu, local);
    var mismatches := TrackerPass(kitsu, local, fromCsv);
    ghost var expected := map n | n in local.Keys + kitsu.Keys && Flagged(kitsu, local, n) :: Expected(kitsu, local, n);
    assert mismatches.Keys == expected.Keys;
    assert mismatches == expected;
    assert !exists n :: n in local && n in kitsu && FieldDiffs(local[n], kitsu[n]).Err?;
    res := Ok(mismatches);
  }

  /** The pass over the CSV ledger: a name the tracker lacks is missing
      there, a shared name is compared field by field, and the first
      comparison that raises ends the check. */
  method CsvPass(kitsu: map<string, RemoteEntry>, local: map<string, LocalEntry>)
    returns (res: Result<map<string, Mismatch>, Error>)
    ensures res.Err? ==> res == Report(kitsu, local)
    ensures res.Ok? ==> forall n :: n in local && n in kitsu ==> FieldDiffs(local[n], kitsu[n]).Ok?
    ensures res.Ok? ==> forall n :: n in res.value <==> n in local && Flagged(kitsu, local, n)
    ensures res.Ok? ==> forall n :: n in res.value ==> Flagged(kitsu, local, n) && res.value[n] == Expected(kitsu, local, n)
  {
    var mismatches: map<string, Mismatch> := map[];
    var todo := local.Keys;
    while todo != {}
      invariant todo <= local.Keys
      invariant forall n :: n in local && n !in todo && n in kitsu ==> FieldDiffs(local[n], kitsu[n]).Ok?
      invariant forall n :: n in mismatches <==> n in local && n !in todo && Flagged(kitsu, local, n)
      invariant forall n :: n in mismatches ==> Flagged(kitsu, local, n) && mismatches[n] == Expected(kitsu, local, n)
      decreases todo
    {
      var name :| name in todo;
      todo := todo - {name};
      if name !in kitsu {
        mismatches := mismatches[name := MissingInKitsu];
      } else {
        var diffs := FieldDiffs(local[name], kitsu[name]);
        if diffs.Err? {
          assert name in local && name in kitsu && FieldDiffs(local[name], kitsu[name]).Err?;
          return Err(diffs.error);
        }
        if diffs.value != [] {
          mismatches := mismatches[name := Differs(diffs.value)];
        }
      }
    }
    res := Ok(mismatches);
  }

  /** The pass over the tracker ledger: every name the CSV lacks is added
      as missing there, and nothing else changes. */
  method TrackerPass(kitsu: map<string, RemoteEntry>, local: map<string, LocalEntry>, fromCsv: map<string, Mismatch>)
    returns (mismatches: map<string, Mismatch>)
    requires forall n :: n in fromCsv <==> n in local && Flagged(kitsu, local, n)
    requires forall n :: n in fromCsv ==> Flagged(kitsu, local, n) && fromCsv[n] == Expected(kitsu, local, n)
    ensures forall n :: n in mismatches <==> n in local.Keys + kitsu.Keys && Flagged(kitsu, local, n)
    ensures forall n :: n in mismatches ==> Flagged(kitsu, local, n) && mismatches[n] == Expected(kitsu, local, n)
  {
    mismatches := fromCsv;
    var rest := kitsu.Keys;
    while rest != {}
      invariant rest <= kitsu.Keys
      invariant forall n :: n in mismatches <==>
        (n in local && Flagged(kitsu, local, n)) || (n in kitsu && n !in rest && n !in local)
      invariant forall n :: n in mismatches ==> Flagged(kitsu, local, n) && mismatches[n] == Expected(kitsu, local, n)
      decreases rest
    {
      var name :| name in rest;
      rest := rest - {name};
      if name !in local {
        mismatches := mismatches[name := MissingInCsv];
      }
    }
  }

  /** The check stays silent exactly when both ledgers hold the same names
      and every shot agrees. */
  lemma ReportClean(kitsu: map<string, RemoteEntry>, local: map<string, LocalEntry>)
    ensures Report(kitsu, local) == Ok(map[]) <==>
      && kitsu.Keys == local.Keys
      && forall n :: n in local ==> FieldDiffs(local[n], kitsu[n]) == Ok([])
  {
    var names := local.Keys + kitsu.Keys;
    if Report(kitsu, local) == Ok(map[]) {
      forall n | n in names ensures !Flagged(kitsu, local, n) {
        assert n !in Report(kitsu, local).value;
      }
    } else if kitsu.Keys == local.Keys && forall n :: n in local ==> FieldDiffs(local[n], kitsu[n]) == Ok([]) {
      assert forall n :: n in names ==> !Flagged(kitsu, local, n);
    }
  }

  /** A name on one side only is reported as missing on the other. */
  lemma ReportMissing(kitsu: map<string, RemoteEntry>, local: map<string, LocalEntry>, name: string)
    requires Report(kitsu, local).Ok?
    ensures name in local && name !in kitsu ==> Report(kitsu, local).value[name] == MissingInKitsu
    ensures name in kitsu && name !in local ==> Report(kitsu, local).value[name] == MissingInCsv
    ensures name !in local && name !in kitsu ==> name !in Report(kitsu, local).value
  {
  }
}

=== FILE: seqs.dfy ===
/** Applying a per-row function to a sequence, and what that does to a
    rearrangement of the sequence. */
module Seqs {
  /** `f` applied to every element, in order. */
  function Map<A, B>(s: seq<A>, f: A -> B): (r: seq<B>)
    ensures |r| == |s|
    ensures forall i :: 0 <= i < |s| ==> r[i] == f(s[i])
  {
    seq(|s|, i requires 0 <= i < |s| => f(s[i]))
  }

  lemma MapConcat<A, B>(a: seq<A>, b: seq<A>, f: A -> B)
    ensures Map(a + b, f) == Map(a, f) + Map(b, f)
  {
  }

  /** Dropping the last element of `a + b` drops the last element of `b`. */
  lemma DropLastAppend<T>(a: seq<T>, b: seq<T>)
    requires |b| > 0
    ensures (a + b)[..|a + b| - 1] == a + b[..|b| - 1]
    ensures (a + b)[|a + b| - 1] == b[|b| - 1]
  {
  }

  lemma RemoveAt<T>(b: seq<T>, k: nat)
    requires k < |b|
    ensures multiset(b) == multiset(b[..k] + b[k + 1..]) + multiset{b[k]}
  {
    assert b == b[..k] + [b[k]] + b[k + 1..];
  }

  lemma MapRemoveAt<A, B>(b: seq<A>, k: nat, f: A -> B)
    requires k < |b|
    ensures Map(b, f)[..k] + Map(b, f)[k + 1..] == Map(b[..k] + b[k + 1..], f)
  {
  }

  lemma AddCancel<T>(m1: multiset<T>, m2: multiset<T>, x: T)
    requires m1 + multiset{x} == m2 + multiset{x}
    ensures m1 == m2
  {
    assert m1 == (m1 + multiset{x}) - multiset{x};
    assert m2 == (m2 + multiset{x}) - multiset{x};
  }

  /** Removing one element from each side keeps mapped multisets equal. */
  lemma MapPermutesStep<A, B>(a: seq<A>, b: seq<A>, k: nat, f: A -> B)
    requires |a| > 0 && k < |b| && a[0] == b[k]
    requires multiset(Map(a[1..], f)) == multiset(Map(b[..k] + b[k + 1..], f))
    ensures multiset(Map(a, f)) == multiset(Map(b, f))
  {
    MapRemoveAt(b, k, f);
    RemoveAt(Map(b, f), k);
    assert Map(a, f) == [f(a[0])] + Map(a[1..], f);
  }

  /** Mapping two rearrangements of the same elements gives two
      rearrangements of the same images. */
  lemma {:induction false} MapPermutes<A, B>(a: seq<A>, b: seq<A>, f: A -> B)
    requires multiset(a) == multiset(b)
    ensures multiset(Map(a, f)) == multiset(Map(b, f))
    decreases |a|
  {
    if |a| == 0 {
      assert |b| == |multiset(b)| == 0;
    } else {
      var x := a[0];
      assert x in multiset(b);
      var k :| 0 <= k < |b| && b[k] == x;
      var rest := b[..k] + b[k + 1..];
      RemoveAt(b, k);
      assert a == [x] + a[1..];
      AddCancel(multiset(a[1..]), multiset(rest), x);
      MapPermutes(a[1..], rest, f);
      MapPermutesStep(a, b, k, f);
    }
  }
}

=== FILE: sheet.dfy ===
/** A breakdown sheet as pandas holds it after `read_csv`: named columns and
    rows of cells. A cell is kept as its text; an empty or absent cell stands
    for NaN. */
module Sheet {
  import opened Wrappers
  import opened Text
  import opened ShotCode
  import opened Sorting

  type Row = map<string, string>

  datatype Table = Table(columns: seq<string>, rows: seq<Row>)

  /** The text of column `c` in row `r`; an absent cell reads as empty. */
  function Cell(r: Row, c: string): string {
    if c in r then r[c] else ""
  }

  /** The ways the pipeline raises. */
  datatype Error =
    | MissingColumns(names: seq<string>)  // ValueError naming absent required columns
    | KeyNotFound(names: seq<string>)     // KeyError from a column or key lookup
    | InvalidValue(text: string)          // ValueError or TypeError from `int()` / `float()`
    | Incomparable(field: string)         // TypeError from arithmetic between a NaN and a str
    | NoCsvFound                          // FileNotFoundError: no CSV next to the videos
    | NoSuchDirectory(path: string)       // FileNotFoundError: the folder to push does not exist

  /** `[c for c in required if c not in columns]`. */
  function Missing(required: seq<string>, columns: seq<string>): seq<string> {
    if |required| == 0 then []
    else (if required[0] in columns then [] else [required[0]]) + Missing(required[1..], columns)
  }

  /** The missing list names exactly the required columns that are absent. */
  lemma {:induction false} MissingExactly(required: seq<string>, columns: seq<string>, c: string)
    ensures c in Missing(required, columns) <==> c in required && c !in columns
  {
    if |required| > 0 {
      MissingExactly(required[1..], columns, c);
      assert required == [required[0]] + required[1..];
    }
  }

  /** Nothing is missing exactly when every required column is present. */
  lemma MissingEmpty(required: seq<string>, columns: seq<string>)
    ensures Missing(required, columns) == [] <==> forall c :: c in required ==> c in columns
  {
    if Missing(required, columns) != [] {
      var c := Missing(required, columns)[0];
      MissingExactly(required, columns, c);
    } else {
      forall c | c in required ensures c in columns {
        MissingExactly(required, columns, c);
      }
    }
  }

  // ---------------------------------------------------------------------
  // sort_dataframe

  const ShotColumn := "SHOT"

  /** `df['SHOT'].astype(str)` on one cell: NaN becomes the text "nan". */
  function ShotText(r: Row): string {
    var c := Cell(r, ShotColumn);
    if c == "" then "nan" else c
  }

  /** The two helper columns the sort adds and drops again. Whatever a sheet
      held under these names is overwritten and then dropped with them. */
  const SortPrefixColumn := "sort_prefix"
  const SortNumberColumn := "sort_number"
  const HelperColumns := {SortPrefixColumn, SortNumberColumn}

  /** A row as `sort_dataframe` hands it back: its SHOT cell replaced by its
      text, and no helper cell. Rows move whole, so dropping the helper cells
      before ordering them or after makes no difference. */
  function SortedRow(r: Row): (out: Row)
    ensures out.Keys == (r.Keys - HelperColumns) + {ShotColumn}
    ensures Cell(out, ShotColumn) == ShotText(r)
    ensures forall c :: c != ShotColumn && c !in HelperColumns ==> Cell(out, c) == Cell(r, c)
  {
    (r - HelperColumns)[ShotColumn := ShotText(r)]
  }

  function SortedRows(rows: seq<Row>): (out: seq<Row>)
    ensures |out| == |rows|
    ensures forall i :: 0 <= i < |rows| ==> out[i] == SortedRow(rows[i])
  {
    seq(|rows|, i requires 0 <= i < |rows| => SortedRow(rows[i]))
  }

  /** `columns` without the names in `drop`, in their order. */
  function Without(columns: seq<string>, drop: set<string>): (r: seq<string>)
    ensures forall c :: c in r <==> c in columns && c !in drop
    ensures (forall c :: c in columns ==> c !in drop) ==> r == columns
  {
    if |columns| == 0 then []
    else (if columns[0] in drop then [] else [columns[0]]) + Without(columns[1..], drop)
  }

  /** The sort key of a row, read from its SHOT cell. */
  function RowKey(r: Row): SortKey {
    KeyOf(Cell(r, ShotColumn))
  }

  /** Some code of the sheet has a second segment, so the split has a column 1. */
  predicate HasSecondColumn(rows: seq<Row>) {
    exists i :: 0 <= i < |rows| && '_' in Cell(rows[i], ShotColumn)
  }

  /** `sort_dataframe(df)`. The split `df['SHOT'].str.split('_', expand=True)`
      has a column 1 only if some code contains '_'; otherwise reading
      `split_cols[1]` raises KeyError. The helper columns are dropped again,
      so the columns are those of the sheet less any it had under the helper
      names. */
  function SortDataframe(t: Table): (res: Result<Table, Error>)
    ensures res.Err? <==> ShotColumn !in t.columns || !HasSecondColumn(SortedRows(t.rows))
  {
    if ShotColumn !in t.columns then Err(KeyNotFound([ShotColumn]))
    else
      var rows := SortedRows(t.rows);
      if !HasSecondColumn(rows) then Err(KeyNotFound(["1"]))
      else Ok(Table(Without(t.columns, HelperColumns), SortBy(rows, RowKey)))
  }

  /** The sort keeps every column but the helper ones, keeps all columns of
      a sheet that has none of them, and rearranges the rows (SHOT as text,
      helper cells gone). */
  lemma SortDataframePermutes(t: Table)
    requires SortDataframe(t).Ok?
    ensures forall c :: c in SortDataframe(t).value.columns <==> c in t.columns && c !in HelperColumns
    ensures (forall c :: c in t.columns ==> c !in HelperColumns) ==> SortDataframe(t).value.columns == t.columns
    ensures multiset(SortDataframe(t).value.rows) == multiset(SortedRows(t.rows))
    ensures forall r :: r in SortDataframe(t).value.rows ==> r.Keys !! HelperColumns
  {
    var rows := SortedRows(t.rows);
    SortPermutes(rows, RowKey);
    HelpersGone(t.rows, SortDataframe(t).value.rows);
  }

  /** A rearrangement of sorted rows holds no helper cell. */
  lemma HelpersGone(rows: seq<Row>, out: seq<Row>)
    requires multiset(out) == multiset(SortedRows(rows))
    ensures forall r :: r in out ==> r.Keys !! HelperColumns
  {
    var sorted := SortedRows(rows);
    forall r | r in out ensures r.Keys !! HelperColumns {
      assert r in multiset(sorted);
      var i :| 0 <= i < |sorted| && sorted[i] == r;
    }
  }

  /** Rows come out by prefix, then number, with unparseable numbers last. */
  lemma SortDataframeSorted(t: Table)
    requires SortDataframe(t).Ok?
    ensures SortedBy(SortDataframe(t).value.rows, RowKey)
  {
    SortSorted(SortedRows(t.rows), RowKey);
  }

  /** Rows whose codes have the same key keep their order from the sheet. */
  lemma SortDataframeStable(t: Table, k: SortKey)
    requires SortDataframe(t).Ok?
    ensures Class(SortDataframe(t).value.rows, RowKey, k) == Class(SortedRows(t.rows), RowKey, k)
  {
    SortStable(SortedRows(t.rows), RowKey, k);
  }

  /** A sheet with no SHOT column, or with no code containing '_', raises
      KeyError; in particular a sheet with no rows does. */
  lemma SortDataframeEmptySheet(columns: seq<string>)
    ensures SortDataframe(Table(columns, [])).Err?
  {
  }

  // ---------------------------------------------------------------------
  // The canonical-name column

  const NameColumn := "final_shot_name"

  function WithName(r: Row): Row {
    r[NameColumn := CanonicalId(Cell(r, ShotColumn))]
  }

  /** `df.loc[:, 'final_shot_name'] = df['SHOT'].apply(canonical id)`: the
      column is appended unless it already exists, and is overwritten on
      every row. */
  function WithCanonicalNames(t: Table): (out: Table)
    ensures |out.rows| == |t.rows|
    ensures forall i :: 0 <= i < |t.rows| ==> out.rows[i] == WithName(t.rows[i])
  {
    Table(if NameColumn in t.columns then t.columns else t.columns + [NameColumn],
          seq(|t.rows|, i requires 0 <= i < |t.rows| => WithName(t.rows[i])))
  }

  function NameKey(r: Row): SortKey {
    KeyOf(Cell(r, NameColumn))
  }

  /** Sort, then name: the step every revision runs right after reading the
      breakdown sheet. */
  function PrepareSheet(t: Table): Result<Table, Error> {
    var sorted :- SortDataframe(t);
    Ok(WithCanonicalNames(sorted))
  }

  /** Because names are derived after sorting, the rows are also in order of
      their canonical names, and each name is the canonical id of its code. */
  lemma PrepareSheetNamesSorted(t: Table)
    requires PrepareSheet(t).Ok?
    ensures var out := PrepareSheet(t).value;
      && NameColumn in out.columns
      && (forall i :: 0 <= i < |out.rows| ==>
            Cell(out.rows[i], NameColumn) == CanonicalId(Cell(out.rows[i], ShotColumn)))
      && SortedBy(out.rows, NameKey)
  {
    var sorted := SortDataframe(t).value;
    var out := PrepareSheet(t).value;
    SortDataframeSorted(t);
    forall i, j | 0 <= i < j < |out.rows|
      ensures KeyLe(NameKey(out.rows[i]), NameKey(out.rows[j]))
    {
      KeyOfCanonicalId(Cell(sorted.rows[i], ShotColumn));
      KeyOfCanonicalId(Cell(sorted.rows[j], ShotColumn));
    }
  }

  /** The prepared sheet has the columns of the input less the helper names,
      plus the canonical-name column. */
  lemma PrepareSheetColumns(t: Table)
    requires PrepareSheet(t).Ok?
    ensures forall c :: c in PrepareSheet(t).value.columns <==> (c in t.columns && c !in HelperColumns) || c == NameColumn
  {
    SortDataframePermutes(t);
  }

  /** Preparing fails exactly when sorting does, and keeps every row. */
  lemma PrepareSheetKeepsRows(t: Table)
    ensures PrepareSheet(t).Ok? <==> SortDataframe(t).Ok?
    ensures PrepareSheet(t).Ok? ==> |PrepareSheet(t).value.rows| == |t.rows|
  {
    if SortDataframe(t).Ok? {
      SortDataframePermutes(t);
      var sorted, input := SortDataframe(t).value.rows, SortedRows(t.rows);
      assert |sorted| == |multiset(sorted)| == |multiset(input)| == |input|;
    }
  }
}

=== FILE: shot_code.dfy ===
/** Shot codes: compound identifiers such as "SHOT_0030_A006C012_241206VG"
    made of underscore-separated segments. The first segment groups shots
    (the sort prefix), the second is their index (the sort number), and
    the canonical shot id keeps only these two. */
module ShotCode {
  import opened Wrappers
  import opened Text

  function Segments(code: string): seq<string> {
    Split(code, '_')
  }

  function Min(a: nat, b: nat): nat {
    if a < b then a else b
  }

  /** `'_'.join(str(shot).split('_')[:2])`: the canonical shot id used as
      ledger key, output file name and task lookup key. */
  function CanonicalId(code: string): string {
    var segs := Segments(code);
    Join('_', segs[..Min(|segs|, 2)])
  }

  lemma JoinFirstTwoIsPrefix(sep: char, parts: seq<string>)
    requires |parts| >= 2
    ensures Join(sep, parts[..2]) <= Join(sep, parts)
  {
    var tail := parts[1..];
    assert tail[1..] == parts[2..];
    assert parts[..2][1..] == [parts[1]];
    assert parts[1] <= Join(sep, tail);
  }

  /** The canonical id is a prefix of the code it was derived from. */
  lemma CanonicalIdIsPrefix(code: string)
    ensures CanonicalId(code) <= code
  {
    var segs := Segments(code);
    JoinSplit(code, '_');
    if |segs| >= 2 {
      JoinFirstTwoIsPrefix('_', segs);
    } else {
      assert segs[..Min(|segs|, 2)] == segs;
    }
  }

  /** The segments of the canonical id are the first (at most two) segments of
      the code. */
  lemma CanonicalIdSegments(code: string)
    ensures var segs := Segments(code);
      Segments(CanonicalId(code)) == segs[..Min(|segs|, 2)]
  {
    var segs := Segments(code);
    var kept := segs[..Min(|segs|, 2)];
    SplitPiecesFree(code, '_');
    assert NoSep(kept, '_') by {
      forall k | 0 <= k < |kept| ensures '_' !in kept[k] {
        assert kept[k] == segs[k];
      }
    }
    SplitJoin(kept, '_');
  }

  /** Deriving the canonical id twice changes nothing. */
  lemma CanonicalIdIdempotent(code: string)
    ensures CanonicalId(CanonicalId(code)) == CanonicalId(code)
  {
    var segs := Segments(code);
    var kept := segs[..Min(|segs|, 2)];
    CanonicalIdSegments(code);
    assert kept[..Min(|kept|, 2)] == kept;
  }

  /** A code with at most one underscore is its own canonical id. */
  lemma CanonicalIdOfShortCode(code: string)
    requires |Segments(code)| <= 2
    ensures CanonicalId(code) == code
  {
    var segs := Segments(code);
    assert segs[..Min(|segs|, 2)] == segs;
    JoinSplit(code, '_');
  }

  lemma JoinTwo(sep: char, a: string, b: string)
    ensures Join(sep, [a, b]) == a + [sep] + b
  {
    assert [a, b][1..] == [b];
  }

  /** A code with three or more segments keeps exactly its first two. */
  lemma CanonicalIdOfLongCode(a: string, b: string, rest: string)
    requires '_' !in a && '_' !in b
    ensures CanonicalId(a + "_" + b + "_" + rest) == a + "_" + b
  {
    var tail := b + ['_'] + rest;
    var code := a + ['_'] + tail;
    assert a + "_" + b + "_" + rest == code;
    SplitCons(b, rest, '_');
    SplitCons(a, tail, '_');
    var segs := Segments(code);
    assert segs == [a] + ([b] + Split(rest, '_'));
    assert segs[..Min(|segs|, 2)] == [a, b];
    JoinTwo('_', a, b);
  }

  /** The worked example "SHOT_0030_A006C012_241206VG": the trailing
      camera-roll and date segments are dropped. */
  lemma CanonicalIdDropsTrailingSegments()
    ensures CanonicalId("SHOT" + "_" + "0030" + "_" + "A006C012_241206VG") == "SHOT_0030"
  {
    CanonicalIdOfLongCode("SHOT", "0030", "A006C012_241206VG");
  }

  /** A two-segment code is kept as is. */
  lemma CanonicalIdKeepsTwoSegments()
    ensures CanonicalId("SQ02_0005") == "SQ02_0005"
  {
    var a, b := "SQ02", "0005";
    assert '_' !in a && '_' !in b;
    SplitCons(a, b, '_');
    assert a + ['_'] + b == "SQ02_0005";
    CanonicalIdOfShortCode("SQ02_0005");
  }

  // ---------------------------------------------------------------------
  // Sort keys

  /** The two helper columns `sort_prefix` and `sort_number` of a row; a
      number is None where `pd.to_numeric(..., errors='coerce')` gives NaN,
      including a code without a second segment. */
  datatype SortKey = SortKey(prefix: string, number: Option<real>)

  function KeyOf(code: string): SortKey {
    var segs := Segments(code);
    SortKey(segs[0], if |segs| >= 2 then ToNumeric(segs[1]) else None)
  }

  /** Ascending numbers with NaN last (pandas' default `na_position='last'`). */
  predicate NumLe(a: Option<real>, b: Option<real>) {
    match a
    case None => b.None?
    case Some(x) => b.None? || x <= b.value
  }

  /** `sort_values(by=['sort_prefix', 'sort_number'], ascending=[True, True])`:
      prefix ascending, then number ascending. */
  predicate KeyLe(a: SortKey, b: SortKey) {
    StrLt(a.prefix, b.prefix) || (a.prefix == b.prefix && NumLe(a.number, b.number))
  }

  lemma KeyLeReflexive(a: SortKey)
    ensures KeyLe(a, a)
  {
  }

  lemma KeyLeTotal(a: SortKey, b: SortKey)
    ensures KeyLe(a, b) || KeyLe(b, a)
  {
    StrLtTotal(a.prefix, b.prefix);
  }

  lemma KeyLeTransitive(a: SortKey, b: SortKey, c: SortKey)
    requires KeyLe(a, b) && KeyLe(b, c)
    ensures KeyLe(a, c)
  {
    if StrLt(a.prefix, b.prefix) && StrLt(b.prefix, c.prefix) {
      StrLtTransitive(a.prefix, b.prefix, c.prefix);
    }
  }

  lemma KeyLeAntisymmetric(a: SortKey, b: SortKey)
    requires KeyLe(a, b) && KeyLe(b, a)
    ensures a == b
  {
    StrLtAsymmetric(a.prefix, b.prefix);
    StrLtIrreflexive(a.prefix);
  }

  /** A code of two segments is keyed by its prefix and its number. */
  lemma KeyOfJoined(prefix: string, number: string)
    requires '_' !in prefix && '_' !in number
    ensures KeyOf(prefix + "_" + number) == SortKey(prefix, ToNumeric(number))
  {
    var code := prefix + "_" + number;
    assert code == prefix + ['_'] + number;
    SplitCons(prefix, number, '_');
    assert Split(number, '_') == [number];
  }

  /** The number keeps its sign: "SHOT_-5" is keyed by -5 where "SHOT_5" is
      keyed by 5, and so sorts before it. */
  lemma SignedNumberKey(prefix: string, number: string)
    requires '_' !in prefix && '_' !in number
    requires |number| > 0 && number[0] != '-' && number[0] != '+'
    ensures KeyOf(prefix + "_" + number).number == ParseDecimal(number)
    ensures KeyOf(prefix + "_" + ("-" + number)).number
         == if ParseDecimal(number).Some? then Some(-ParseDecimal(number).value) else None
    ensures KeyLe(KeyOf(prefix + "_" + ("-" + number)), KeyOf(prefix + "_" + number))
  {
    var neg := "-" + number;
    KeyOfJoined(prefix, number);
    assert '_' !in neg by {
      assert neg == ['-'] + number;
    }
    KeyOfJoined(prefix, neg);
    ToNumericSigned(number);
  }

  /** A code and its canonical id sort the same way, so naming the rows after
      sorting keeps them sorted by their names. */
  lemma KeyOfCanonicalId(code: string)
    ensures KeyOf(CanonicalId(code)) == KeyOf(code)
  {
    CanonicalIdSegments(code);
  }
}

=== FILE: shots.dfy ===
/** `extract_shots`: the lenient reading of the prepared sheet into an ordered
    dictionary from canonical shot name to (frame length, fps). */
module Shots {
  import opened Wrappers
  import opened Text
  import opened Sheet

  /** One entry of the dictionary: `name: (frame_length, fps)`. */
  datatype Shot = Shot(name: string, length: real, fps: real)

  const DurationColumn := "FRAME DURATION"
  const FpsColumn := "FPS"
  const ShotColumns := [NameColumn, DurationColumn, FpsColumn]

  /** A row survives the `dropna` when its name is not NaN (an empty cell)
      and both numbers coerce under `pd.to_numeric(..., errors='coerce')`. */
  function RowShot(r: Row): Option<Shot> {
    var name := Cell(r, NameColumn);
    var length, fps := ToNumeric(Cell(r, DurationColumn)), ToNumeric(Cell(r, FpsColumn));
    if name != "" && length.Some? && fps.Some? then Some(Shot(name, length.value, fps.value))
    else None
  }

  /** The coerced rows that survive `dropna`, in sheet order. */
  function Survivors(rows: seq<Row>): seq<Shot> {
    if |rows| == 0 then []
    else
      var rest := Survivors(rows[..|rows| - 1]);
      match RowShot(rows[|rows| - 1])
      case Some(s) => rest + [s]
      case None => rest
  }

  /** Dropping rows works row by row: the survivors of two stretches of the
      sheet are the survivors of each, in order. */
  lemma {:induction false} SurvivorsAppend(a: seq<Row>, b: seq<Row>)
    ensures Survivors(a + b) == Survivors(a) + Survivors(b)
    decreases |b|
  {
    if |b| == 0 {
      assert a + b == a;
    } else {
      var init := b[..|b| - 1];
      SurvivorsAppend(a, init);
      assert (a + b)[..|a + b| - 1] == a + init;
      assert (a + b)[|a + b| - 1] == b[|b| - 1];
    }
  }

  /** A single row survives exactly when it has a name and both its numbers
      coerce, and then it carries the coerced numbers. */
  lemma SurvivorsOne(r: Row)
    ensures var name, length, fps := Cell(r, NameColumn), ToNumeric(Cell(r, DurationColumn)), ToNumeric(Cell(r, FpsColumn));
      Survivors([r]) == if name != "" && length.Some? && fps.Some? then [Shot(name, length.value, fps.value)] else []
  {
    assert [r][..0] == [];
  }

  /** A cell spelt with a leading minus sign. */
  predicate MinusSpelt(s: string) {
    |s| > 0 && s[0] == '-'
  }

  /** No FRAME DURATION or FPS cell of the sheet carries a minus sign. */
  predicate UnsignedCells(rows: seq<Row>) {
    forall i :: 0 <= i < |rows| ==>
      !MinusSpelt(Cell(rows[i], DurationColumn)) && !MinusSpelt(Cell(rows[i], FpsColumn))
  }

  /** The reading does not reject negative numbers: a duration spelt with a
      minus sign before a decimal survives, on a named row, with the negated
      length. */
  lemma NegativeDurationKept(r: Row)
    requires MinusSpelt(Cell(r, DurationColumn))
    requires ParseDecimal(Cell(r, DurationColumn)[1..]).Some? && ToNumeric(Cell(r, FpsColumn)).Some?
    ensures Cell(r, NameColumn) != "" ==>
      RowShot(r) == Some(Shot(Cell(r, NameColumn), -ParseDecimal(Cell(r, DurationColumn)[1..]).value,
                              ToNumeric(Cell(r, FpsColumn)).value))
  {
  }

  /** When no number is spelt with a minus sign, every survivor carries
      numbers that are not negative. */
  lemma {:induction false} SurvivorsNonNegative(rows: seq<Row>)
    requires UnsignedCells(rows)
    ensures forall s :: s in Survivors(rows) ==> s.length >= 0.0 && s.fps >= 0.0
  {
    if |rows| > 0 {
      SurvivorsNonNegative(rows[..|rows| - 1]);
    }
  }

  // ---------------------------------------------------------------------
  // The dictionary comprehension

  function Names(d: seq<Shot>): seq<string> {
    seq(|d|, i requires 0 <= i < |d| => d[i].name)
  }

  predicate DistinctNames(d: seq<Shot>) {
    forall i, j :: 0 <= i < j < |d| ==> d[i].name != d[j].name
  }

  /** `d[s.name] = s`: an existing key keeps its slot and takes the new
      value; a new key goes at the end. */
  function Upsert(d: seq<Shot>, s: Shot): seq<Shot> {
    if |d| == 0 then [s]
    else if d[0].name == s.name then [s] + d[1..]
    else [d[0]] + Upsert(d[1..], s)
  }

  /** `{row.name: (row.length, row.fps) for row in rows}`. */
  function BuildDict(shots: seq<Shot>): seq<Shot> {
    if |shots| == 0 then []
    else Upsert(BuildDict(shots[..|shots| - 1]), shots[|shots| - 1])
  }

  /** The last shot of `shots` named `name`, if any. */
  function LastNamed(shots: seq<Shot>, name: string): Option<Shot> {
    if |shots| == 0 then None
    else if shots[|shots| - 1].name == name then Some(shots[|shots| - 1])
    else LastNamed(shots[..|shots| - 1], name)
  }

  /** The names of `names` in order of first occurrence. */
  function Dedup(names: seq<string>): seq<string> {
    if |names| == 0 then []
    else
      var d := Dedup(names[..|names| - 1]);
      if names[|names| - 1] in d then d else d + [names[|names| - 1]]
  }

  lemma {:induction false} UpsertNames(d: seq<Shot>, s: Shot)
    ensures Names(Upsert(d, s)) == if s.name in Names(d) then Names(d) else Names(d) + [s.name]
  {
    if |d| > 0 {
      UpsertNames(d[1..], s);
      assert Names(d) == [d[0].name] + Names(d[1..]);
      if d[0].name == s.name {
        assert Names(Upsert(d, s)) == [s.name] + Names(d[1..]);
      } else {
        assert Names(Upsert(d, s)) == [d[0].name] + Names(Upsert(d[1..], s));
      }
    }
  }

  /** Entries appear in order of the first occurrence of their name, one per
      distinct name. */
  lemma {:induction false} BuildDictOrder(shots: seq<Shot>)
    ensures Names(BuildDict(shots)) == Dedup(Names(shots))
  {
    if |shots| > 0 {
      var init := shots[..|shots| - 1];
      BuildDictOrder(init);
      UpsertNames(BuildDict(init), shots[|shots| - 1]);
      assert Names(shots)[..|shots| - 1] == Names(init);
    }
  }

  lemma {:induction false} UpsertValues(d: seq<Shot>, s: Shot, i: nat)
    requires DistinctNames(d)
    requires i < |Upsert(d, s)|
    ensures var u := Upsert(d, s);
      if u[i].name == s.name then u[i] == s else i < |d| && u[i] == d[i]
  {
    if |d| > 0 && d[0].name != s.name && i > 0 {
      UpsertValues(d[1..], s, i - 1);
    }
  }

  /** Every entry holds the values of the last row with its name. */
  lemma {:induction false} BuildDictLastWins(shots: seq<Shot>, i: nat)
    requires i < |BuildDict(shots)|
    ensures var e := BuildDict(shots)[i]; LastNamed(shots, e.name) == Some(e)
  {
    var init := shots[..|shots| - 1];
    var x := shots[|shots| - 1];
    var e := BuildDict(shots)[i];
    BuildDictDistinct(init);
    UpsertValues(BuildDict(init), x, i);
    if e.name != x.name {
      BuildDictLastWins(init, i);
    }
  }

  lemma {:induction false} DedupDistinct(names: seq<string>)
    ensures forall i, j :: 0 <= i < j < |Dedup(names)| ==> Dedup(names)[i] != Dedup(names)[j]
    ensures forall n :: n in Dedup(names) <==> n in names
  {
    if |names| > 0 {
      var init := names[..|names| - 1];
      DedupDistinct(init);
      assert names == init + [names[|names| - 1]];
    }
  }

  lemma DistinctCount(names: seq<string>)
    requires forall i, j :: 0 <= i < j < |names| ==> names[i] != names[j]
    ensures |set n | n in names| == |names|
  {
    if |names| > 0 {
      var init := names[..|names| - 1];
      DistinctCount(init);
      assert (set n | n in names) == (set n | n in init) + {names[|names| - 1]};
    }
  }

  /** The dictionary has one entry per distinct name, each name once. */
  lemma BuildDictDistinct(shots: seq<Shot>)
    ensures DistinctNames(BuildDict(shots))
    ensures (set n | n in Names(BuildDict(shots))) == (set n | n in Names(shots))
    ensures |BuildDict(shots)| == |set n | n in Names(shots)|
  {
    var d := BuildDict(shots);
    BuildDictOrder(shots);
    DedupDistinct(Names(shots));
    assert forall i :: 0 <= i < |d| ==> Names(d)[i] == d[i].name;
    DistinctCount(Names(d));
  }

  lemma {:induction false} UpsertFrom(d: seq<Shot>, s: Shot)
    ensures forall e :: e in Upsert(d, s) ==> e in d || e == s
  {
    if |d| > 0 && d[0].name != s.name {
      UpsertFrom(d[1..], s);
    }
  }

  /** Every entry of the dictionary is one of the rows it was built from. */
  lemma {:induction false} BuildDictFrom(shots: seq<Shot>)
    ensures forall e :: e in BuildDict(shots) ==> e in shots
  {
    if |shots| > 0 {
      var init := shots[..|shots| - 1];
      BuildDictFrom(init);
      UpsertFrom(BuildDict(init), shots[|shots| - 1]);
    }
  }

  /** Rows A, B, A' with A and A' sharing a name give the entries A', B: the
      repeated name keeps its first slot and takes the later values. */
  lemma BuildDictRepeatedName(a: Shot, b: Shot, a2: Shot)
    requires a.name == a2.name && a.name != b.name
    ensures BuildDict([a, b, a2]) == [a2, b]
  {
    assert [a, b, a2][..2] == [a, b];
    assert [a, b][..1] == [a];
    assert [a][..0] == [];
    assert BuildDict([a]) == [a];
    assert Upsert([a], b) == [a] + Upsert([a][1..], b) == [a, b];
    assert BuildDict([a, b]) == [a, b];
    assert Upsert([a, b], a2) == [a2] + [a, b][1..] == [a2, b];
  }

  // ---------------------------------------------------------------------
  // extract_shots

  /** `extract_shots(df)` as written in utils/validation.py and
      misc/old_core.py: a ValueError names the absent required columns;
      otherwise rows that do not coerce are dropped and the rest collected
      into the dictionary. */
  function ExtractShots(t: Table): Result<seq<Shot>, Error> {
    var missing := Missing(ShotColumns, t.columns);
    if |missing| > 0 then Err(MissingColumns(missing))
    else Ok(BuildDict(Survivors(t.rows)))
  }

  /** The error names exactly the absent columns, and a sheet that has them
      all never fails. */
  lemma ExtractShotsErrors(t: Table, c: string)
    ensures ExtractShots(t).Err? <==> exists c :: c in ShotColumns && c !in t.columns
    ensures ExtractShots(t).Err? ==>
      (c in ExtractShots(t).error.names <==> c in ShotColumns && c !in t.columns)
  {
    MissingEmpty(ShotColumns, t.columns);
    MissingExactly(ShotColumns, t.columns, c);
  }

  /** On a sheet whose FRAME DURATION and FPS cells carry no minus sign, the
      extracted lengths and frame rates are never negative. */
  lemma ExtractShotsNonNegative(t: Table)
    requires ExtractShots(t).Ok? && UnsignedCells(t.rows)
    ensures forall e :: e in ExtractShots(t).value ==> e.length >= 0.0 && e.fps >= 0.0
  {
    SurvivorsNonNegative(t.rows);
    BuildDictFrom(Survivors(t.rows));
  }

  /** `extract_shots` in kitsu_ingest.py has no column check: projecting onto
      the three columns raises KeyError naming the absent ones. */
  function ExtractShotsEarliest(t: Table): Result<seq<Shot>, Error> {
    var missing := Missing(ShotColumns, t.columns);
    if |missing| > 0 then Err(KeyNotFound(missing))
    else Ok(BuildDict(Survivors(t.rows)))
  }

  /** The two revisions accept the same sheets and build the same dictionary;
      they differ only in the exception raised. */
  lemma ExtractShotsRevisionsAgree(t: Table)
    ensures ExtractShots(t).Ok? <==> ExtractShotsEarliest(t).Ok?
    ensures ExtractShots(t).Ok? ==> ExtractShots(t).value == ExtractShotsEarliest(t).value
    ensures ExtractShots(t).Err? ==> ExtractShots(t).error.names == ExtractShotsEarliest(t).error.names
  {
  }
}

=== FILE: sorting.dfy ===
/** The ordering `sort_dataframe` imposes on rows: a stable sort by
    (prefix, number) with unparseable numbers last. pandas sorts on several
    columns with a stable lexicographic indexer, so rows with equal keys keep
    their input order; the model is an insertion sort with the same result. */
module Sorting {
  import opened ShotCode

  ghost predicate SortedBy<T>(s: seq<T>, key: T -> SortKey) {
    forall i, j :: 0 <= i < j < |s| ==> KeyLe(key(s[i]), key(s[j]))
  }

  /** The elements of `s` whose key is `k`, in their order in `s`. */
  function Class<T>(s: seq<T>, key: T -> SortKey, k: SortKey): seq<T> {
    if |s| == 0 then []
    else (if key(s[0]) == k then [s[0]] else []) + Class(s[1..], key, k)
  }

  /** Places `x` after every element whose key is not above its own. */
  function Insert<T>(x: T, s: seq<T>, key: T -> SortKey): seq<T> {
    if |s| == 0 then [x]
    else if !KeyLe(key(s[0]), key(x)) then [x] + s
    else [s[0]] + Insert(x, s[1..], key)
  }

  /** Insertion sort: each element, last first, is inserted into the sort of
      the elements before it. */
  function SortBy<T>(s: seq<T>, key: T -> SortKey): seq<T> {
    if |s| == 0 then []
    else Insert(s[|s| - 1], SortBy(s[..|s| - 1], key), key)
  }

  lemma InsertUnfold<T>(x: T, s: seq<T>, key: T -> SortKey)
    requires |s| > 0 && KeyLe(key(s[0]), key(x))
    ensures Insert(x, s, key) == [s[0]] + Insert(x, s[1..], key)
  {
  }

  lemma SortUnfold<T>(s: seq<T>, key: T -> SortKey)
    requires |s| > 0
    ensures SortBy(s, key) == Insert(s[|s| - 1], SortBy(s[..|s| - 1], key), key)
  {
  }

  lemma {:induction false} InsertPermutes<T>(x: T, s: seq<T>, key: T -> SortKey)
    ensures multiset(Insert(x, s, key)) == multiset(s) + multiset{x}
  {
    if |s| > 0 && KeyLe(key(s[0]), key(x)) {
      InsertPermutes(x, s[1..], key);
      InsertUnfold(x, s, key);
      assert s == [s[0]] + s[1..];
    }
  }

  /** The sort is a permutation of its input. */
  lemma {:induction false} SortPermutes<T>(s: seq<T>, key: T -> SortKey)
    ensures multiset(SortBy(s, key)) == multiset(s)
  {
    if |s| > 0 {
      var init, x := s[..|s| - 1], s[|s| - 1];
      SortPermutes(init, key);
      SortUnfold(s, key);
      InsertPermutes(x, SortBy(init, key), key);
      assert s == init + [x];
    }
  }

  /** The sort's output is ordered by key. */
  lemma {:induction false} SortSorted<T>(s: seq<T>, key: T -> SortKey)
    ensures SortedBy(SortBy(s, key), key)
  {
    if |s| > 0 {
      SortSorted(s[..|s| - 1], key);
      SortUnfold(s, key);
      InsertSorted(s[|s| - 1], SortBy(s[..|s| - 1], key), key);
    }
  }

  lemma {:induction false} InsertSorted<T>(x: T, s: seq<T>, key: T -> SortKey)
    requires SortedBy(s, key)
    ensures SortedBy(Insert(x, s, key), key)
  {
    if |s| > 0 {
      if !KeyLe(key(s[0]), key(x)) {
        KeyLeTotal(key(s[0]), key(x));
        forall j | 0 <= j < |s|
          ensures KeyLe(key(x), key(s[j]))
        {
          if j > 0 {
            KeyLeTransitive(key(x), key(s[0]), key(s[j]));
          }
        }
      } else {
        InsertSorted(x, s[1..], key);
        InsertPermutes(x, s[1..], key);
        InsertUnfold(x, s, key);
        var r := Insert(x, s[1..], key);
        forall j | 0 <= j < |r|
          ensures KeyLe(key(s[0]), key(r[j]))
        {
          assert r[j] in multiset(r);
          if r[j] != x {
            assert r[j] in s[1..];
          }
        }
      }
    }
  }

  // ---------------------------------------------------------------------
  // Stability

  lemma {:induction false} ClassConcat<T>(a: seq<T>, b: seq<T>, key: T -> SortKey, k: SortKey)
    ensures Class(a + b, key, k) == Class(a, key, k) + Class(b, key, k)
  {
    if |a| == 0 {
      assert a + b == b;
    } else {
      assert (a + b)[1..] == a[1..] + b;
      ClassConcat(a[1..], b, key, k);
      assert Class(a + b, key, k) == Only(a[0], key, k) + Class(a[1..] + b, key, k);
    }
  }

  /** The class of `x` alone: `[x]` if its key is `k`, else empty. */
  function Only<T>(x: T, key: T -> SortKey, k: SortKey): seq<T> {
    if key(x) == k then [x] else []
  }

  lemma ClassCons<T>(x: T, s: seq<T>, key: T -> SortKey, k: SortKey)
    ensures Class([x] + s, key, k) == Only(x, key, k) + Class(s, key, k)
  {
    assert ([x] + s)[1..] == s;
  }

  /** The class of the head of a non-empty sequence holds at least the head. */
  lemma ClassOfHead<T>(s: seq<T>, key: T -> SortKey)
    requires |s| > 0
    ensures Class(s, key, key(s[0])) != []
  {
  }

  /** In a sorted sequence, a non-empty class has a key no lower than the head's. */
  lemma {:induction false} ClassAboveHead<T>(s: seq<T>, key: T -> SortKey, k: SortKey)
    requires SortedBy(s, key)
    requires Class(s, key, k) != []
    ensures |s| > 0 && KeyLe(key(s[0]), k)
  {
    if key(s[0]) == k {
      KeyLeReflexive(k);
    } else {
      ClassAboveHead(s[1..], key, k);
      KeyLeTransitive(key(s[0]), key(s[1]), k);
    }
  }

  lemma {:induction false} ClassInsert<T>(x: T, s: seq<T>, key: T -> SortKey, k: SortKey)
    requires SortedBy(s, key)
    ensures Class(Insert(x, s, key), key, k) == Class(s, key, k) + Only(x, key, k)
  {
    if |s| == 0 {
      assert Insert(x, s, key) == [x];
      ClassCons(x, s, key, k);
    } else if !KeyLe(key(s[0]), key(x)) {
      ClassInsertFront(x, s, key, k);
    } else {
      ClassInsert(x, s[1..], key, k);
      ClassInsertSkip(x, s, key, k);
    }
  }

  lemma ClassInsertFront<T>(x: T, s: seq<T>, key: T -> SortKey, k: SortKey)
    requires SortedBy(s, key)
    requires |s| > 0 && !KeyLe(key(s[0]), key(x))
    ensures Class(Insert(x, s, key), key, k) == Class(s, key, k) + Only(x, key, k)
  {
    assert Insert(x, s, key) == [x] + s;
    ClassCons(x, s, key, k);
    if key(x) == k && Class(s, key, k) != [] {
      ClassAboveHead(s, key, k);
    }
  }

  lemma ClassInsertSkip<T>(x: T, s: seq<T>, key: T -> SortKey, k: SortKey)
    requires |s| > 0 && KeyLe(key(s[0]), key(x))
    requires Class(Insert(x, s[1..], key), key, k) == Class(s[1..], key, k) + Only(x, key, k)
    ensures Class(Insert(x, s, key), key, k) == Class(s, key, k) + Only(x, key, k)
  {
    var head, tail := s[0], s[1..];
    var rest := Insert(x, tail, key);
    InsertUnfold(x, s, key);
    assert s == [head] + tail;
    ClassCons(head, rest, key, k);
    ClassCons(head, tail, key, k);
    ConcatAssoc(Only(head, key, k), Class(tail, key, k), Only(x, key, k));
  }

  lemma ConcatAssoc<T>(a: seq<T>, b: seq<T>, c: seq<T>)
    ensures a + (b + c) == (a + b) + c
  {
  }

  /** Sorting keeps the relative order of rows with equal keys. */
  lemma {:induction false} SortStable<T>(s: seq<T>, key: T -> SortKey, k: SortKey)
    ensures Class(SortBy(s, key), key, k) == Class(s, key, k)
  {
    if |s| > 0 {
      var init, x := s[..|s| - 1], s[|s| - 1];
      SortStable(init, key, k);
      SortSorted(init, key);
      ClassInsert(x, SortBy(init, key), key, k);
      SortUnfold(s, key);
      assert s == init + [x];
      ClassConcat(init, [x], key, k);
      ClassCons(x, [], key, k);
      assert [x] + [] == [x];
    }
  }

  /** Two sorted sequences with the same classes are equal. */
  lemma {:induction false} SortedClassesDetermine<T>(a: seq<T>, b: seq<T>, key: T -> SortKey)
    requires SortedBy(a, key) && SortedBy(b, key)
    requires forall k :: Class(a, key, k) == Class(b, key, k)
    ensures a == b
    decreases |a|
  {
    if |a| > 0 {
      var ka := key(a[0]);
      ClassCons(a[0], a[1..], key, ka);
      assert a == [a[0]] + a[1..];
      assert Class(b, key, ka) != [];
      ClassAboveHead(b, key, ka);
      var kb := key(b[0]);
      ClassCons(b[0], b[1..], key, kb);
      assert b == [b[0]] + b[1..];
      assert Class(a, key, kb) != [];
      ClassAboveHead(a, key, kb);
      KeyLeAntisymmetric(ka, kb);
      ClassCons(b[0], b[1..], key, ka);
      assert a[0] == Class(a, key, ka)[0] == Class(b, key, ka)[0] == b[0];
      forall k
        ensures Class(a[1..], key, k) == Class(b[1..], key, k)
      {
        ClassCons(a[0], a[1..], key, k);
        ClassCons(b[0], b[1..], key, k);
        var o := Only(a[0], key, k);
        assert Class(a[1..], key, k) == Class(a, key, k)[|o|..];
        assert Class(b[1..], key, k) == Class(b, key, k)[|o|..];
      }
      SortedClassesDetermine(a[1..], b[1..], key);
    } else if |b| > 0 {
      ClassOfHead(b, key);
    }
  }

  /** The sort is the only sorted arrangement of its input that keeps every
      class in input order. */
  lemma SortCharacterized<T>(s: seq<T>, r: seq<T>, key: T -> SortKey)
    requires SortedBy(r, key)
    requires forall k :: Class(r, key, k) == Class(s, key, k)
    ensures r == SortBy(s, key)
  {
    forall k
      ensures Class(SortBy(s, key), key, k) == Class(r, key, k)
    {
      SortStable(s, key, k);
    }
    SortSorted(s, key);
    SortedClassesDetermine(SortBy(s, key), r, key);
  }

  /** Reordering the input in a way that keeps each class's relative order
      (for instance, any reordering when all keys differ) gives the same
      sorted output. */
  lemma SortIgnoresCrossClassOrder<T>(s1: seq<T>, s2: seq<T>, key: T -> SortKey)
    requires forall k :: Class(s1, key, k) == Class(s2, key, k)
    ensures SortBy(s1, key) == SortBy(s2, key)
  {
    forall k
      ensures Class(SortBy(s1, key), key, k) == Class(s2, key, k)
    {
      SortStable(s1, key, k);
    }
    SortSorted(s1, key);
    SortCharacterized(s2, SortBy(s1, key), key);
  }

  /** Within one prefix, a row whose number did not parse comes after every
      row whose number did. */
  lemma UnparseableLast<T>(r: seq<T>, key: T -> SortKey, i: nat, j: nat)
    requires SortedBy(r, key)
    requires i < j < |r|
    requires key(r[i]).prefix == key(r[j]).prefix
    requires key(r[i]).number.None?
    ensures key(r[j]).number.None?
  {
    Text.StrLtIrreflexive(key(r[i]).prefix);
  }
}

=== FILE: text.dfy ===
/** The handful of Python string and path primitives the ingest code relies
    on (`str.split`, `str.join`, `str.strip`, `str.lower`, `<` on `str`,
    `os.path.splitext`, `os.path.basename`, and the numeric coercions of
    `pd.to_numeric`, `int()` and `float()`), modelled on `string`, a sequence
    of code points. */
module Text {
  import opened Wrappers

  // ---------------------------------------------------------------------
  // Searching

  /** Position of the first `c` in `s` (`s.find(c)` when `c` occurs). */
  function IndexOf(s: string, c: char): (i: nat)
    requires c in s
    ensures i < |s| && s[i] == c
    ensures c !in s[..i]
  {
    if s[0] == c then 0
    else
      var j := IndexOf(s[1..], c);
      assert s[..j + 1] == [s[0]] + s[1..][..j];
      j + 1
  }

  /** Position of the last `c` in `s` (`s.rfind(c)` when `c` occurs). */
  function LastIndexOf(s: string, c: char): (i: nat)
    requires c in s
    ensures i < |s| && s[i] == c
    ensures c !in s[i + 1..]
  {
    if s[|s| - 1] == c then |s| - 1
    else
      assert c in s[..|s| - 1] by {
        var k :| 0 <= k < |s| && s[k] == c;
        assert s[..|s| - 1][k] == c;
      }
      var j := LastIndexOf(s[..|s| - 1], c);
      assert s[j + 1..] == s[..|s| - 1][j + 1..] + [s[|s| - 1]];
      j
  }

  predicate EndsWith(s: string, suffix: string) {
    |suffix| <= |s| && s[|s| - |suffix|..] == suffix
  }

  // ---------------------------------------------------------------------
  // str.split / str.join

  /** `s.split(sep)`: the pieces between separators, never fewer than one. */
  function Split(s: string, sep: char): (parts: seq<string>)
    ensures |parts| >= 1
    decreases |s|
  {
    if sep !in s then [s]
    else
      var i := IndexOf(s, sep);
      [s[..i]] + Split(s[i + 1..], sep)
  }

  /** `sep.join(parts)`. */
  function Join(sep: char, parts: seq<string>): string
  {
    if |parts| == 0 then ""
    else if |parts| == 1 then parts[0]
    else parts[0] + [sep] + Join(sep, parts[1..])
  }

  predicate NoSep(parts: seq<string>, sep: char) {
    forall k :: 0 <= k < |parts| ==> sep !in parts[k]
  }

  /** No piece of a split contains the separator. */
  lemma {:induction false} SplitPiecesFree(s: string, sep: char)
    ensures NoSep(Split(s, sep), sep)
    decreases |s|
  {
    if sep in s {
      var i := IndexOf(s, sep);
      SplitPiecesFree(s[i + 1..], sep);
      var rest := Split(s[i + 1..], sep);
      assert Split(s, sep) == [s[..i]] + rest;
      forall k | 0 < k < 1 + |rest|
        ensures sep !in ([s[..i]] + rest)[k]
      {
        assert ([s[..i]] + rest)[k] == rest[k - 1];
      }
    }
  }

  /** Splitting at the first separator peels off the piece before it. */
  lemma SplitCons(a: string, rest: string, sep: char)
    requires sep !in a
    ensures Split(a + [sep] + rest, sep) == [a] + Split(rest, sep)
  {
    var s := a + [sep] + rest;
    assert s[|a|] == sep;
    var i := IndexOf(s, sep);
    assert s[..i] == a;
    assert s[i + 1..] == rest;
  }

  lemma JoinCons(sep: char, p: string, parts: seq<string>)
    requires |parts| >= 1
    ensures Join(sep, [p] + parts) == p + [sep] + Join(sep, parts)
  {
    assert ([p] + parts)[1..] == parts;
  }

  /** Joining the pieces of a split gives back the string. */
  lemma {:induction false} JoinSplit(s: string, sep: char)
    ensures Join(sep, Split(s, sep)) == s
    decreases |s|
  {
    if sep in s {
      var i := IndexOf(s, sep);
      var rest := Split(s[i + 1..], sep);
      JoinSplit(s[i + 1..], sep);
      assert Split(s, sep) == [s[..i]] + rest;
      JoinCons(sep, s[..i], rest);
      assert s == s[..i] + [sep] + s[i + 1..];
    }
  }

  /** Splitting a join of separator-free pieces gives back the pieces. */
  lemma {:induction false} SplitJoin(parts: seq<string>, sep: char)
    requires |parts| >= 1
    requires NoSep(parts, sep)
    ensures Split(Join(sep, parts), sep) == parts
  {
    if |parts| > 1 {
      var p0, tail := parts[0], parts[1..];
      assert NoSep(tail, sep) by {
        forall k | 0 <= k < |tail| ensures sep !in tail[k] {
          assert tail[k] == parts[k + 1];
        }
      }
      SplitJoin(tail, sep);
      JoinCons(sep, p0, tail);
      assert [p0] + tail == parts;
      SplitCons(p0, Join(sep, tail), sep);
    }
  }

  // ---------------------------------------------------------------------
  // Numeric coercion: plain decimal spellings only

  predicate IsDigit(c: char) {
    '0' <= c <= '9'
  }

  predicate AllDigits(s: string) {
    forall k :: 0 <= k < |s| ==> IsDigit(s[k])
  }

  function DigitChar(d: nat): char
    requires d < 10
  {
    ('0' as int + d) as char
  }

  /** Base-10 value of a digit string; the empty string reads as 0. */
  function DigitsValue(s: string): nat
    requires AllDigits(s)
  {
    if |s| == 0 then 0
    else DigitsValue(s[..|s| - 1]) * 10 + (s[|s| - 1] as int - '0' as int)
  }

  /** The unsigned core of `int(s)`, and of `pd.to_numeric(s)` on digit
      strings: a non-empty string of decimal digits reads as its value, and
      every other string is rejected. Signs are handled by the callers. */
  function ParseNat(s: string): (r: Option<nat>)
    ensures r.Some? <==> |s| > 0 && AllDigits(s)
  {
    if |s| > 0 && AllDigits(s) then Some(DigitsValue(s)) else None
  }

  /** Canonical decimal spelling of `n`, used to state what the parser accepts. */
  function ShowNat(n: nat): (s: string)
    ensures |s| > 0 && AllDigits(s)
  {
    if n < 10 then [DigitChar(n)]
    else ShowNat(n / 10) + [DigitChar(n % 10)]
  }

  /** Every natural number has a spelling that parses back to it. */
  lemma {:induction false} ParseShowNat(n: nat)
    ensures ParseNat(ShowNat(n)) == Some(n)
  {
    var s := ShowNat(n);
    if n < 10 {
      assert s[..0] == "";
      assert DigitsValue(s) == n;
    } else {
      ParseShowNat(n / 10);
      assert s[..|s| - 1] == ShowNat(n / 10);
      assert DigitsValue(s) == DigitsValue(ShowNat(n / 10)) * 10 + n % 10;
    }
  }

  /** Leading zeros do not change the value: "0030" reads as 30. */
  lemma {:induction false} LeadingZeroIgnored(s: string)
    requires AllDigits(s)
    ensures AllDigits("0" + s)
    ensures DigitsValue("0" + s) == DigitsValue(s)
  {
    if |s| > 0 {
      var init := s[..|s| - 1];
      LeadingZeroIgnored(init);
      assert ("0" + s)[..|"0" + s| - 1] == "0" + init;
    }
  }

  function Pow10(n: nat): (p: nat)
    ensures p >= 1
  {
    if n == 0 then 1 else 10 * Pow10(n - 1)
  }

  /** The unsigned core of `float(s)` and `pd.to_numeric(s)`: the spellings
      `digits`, `digits.digits`, `.digits` and `digits.`; every other spelling
      fails (NaN or ValueError). Signs are handled by `ToNumeric`. */
  function ParseDecimal(s: string): (r: Option<real>)
    ensures ParseNat(s).Some? ==> r == Some(ParseNat(s).value as real)
    ensures r.Some? ==> r.value >= 0.0
    ensures r.Some? ==> |s| > 0
  {
    if |s| > 0 && AllDigits(s) then Some(DigitsValue(s) as real)
    else if '.' in s then
      var i := IndexOf(s, '.');
      var whole, frac := s[..i], s[i + 1..];
      if AllDigits(whole) && AllDigits(frac) && |whole| + |frac| > 0
      then Some(DigitsValue(whole) as real + DigitsValue(frac) as real / Pow10(|frac|) as real)
      else None
    else None
  }

  /** Whether `s` starts with '-', and what follows a leading '-' or '+'. */
  function SignOf(s: string): (bool, string) {
    if |s| > 0 && s[0] == '-' then (true, s[1..])
    else if |s| > 0 && s[0] == '+' then (false, s[1..])
    else (false, s)
  }

  /** `int(s)` on a str: surrounding whitespace, an optional sign and decimal
      digits; anything else raises ValueError. */
  function ParseInt(s: string): Option<int> {
    ParseSignedInt(Strip(s))
  }

  function ParseSignedInt(t: string): Option<int> {
    var (negative, digits) := SignOf(t);
    match ParseNat(digits)
    case Some(n) => Some(if negative then -(n as int) else n)
    case None => None
  }

  /** `float(s)` on a str: surrounding whitespace, an optional sign and a plain
      decimal spelling. */
  function ParseReal(s: string): Option<real> {
    ToNumeric(Strip(s))
  }

  /** `pd.to_numeric(s, errors='coerce')` on a str cell: an optional '-' or
      '+' and a plain decimal spelling; every other spelling is NaN. A value
      is negative only when it is spelt with a leading '-', and a spelling
      without a sign reads as the unsigned decimal. */
  function ToNumeric(s: string): (r: Option<real>)
    ensures r.Some? <==> ParseDecimal(SignOf(s).1).Some?
    ensures r.Some? && r.value < 0.0 ==> |s| > 0 && s[0] == '-'
    ensures |s| == 0 || (s[0] != '-' && s[0] != '+') ==> r == ParseDecimal(s)
  {
    var (negative, digits) := SignOf(s);
    match ParseDecimal(digits)
    case Some(x) => Some(if negative then -x else x)
    case None => None
  }

  /** A leading '-' negates what follows and a leading '+' changes nothing:
      `pd.to_numeric("-24")` is -24. */
  lemma ToNumericSigned(d: string)
    ensures ToNumeric("-" + d) == if ParseDecimal(d).Some? then Some(-ParseDecimal(d).value) else None
    ensures ToNumeric("+" + d) == ParseDecimal(d)
  {
    assert ("-" + d)[1..] == d;
    assert ("+" + d)[1..] == d;
  }

  /** A digit string, however padded with whitespace, reads as its value
      under both `int()` and `float()`: `int(" 12 ")` is 12. */
  lemma ParseIntPadded(lead: string, digits: string, trail: string)
    requires AllSpace(lead) && AllSpace(trail)
    requires |digits| > 0 && AllDigits(digits)
    ensures ParseInt(lead + digits + trail) == Some(DigitsValue(digits) as int)
    ensures ParseReal(lead + digits + trail) == Some(DigitsValue(digits) as real)
  {
    assert !IsSpace(digits[0]) && !IsSpace(digits[|digits| - 1]);
    StripPadded(lead, digits, trail);
  }

  // ---------------------------------------------------------------------
  // Ordering of str

  /** Python's `<` on `str`: lexicographic by code point. */
  predicate StrLt(a: string, b: string)
  {
    if |a| == 0 then |b| > 0
    else if |b| == 0 then false
    else if a[0] == b[0] then StrLt(a[1..], b[1..])
    else a[0] < b[0]
  }

  lemma {:induction false} StrLtIrreflexive(a: string)
    ensures !StrLt(a, a)
  {
    if |a| > 0 {
      StrLtIrreflexive(a[1..]);
    }
  }

  lemma {:induction false} StrLtAsymmetric(a: string, b: string)
    ensures !(StrLt(a, b) && StrLt(b, a))
  {
    if |a| > 0 && |b| > 0 && a[0] == b[0] {
      StrLtAsymmetric(a[1..], b[1..]);
    }
  }

  lemma {:induction false} StrLtTransitive(a: string, b: string, c: string)
    requires StrLt(a, b) && StrLt(b, c)
    ensures StrLt(a, c)
  {
    if |a| > 0 && |b| > 0 && |c| > 0 && a[0] == b[0] && b[0] == c[0] {
      StrLtTransitive(a[1..], b[1..], c[1..]);
    }
  }

  lemma {:induction false} StrLtTotal(a: string, b: string)
    ensures a == b || StrLt(a, b) || StrLt(b, a)
  {
    if |a| > 0 && |b| > 0 && a[0] == b[0] {
      StrLtTotal(a[1..], b[1..]);
      if a[1..] == b[1..] {
        assert a == [a[0]] + a[1..] && b == [b[0]] + b[1..];
      }
    }
  }

  // ---------------------------------------------------------------------
  // str.strip / str.lower

  /** Python's `str.isspace` on a single code point. */
  predicate IsSpace(c: char) {
    || ('\t' <= c <= '\r')
    || ('\U{1C}' <= c <= ' ')
    || c == '\U{85}' || c == '\U{A0}' || c == '\U{1680}'
    || ('\U{2000}' <= c <= '\U{200A}')
    || c == '\U{2028}' || c == '\U{2029}' || c == '\U{202F}' || c == '\U{205F}' || c == '\U{3000}'
  }

  predicate AllSpace(s: string) {
    forall k :: 0 <= k < |s| ==> IsSpace(s[k])
  }

  /** Every code point of `s` from `lo` up to `hi` is whitespace. */
  predicate SpaceBetween(s: string, lo: nat, hi: nat)
    requires lo <= hi <= |s|
  {
    forall k :: lo <= k < hi ==> IsSpace(s[k])
  }

  /** The first position at or after `i` that is not whitespace (or `|s|`). */
  function SkipSpace(s: string, i: nat): (j: nat)
    requires i <= |s|
    ensures i <= j <= |s| && SpaceBetween(s, i, j)
    ensures j < |s| ==> !IsSpace(s[j])
    decreases |s| - i
  {
    if i < |s| && IsSpace(s[i]) then SkipSpace(s, i + 1) else i
  }

  /** The position just after the last code point before `j` that is not
      whitespace (or 0). */
  function SkipSpaceBack(s: string, j: nat): (i: nat)
    requires j <= |s|
    ensures i <= j && SpaceBetween(s, i, j)
    ensures i > 0 ==> !IsSpace(s[i - 1])
  {
    if j > 0 && IsSpace(s[j - 1]) then SkipSpaceBack(s, j - 1) else j
  }

  /** `s.strip()`: `s` with its leading and trailing whitespace removed. */
  function Strip(s: string): string {
    var i, j := SkipSpace(s, 0), SkipSpaceBack(s, |s|);
    if i <= j then s[i..j] else ""
  }

  /** What `strip` keeps neither starts nor ends with whitespace. */
  lemma StripEnds(s: string)
    ensures var t := Strip(s); |t| > 0 ==> !IsSpace(t[0]) && !IsSpace(t[|t| - 1])
  {
    var i, j := SkipSpace(s, 0), SkipSpaceBack(s, |s|);
    if i < j {
      assert Strip(s)[0] == s[i];
      assert Strip(s)[j - i - 1] == s[j - 1];
    }
  }

  lemma SliceSpace(s: string, lo: nat, hi: nat)
    requires lo <= hi <= |s| && SpaceBetween(s, lo, hi)
    ensures AllSpace(s[lo..hi])
  {
    forall k | 0 <= k < hi - lo ensures IsSpace(s[lo..hi][k]) {
      assert s[lo..hi][k] == s[lo + k];
    }
  }

  /** When the leading and trailing whitespace overlap, the whole string is
      whitespace. */
  lemma SpaceOverlap(s: string)
    requires SkipSpace(s, 0) > SkipSpaceBack(s, |s|)
    ensures SkipSpace(s, 0) == |s|
  {
  }

  /** Where `strip` starts and ends inside its input. */
  lemma StripBounds(s: string)
    ensures var i, t := SkipSpace(s, 0), Strip(s);
      i + |t| <= |s| && t == s[i..i + |t|]
      && (|t| > 0 ==> i + |t| == SkipSpaceBack(s, |s|))
  {
  }

  /** Only whitespace follows what `strip` keeps. */
  lemma StripTail(s: string)
    ensures var e := SkipSpace(s, 0) + |Strip(s)|;
      e <= |s| && SpaceBetween(s, e, |s|)
  {
    StripBounds(s);
    if SkipSpace(s, 0) > SkipSpaceBack(s, |s|) {
      SpaceOverlap(s);
    }
  }

  lemma PaddedSlice(s: string, i: nat, e: nat)
    requires i <= e <= |s| && SpaceBetween(s, 0, i) && SpaceBetween(s, e, |s|)
    ensures s == s[..i] + s[i..e] + s[e..]
    ensures AllSpace(s[..i]) && AllSpace(s[e..])
  {
    SliceSpace(s, 0, i);
    SliceSpace(s, e, |s|);
    assert s[..i] == s[0..i];
    assert s[e..] == s[e..|s|];
  }

  /** Every string is what `strip` keeps with only whitespace on either side. */
  lemma StripDecomposes(s: string)
    ensures var i, t := SkipSpace(s, 0), Strip(s);
      && i + |t| <= |s|
      && s == s[..i] + t + s[i + |t|..]
      && AllSpace(s[..i]) && AllSpace(s[i + |t|..])
  {
    StripBounds(s);
    StripTail(s);
    PaddedSlice(s, SkipSpace(s, 0), SkipSpace(s, 0) + |Strip(s)|);
  }

  lemma {:induction false} SkipSpaceTo(s: string, i: nat, j: nat)
    requires i <= j < |s| && SpaceBetween(s, i, j) && !IsSpace(s[j])
    ensures SkipSpace(s, i) == j
    decreases j - i
  {
    if i < j {
      SkipSpaceTo(s, i + 1, j);
    }
  }

  lemma {:induction false} SkipSpaceBackTo(s: string, i: nat, j: nat)
    requires 0 < i <= j <= |s| && SpaceBetween(s, i, j) && !IsSpace(s[i - 1])
    ensures SkipSpaceBack(s, j) == i
    decreases j - i
  {
    if i < j {
      SkipSpaceBackTo(s, i, j - 1);
    }
  }

  /** Whitespace around a word whose ends are not whitespace is exactly what
      `strip` removes. */
  lemma StripPadded(lead: string, w: string, trail: string)
    requires AllSpace(lead) && AllSpace(trail)
    requires |w| > 0 && !IsSpace(w[0]) && !IsSpace(w[|w| - 1])
    ensures Strip(lead + w + trail) == w
  {
    var s := lead + w + trail;
    var i, j := |lead|, |lead| + |w|;
    assert s[i] == w[0] && s[j - 1] == w[|w| - 1];
    assert SpaceBetween(s, 0, i) by {
      forall k | 0 <= k < i ensures IsSpace(s[k]) {
        assert s[k] == lead[k];
      }
    }
    assert SpaceBetween(s, j, |s|) by {
      forall k | j <= k < |s| ensures IsSpace(s[k]) {
        assert s[k] == trail[k - j];
      }
    }
    SkipSpaceTo(s, 0, i);
    SkipSpaceBackTo(s, j, |s|);
    assert s[i..j] == w;
  }

  lemma {:induction false} SkipAllSpace(s: string, i: nat)
    requires i <= |s| && SpaceBetween(s, i, |s|)
    ensures SkipSpace(s, i) == |s|
    decreases |s| - i
  {
    if i < |s| {
      SkipAllSpace(s, i + 1);
    }
  }

  /** A string made only of whitespace strips to the empty string. */
  lemma StripAllSpace(s: string)
    requires AllSpace(s)
    ensures Strip(s) == ""
  {
    SkipAllSpace(s, 0);
  }

  function LowerChar(c: char): char {
    if 'A' <= c <= 'Z' then (c as int + 32) as char else c
  }

  /** `s.lower()` on ASCII letters. Outside ASCII only U+212A (to 'k') and
      U+0130 (to "i" and a combining dot) lower-case to an ASCII letter, so
      this agrees with Python wherever the result is compared with a word
      spelled without 'k' and 'i', such as "y" or "yes". */
  function AsciiLower(s: string): (t: string)
    ensures |t| == |s|
    ensures forall k :: 0 <= k < |s| ==> t[k] == LowerChar(s[k])
  {
    seq(|s|, k requires 0 <= k < |s| => LowerChar(s[k]))
  }

  // ---------------------------------------------------------------------
  // os.path

  predicate AllDots(s: string) {
    forall k :: 0 <= k < |s| ==> s[k] == '.'
  }

  /** `os.path.splitext(name)[0]` for a name without a directory part: the
      name up to its last dot, unless everything before that dot is dots
      (a hidden file such as ".mp4" has no extension). */
  function SplitExtRoot(name: string): (root: string)
    ensures root <= name
  {
    if '.' !in name then name
    else
      var d := LastIndexOf(name, '.');
      if AllDots(name[..d]) then name else name[..d]
  }

  /** `os.path.basename(path)`: everything after the last '/'. */
  function Basename(path: string): (base: string)
    ensures '/' !in base
    ensures |base| <= |path| && base == path[|path| - |base|..]
  {
    if '/' in path then path[LastIndexOf(path, '/') + 1..] else path
  }

  /** Appending an extension (a dot and then no further dot) is undone by
      `splitext`, unless the stem is made only of dots. */
  lemma RootOfExtended(stem: string, ext: string)
    requires |ext| > 0 && ext[0] == '.' && '.' !in ext[1..]
    ensures SplitExtRoot(stem + ext) == if AllDots(stem) then stem + ext else stem
  {
    var s := stem + ext;
    assert s[|stem|] == '.';
    assert s[|stem| + 1..] == ext[1..];
    var d := LastIndexOf(s, '.');
    assert s[..d] == stem;
  }

  /** `os.path.join(a, b)` for two parts: an absolute `b` replaces `a`, and a
      '/' is inserted unless `a` is empty or already ends in one. */
  function PathJoin(a: string, b: string): (p: string)
    ensures EndsWith(p, b)
  {
    if |b| > 0 && b[0] == '/' then b
    else if a == [] || a[|a| - 1] == '/' then a + b
    else a + "/" + b
  }

  /** Appending text without `c` does not move the last `c`. */
  lemma {:induction false} LastIndexOfAppend(a: string, b: string, c: char)
    requires c in a && c !in b
    ensures c in a + b && LastIndexOf(a + b, c) == LastIndexOf(a, c)
    decreases |b|
  {
    var p := a + b;
    assert p[..|a|] == a;
    if |b| == 0 {
      assert p == a;
    } else {
      var init := b[..|b| - 1];
      assert b[|b| - 1] in b;
      assert init <= b;
      LastIndexOfAppend(a, init, c);
      assert p[..|p| - 1] == a + init;
    }
  }

  /** The basename of a path ending in "/" followed by a slash-free name is
      that name. */
  lemma BasenameAfterSlash(a: string, b: string)
    requires |a| > 0 && a[|a| - 1] == '/'
    requires '/' !in b
    ensures Basename(a + b) == b
  {
    assert a[|a| - 1] in a;
    LastIndexOfAppend(a, b, '/');
    assert (a + b)[|a|..] == b;
  }

  /** Joining a directory and a slash-free name and taking the basename gives
      the name back. */
  lemma BasenameOfJoin(dir: string, name: string)
    requires '/' !in name
    ensures Basename(PathJoin(dir, name)) == name
  {
    assert !(|name| > 0 && name[0] == '/') by {
      if |name| > 0 {
        assert name[0] in name;
      }
    }
    if dir == [] {
      assert dir + name == name;
    } else if dir[|dir| - 1] == '/' {
      BasenameAfterSlash(dir, name);
    } else {
      assert dir + "/" + name == (dir + "/") + name;
      BasenameAfterSlash(dir + "/", name);
    }
  }
}

=== FILE: wrappers.dfy ===
/** Failure-compatible datatypes shared by every module of the model:
    Option stands for a Python value that may be absent (a missing dict key,
    a NaN produced by a lenient numeric coercion), Result for an operation
    that may raise. */
module Wrappers {

  datatype Option<+T> = None | Some(value: T)

  datatype Result<+T, +E> = Ok(value: T) | Err(error: E) {

    predicate IsFailure() {
      Err?
    }

    function PropagateFailure<U>(): Result<U, E>
      requires Err?
    {
      Err(error)
    }

    function Extract(): T
      requires Ok?
    {
      value
    }
  }
}
